=== FILE: README.md ===
# Trace preparation for vehicular network simulation, in Dafny

This project models the data-preparation core of a toolkit that turns SUMO mobility
traces into the input tables of the disolv and pavenet network simulators, and proves
properties of that model. The core covers the following pieces:

- **Lane strings.** SUMO lane names (`:J1_0_1`, `12#3_0`, `7`) are parsed into a
  road id, a sub-road id and a lane id (`LaneParser`).
- **Ingestion loops.** Each time step block of a floating-car-data trace is read
  in order (`Ingestion`, `PavenetSumo`, `DisolvSumo`, `FromSumo`). Every
  observation becomes a position row. Rows are flushed in batches of a fixed size,
  plus one final batch (`Batching`). A presence tracker records when each vehicle
  was on the road (`Activation`, or the older single-interval `FromSumo` registry).
- **Link rows.** Neighbour queries (k nearest, or within a radius) become link
  rows. Self links are dropped when source and target are of one kind
  (`LinkArrays`, `InfraTree`). The k-d tree is an oracle (`Spatial`).
- **Position reader.** A forward-only reader over the row groups of the position
  table. It caches each chunk by time step, merges two chunks at a chunk boundary
  and finds the row group of a start time (`Reader`, over the insertion-ordered
  dict of `OrderedDict`).
- **Link phases.** The static phase (RSU–RSU, RSU–controller, controller–RSU) and
  the dynamic time-step loop, with its three buffered outputs (`AllLinks`).
- **Post-processing scripts.** Vehicles and RSUs are renumbered densely for ns-3
  (`IdMaps`). The v2r links are reduced to their transitions: the nearest RSU per
  (time step, vehicle), kept only when the target changes (`Transitions`).

Timestamps are integers. Coordinates and distances are opaque `real`s. Every table
is a sequence of rows, and a written file is the sequence of the batches written to it.

Two points where the code does something other than what it says it does, or reuses
another file's tracker:

- **k-nearest self queries.** A k-nearest query of a kind against itself returns each
  point's own match. The RSU-to-RSU query asks for k + 1 neighbours, and its comment
  (`src/prep_pavenet/links/infra_tree.py:358`) gives the reason: the search includes the
  device itself. That extra match is then never removed:
  - the node-to-node helper asks for exactly k and then drops self rows, so each
    node gets k - 1 links (`InfraTree.N2nCountSelfQuery`);
  - the RSU-to-RSU query asks for k + 1 and drops nothing, so each RSU keeps a
    link to itself (`InfraTree.I2iKeepsSelfLinks`, listed under Findings).
- **Disolv activation tracker.** The disolv ingestion loop imports a tracker from
  `src/prep_disolv/vehicle/veh_activations.py`, which is not part of this model.
  The model uses the tracker of `src/disolv_positions/vehicle/veh_activations.py`,
  whose state machine is the same one the pavenet copy runs.

## Model

| member | source | states |
|---|---|---|
| Activation.NewActivationData | src/disolv_positions/vehicle/veh_activations.py:12-18 | a fresh record is disrupted, has index -1, no intervals, and an ns-3 id equal to its node id |
| Activation.StartNewTrace | src/disolv_positions/vehicle/veh_activations.py:20-23 | the start list grows by exactly the given time at its end, the record becomes continuous, and when the index was at the last start it moves to the new one; the end list and ids do not change |
| Activation.DisruptTrace | src/disolv_positions/vehicle/veh_activations.py:30-31 | the record becomes disrupted and nothing else changes |
| Activation.AddEndTime | src/disolv_positions/vehicle/veh_activations.py:25-28 | the end list grows by one slot only when it is one short; only the current interval's end changes, to the given time |
| Activation.UpdateActivation | src/disolv_positions/vehicle/veh_activations.py:46-52 | a new or disrupted vehicle gets a new interval [t, t]; a continuous one only has its current end moved to t; afterwards it is continuous with last end t, starts and ends stay equally long, and no other vehicle changes |
| Activation.TimeStepComplete | src/disolv_positions/vehicle/veh_activations.py:54-57 | exactly the tracked vehicles whose last end is before t become disrupted; no interval and no tracked set changes |
| Activation.TimeStepCompleteIdempotent | src/disolv_positions/vehicle/veh_activations.py:54-57 | completing a time step twice is the same as completing it once |
| Activation.RunTracksSeenIds | src/disolv_positions/vehicle/veh_activations.py:47 | after a trace the tracked and active vehicles are exactly the vehicles ever sighted, and the record order has one entry per sighted vehicle |
| Activation.RunIntervalsOrdered | src/disolv_positions/vehicle/veh_activations.py:20-28 | with non-decreasing block times every record's intervals satisfy start <= end < next start, and all lie at or before the last time |
| Activation.SightedStaysContinuous | src/disolv_positions/vehicle/veh_activations.py:54-57 | a vehicle sighted in a block is still continuous after that block is completed |
| Activation.SightingOpens | src/disolv_positions/vehicle/veh_activations.py:46-52 | a lone sighting of a new or disrupted vehicle appends [t, t] to its intervals |
| Activation.SightingExtends | src/disolv_positions/vehicle/veh_activations.py:46-52 | a lone sighting of a continuous vehicle replaces only its last end, with t |
| Activation.EmptyStepDisrupts | src/disolv_positions/vehicle/veh_activations.py:54-57 | a completed block without the vehicle, later than its last end, disrupts it and keeps its intervals |
| Activation.TwoIntervalsExample | src/disolv_positions/vehicle/veh_activations.py:20-28 | sightings at 0, 10, 20, an empty block at 30, then sightings at 50, 60 give the intervals [0, 20] and [50, 60] |
| Activation.DisolvActivationRows | src/disolv_positions/vehicle/veh_activations.py:59-80 | the disolv table has one row per interval of the tracked vehicles; each row holds a tracked vehicle's id twice (node id, ns-3 id) and the start and end of one of its intervals |
| Activation.DisolvRowsLayout | src/disolv_positions/vehicle/veh_activations.py:61-78 | the table is laid out vehicle by vehicle in record (first-seen) order: the rows of the j-th recorded vehicle are its intervals in order, right after the rows of the vehicles before it |
| Activation.EveryIntervalWritten | src/disolv_positions/vehicle/veh_activations.py:61-74 | every interval of every listed vehicle appears as a row |
| Activation.PavenetActivationRows | src/prep_pavenet/vehicle/veh_activations.py:55-66 | the pavenet table has exactly one row per tracked vehicle, the k-th row for the k-th recorded (first-seen) vehicle, with distinct node ids, each carrying that vehicle's full start and end lists |
| LaneParser.ReadLaneDataWithColon | src/prep_pavenet/vehicle/sumo.py:224-229 | succeeds iff the string has a ':' and the part after the first ':' has at least three '_' fields; then road, sub-road and lane are the first three of those fields, and any further fields are ignored |
| LaneParser.ReadLaneDataWithHash | src/prep_pavenet/vehicle/sumo.py:217-221 | succeeds iff the string has exactly two '_' parts and the first has a '#'; too many or too few parts is a different error than a missing '#' field; road and sub-road are the first two '#' fields of the first part, and the lane is the second part |
| LaneParser.InternalLaneFields | src/prep_pavenet/vehicle/sumo.py:224-229 | text before the ':' is ignored, and of three or more '_' fields after it the first three are road, sub-road and lane |
| LaneParser.NumberedLaneFields | src/prep_pavenet/vehicle/sumo.py:217-221 | for "P0#P1#...#Pn_L", road is P0, sub-road is P1, lane is L, and any further '#' fields are ignored |
| LaneParser.ReadRoadData | src/prep_pavenet/vehicle/sumo.py:205-214 | ':' takes precedence over '#', and '#' over the plain case; a plain edge gives (edge, 0, 0); a plain edge with '_' fails |
| LaneParser.ConvertRoadDataToInt | src/prep_pavenet/vehicle/sumo.py:196-202 | succeeds iff all three fields are accepted by `int`, and then holds their values |
| Strings.ParseInt | src/prep_pavenet/vehicle/sumo.py:196-202 | `int` on a string: blank text is rejected, an accepted string is not blank once trimmed, and its value is at most 0 after a leading '-' and at least 0 otherwise |
| Strings.ParseFormatInt | src/prep_pavenet/vehicle/sumo.py:196-202 | the decimal text of any integer parses back to it |
| Strings.ParseIntPadded | src/prep_pavenet/vehicle/sumo.py:196-202 | white space before and after a decimal integer does not change what it parses to |
| Strings.ParseIntGrouped | src/prep_pavenet/vehicle/sumo.py:196-202 | single '_' between digits groups them: "1_000" parses to 1000 |
| Strings.ParseIntRejects | src/prep_pavenet/vehicle/sumo.py:196-202 | a doubled '_', a leading '_' and a space after the sign are all rejected |
| LaneParser.PaddedNumberedLane | src/prep_pavenet/vehicle/sumo.py:196-221 | "R#S_L" with white space before R still parses to (R, S, L), as `int` strips it |
| LaneParser.NumberedLaneRoundTrip | src/prep_pavenet/vehicle/sumo.py:196-221 | "R#S_L" written from integers parses back to (R, S, L) |
| LaneParser.InternalLaneRoundTrip | src/prep_pavenet/vehicle/sumo.py:224-229 | ":R_S_L" written from integers parses back to (R, S, L) |
| LaneParser.PlainEdgeRoundTrip | src/prep_pavenet/vehicle/sumo.py:211-214 | a plain integer edge parses back to (edge, 0, 0) |
| LaneParser.PlainEdgeWithLaneFails | src/prep_pavenet/vehicle/sumo.py:211-213 | "R_L" with neither ':' nor '#' fails, because the plain branch writes to an immutable tuple |
| LaneParser.NumberedLaneExtraFieldFails | src/prep_pavenet/vehicle/sumo.py:217-218 | "R#S_L_X" fails with a part-count error |
| LaneParser.InternalLaneTooShortFails | src/prep_pavenet/vehicle/sumo.py:224-226 | ":R_S" fails, missing the lane field |
| Batching.Push | src/prep_pavenet/vehicle/sumo.py:124-128 | adding a row appends it to the buffered rows, keeps every earlier batch, and keeps every batch at the flush size |
| Batching.Finish | src/prep_pavenet/vehicle/sumo.py:133-137 | the final flush adds the pending rows as one more batch only if there are any, so the batches concatenate to all rows |
| Batching.WriteStreamBatches | src/prep_pavenet/vehicle/sumo.py:124-137 | the written batches concatenate to exactly the rows, each batch but the last is full, and there are ceil(n / size) batches |
| Ingestion.MapRows | src/prep_pavenet/vehicle/sumo.py:144-170 | reading rows succeeds iff every observation reads; then there is one row per observation, in order; otherwise the error is that of the first failing observation |
| Ingestion.MapRowsFailureSticks | src/prep_pavenet/vehicle/sumo.py:113-122 | once an observation fails, later observations do not change the outcome |
| Ingestion.ReadVehicles | src/prep_pavenet/vehicle/sumo.py:118-121 | `int()` of the ids of one timestep's vehicles succeeds iff every id is integer text, giving one observation per vehicle with its parsed id and its other attributes; otherwise `ValueError` |
| Ingestion.ReadTimesteps | src/prep_disolv/vehicle/sumo.py:107-117 | reading the ids of a whole file succeeds iff every vehicle id is integer text, giving one block per timestep with its time; otherwise `ValueError` |
| Ingestion.ReadObservations | src/prep_disolv/vehicle/sumo.py:107-117 | the observations of the read blocks are the file's vehicle elements, one each, in document order, with their ids parsed |
| Ingestion.ReadWrittenTimesteps | src/prep_pavenet/scripts/route_id_fix.py:16-20 | a file whose vehicle ids are written as decimal integers, as this script renumbers them, reads back as exactly the blocks it was written from |
| Ingestion.MapRowsPointwise | src/prep_pavenet/vehicle/sumo.py:118-122 | two streams whose elements build the same rows, element by element, give the same rows or the same first error |
| Ingestion.ConvertFcd | src/prep_pavenet/vehicle/sumo.py:113-141 | the shared loop: it fails iff some observation fails; otherwise the batches hold every row in document order, all but the last full; the tracker has seen each block's ids in order, then one completion per block; the vehicle count is the number of distinct ids |
| PavenetSumo.NumberedLaneRow | src/prep_pavenet/vehicle/sumo.py:144-170 | an observation on lane "R#S_L" gives the row with coordinates shifted by the offset, road R, sub-road S and lane L, and its own time, id, speed and type |
| PavenetSumo.EdgeWithoutSubRoadRow | src/prep_pavenet/vehicle/sumo.py:144-170 | an observation on lane "R_L" of an edge without '#' gives no row but the immutable-field error |
| PavenetSumo.ConvertFcdToParquet | src/prep_pavenet/vehicle/sumo.py:113-142 | fails iff some vehicle element has an id that is not integer text or a lane string that does not parse, with the error of the first such element; otherwise every id reads and there is one row per observation in batches of 1000 but the last, one activation row per distinct vehicle, and the vehicle count equals the number of distinct ids |
| PavenetSumo.RowsFailIff | src/prep_pavenet/vehicle/sumo.py:162-163 | once the ids are read, reading all rows fails iff some observation's lane string does not parse |
| PavenetSumo.SightingRowsFailIff | src/prep_pavenet/vehicle/sumo.py:118-163 | building the rows of the file's vehicle elements, id first and then lane, fails iff some id is not integer text or some lane string does not parse |
| PavenetSumo.SameRows | src/prep_pavenet/vehicle/sumo.py:144-149 | once every id reads, the rows built from the file's vehicle elements are those built from the read observations: the second `int()` of the id reads the same text |
| DisolvSumo.Normalize | src/prep_disolv/vehicle/sumo.py:108-111 | there is one block per input block, in order, each with the observations of its input block |
| DisolvSumo.NormalizeBySetOffset | src/prep_disolv/vehicle/sumo.py:109-111 | with the offset already set, every block time is reduced by it and nothing else changes |
| DisolvSumo.NormalizeByFirstTime | src/prep_disolv/vehicle/sumo.py:109-111 | from the unset sentinel the offset becomes the first block's time, so the first block is at 0 |
| DisolvSumo.NormalizedTimesOrdered | src/prep_disolv/vehicle/sumo.py:109-111 | non-decreasing input times stay non-decreasing and become non-negative |
| DisolvSumo.ConvertFcdToParquet | src/prep_disolv/vehicle/sumo.py:106-139 | fails with `ValueError` iff some vehicle id is not integer text; otherwise one row per observation at its normalised time, in batches of 10000 but the last; the tracker runs on normalised times; one activation row per interval; the vehicle count is the number of distinct ids |
| FromSumo.UpdateActivation | src/prep_pavenet/vehicle/from_sumo.py:181-185 | a first sighting creates the record (id, t, -1) at the end of the order; a later one only overwrites the end time; nothing else changes |
| FromSumo.TrackedIffSighted | src/prep_pavenet/vehicle/from_sumo.py:91-99 | the registry holds exactly the sighted vehicles |
| FromSumo.StartIsFirstSighting | src/prep_pavenet/vehicle/from_sumo.py:181-183 | a vehicle's start time is the time of its first sighting |
| FromSumo.EndIsLastSighting | src/prep_pavenet/vehicle/from_sumo.py:181-185 | the end time is the time of the last sighting, or -1 when the vehicle was sighted once, whatever the gaps |
| FromSumo.FirstSightingHasNoEnd | src/prep_pavenet/vehicle/from_sumo.py:29-32 | right after its first sighting a vehicle has end time -1 |
| FromSumo.LaterSightingSetsEnd | src/prep_pavenet/vehicle/from_sumo.py:184-185 | a later sighting sets the end time to its time |
| FromSumo.ActivationRows | src/prep_pavenet/vehicle/from_sumo.py:118-127 | one row (id, start, end) per registered vehicle, in first-sighting order |
| FromSumo.OneRowPerVehicle | src/prep_pavenet/vehicle/from_sumo.py:118-127 | every sighted vehicle has exactly one activation row, holding its first and last sighting |
| FromSumo.ConvertFcdToParquet | src/prep_pavenet/vehicle/from_sumo.py:91-115 | fails iff some vehicle element has an id that is not integer text or a lane string that does not parse, with the error of the first such element; otherwise every id reads and there is one unshifted row per observation in batches of 1000 but the last, and the activation rows of all sightings |
| Spatial.Query | src/prep_pavenet/links/infra_tree.py:64-66 | a k-nearest query succeeds iff k is at most the number of indexed points, with one answer per query point |
| Spatial.SelfIsNearest | src/prep_pavenet/links/infra_tree.py:356-360 | querying an indexed point, among distinct points, returns that point itself at distance 0 |
| LinkArrays.Reset | src/prep_pavenet/links/infra_tree.py:29-34 | reset gives empty, aligned columns and array size 0 |
| LinkArrays.Append | src/prep_pavenet/links/all_links.py:144-152 | appending columns concatenates the rows and adds the sizes, and keeps the columns aligned |
| LinkArrays.AppendColumns | src/prep_pavenet/links/all_links.py:160-167 | appending columns without touching the row count concatenates the rows and leaves the array size as it was |
| LinkArrays.ConvertQueryToArrays | src/prep_pavenet/links/infra_tree.py:114-149 | the four columns have equal length, equal to the array size |
| LinkArrays.SourceRows | src/prep_pavenet/links/infra_tree.py:124-131 | for a source and each returned index, the row (time step, source id, target id at that index, the matching distance) |
| LinkArrays.ArraysMatchDf | src/prep_pavenet/links/infra_tree.py:114-178 | the array conversion gives the data-frame rows, without the self links when same-type |
| LinkArrays.ConvertFormsAgree | src/prep_pavenet/links/infra_tree.py:132-178 | the array form equals the data-frame form with self links filtered out when same-type, and equals it verbatim otherwise |
| LinkArrays.SameTypeDropsSelfLinks | src/prep_pavenet/links/infra_tree.py:132-138 | with same-type, a row is kept iff it is a data-frame row whose target differs from its source; otherwise all rows are kept |
| LinkArrays.ConvertQueryToDf | src/prep_pavenet/links/infra_tree.py:152-178 | every data-frame row is at the given time step |
| LinkArrays.DfLayout | src/prep_pavenet/links/infra_tree.py:152-178 | the rows are ordered by source, then by query-result order |
| LinkArrays.DfMembers | src/prep_pavenet/links/infra_tree.py:152-178 | a row is in the output iff some source and returned index produce it |
| LinkArrays.RowsOfSource | src/prep_pavenet/links/infra_tree.py:152-178 | with distinct sources, the rows of one source are exactly its query result, in order |
| InfraTree.GetN2nLinksWithCount | src/prep_pavenet/links/infra_tree.py:37-72 | succeeds iff the count is at most the number of nodes; the arrays are aligned and hold no self link |
| InfraTree.N2nCountAtMost | src/prep_pavenet/links/infra_tree.py:64-72 | each node gets at most the requested count of links |
| InfraTree.N2nCountSelfQuery | src/prep_pavenet/links/infra_tree.py:64-72 | when the nodes query their own positions, each gets exactly count - 1 links, because its own match is dropped |
| InfraTree.GetN2nLinksWithRadius | src/prep_pavenet/links/infra_tree.py:75-111 | the radius form is aligned and holds no self link |
| InfraTree.N2nRadiusLinks | src/prep_pavenet/links/infra_tree.py:75-111 | two distinct nodes are linked iff they are within the radius |
| InfraTree.GetN2iLinksWithCount | src/prep_pavenet/links/infra_tree.py:201-235 | succeeds iff the count is at most the number of RSUs, with aligned columns |
| InfraTree.N2iCount | src/prep_pavenet/links/infra_tree.py:225-235 | each node gets exactly the requested number of RSU links |
| InfraTree.GetN2iLinksWithRadius | src/prep_pavenet/links/infra_tree.py:237-271 | the node-to-RSU radius links are aligned columns |
| InfraTree.GetI2nLinksWithCount | src/prep_pavenet/links/infra_tree.py:273-306 | asks for count + 1 nodes, so it succeeds iff count + 1 is at most the number of nodes |
| InfraTree.I2nCount | src/prep_pavenet/links/infra_tree.py:298-306 | each RSU gets count + 1 node links, none filtered |
| InfraTree.GetI2nLinksWithRadius | src/prep_pavenet/links/infra_tree.py:308-341 | the RSU-to-node radius links are aligned columns |
| InfraTree.I2nRadiusLinks | src/prep_pavenet/links/infra_tree.py:308-341 | an RSU and a node are linked iff they are within the radius |
| InfraTree.GetI2iLinksOfCount | src/prep_pavenet/links/infra_tree.py:343-364 | as written: asks for count + 1 neighbours and succeeds iff there are that many RSUs; all rows are at time 0 |
| InfraTree.I2iKeepsSelfLinks | src/prep_pavenet/links/infra_tree.py:356-364 | as written, every RSU keeps its self link at distance 0 and gets count + 1 rows |
| InfraTree.GetI2iLinksOfCountFixed | src/prep_pavenet/links/infra_tree.py:343-364 | corrected: same query, with self rows dropped; no row links an RSU to itself |
| InfraTree.I2iFixedCount | src/prep_pavenet/links/infra_tree.py:356-360 | corrected: each RSU gets exactly count links to other RSUs |
| InfraTree.GetI2OtherILinksWithRadius | src/prep_pavenet/links/infra_tree.py:366-400 | no row has equal source and target ids, even across the two kinds |
| InfraTree.I2OtherIRadiusLinks | src/prep_pavenet/links/infra_tree.py:366-400 | an RSU and a device of the other kind with different ids are linked iff they are within the radius |
| OrderedDict.Lookup | src/prep_pavenet/links/reader.py:67-80 | a key is found iff some entry has it, and with distinct keys the lookup is that entry's value |
| OrderedDict.PutLookup | src/prep_pavenet/links/reader.py:76-80 | after setting a key it holds the new value, and every other key keeps its old one |
| OrderedDict.FromPairsLookup | src/prep_pavenet/links/reader.py:76-80 | a dict built from pairs holds the last value given to each key |
| OrderedDict.Merge | src/prep_pavenet/links/reader.py:141-144 | updating a dict with another takes the second's value where it has the key, and the first's otherwise |
| OrderedDict.UpdateSelf | src/prep_pavenet/links/reader.py:141-144 | updating a dict with itself changes nothing |
| Reader.CacheHoldsLastRow | src/prep_pavenet/links/reader.py:67-80 | the cache has a time step iff the chunk has a row at it, and maps each id to the position of its last row at that step |
| Reader.UpdateDataCache | src/prep_pavenet/links/reader.py:50-80 | a refill succeeds iff the row group exists and is non-empty, and says which of the two failed otherwise; the group becomes the held chunk with a cache built from it, and the group id advances by one but never past the last group |
| Reader.MaxTsIsLargest | src/prep_pavenet/links/reader.py:57-60 | in a time-sorted chunk the max time step is cached and is the largest time step of the chunk |
| Reader.InitializeForReading | src/prep_pavenet/links/reader.py:32-40 | the first refill loads row group 0, and succeeds iff it exists and is non-empty |
| Reader.GetPositionsAt | src/prep_pavenet/links/reader.py:124-151 | away from the max time step nothing is read; below it, an uncached step gives empty ids and positions; ids and positions are equally long; a failure can only come from a refill |
| Reader.PositionsWithinChunk | src/prep_pavenet/links/reader.py:138-151 | away from the max time step the answer holds exactly the vehicles the chunk has at ts, each once, at the position of its last row |
| Reader.PositionsAtBoundary | src/prep_pavenet/links/reader.py:141-151 | at the max time step the reader advances and answers the vehicles of both chunks, each once, the new chunk winning on an id collision |
| Reader.LastGroupRereads | src/prep_pavenet/links/reader.py:63-64 | at the last row group the refill reloads the same group, and the answer counts nothing twice |
| Reader.GetRowGroupIds | src/prep_pavenet/links/reader.py:82-122 | the loop computes the recursive row-group lookup; it gives one id when there are no start times and one id per start time otherwise |
| Reader.GroupsFromOrdered | src/prep_pavenet/links/reader.py:100-122 | the row group ids never go backwards |
| Reader.RowGroupIdsFirstFit | src/prep_pavenet/links/reader.py:100-122 | for sorted start times each id is the first group whose last time step is at least the start time, and the ids are non-decreasing |
| AllLinks.RangeValues | src/prep_pavenet/links/all_links.py:132 | the visited time steps are exactly 0, step, 2·step, ... below the duration, in increasing order |
| AllLinks.StepLinksAt | src/prep_pavenet/links/all_links.py:136-184 | one step's links succeed iff the v2r count fits the RSUs; the columns are aligned; with at most one vehicle there are no v2v rows; no v2v row links a vehicle to itself |
| AllLinks.Flush | src/prep_pavenet/links/all_links.py:186-196 | a buffer over the cache size is written and reset, otherwise nothing happens; rows are neither lost nor duplicated |
| AllLinks.AddTo | src/prep_pavenet/links/all_links.py:141-196 | adding a step's arrays to a buffered output extends what it has emitted by exactly those rows |
| AllLinks.Close | src/prep_pavenet/links/all_links.py:200-205 | the final write, made even when empty, completes the written rows; a counting buffer's in-loop batches are each over the cache size |
| AllLinks.DynamicLinks | src/prep_pavenet/links/all_links.py:115-207 | the loop succeeds iff generation does; each file's batches concatenate to its generated rows in step order |
| AllLinks.CalculateDynamicLinks | src/prep_pavenet/links/all_links.py:115-207 | as written: v2r is flushed in full batches, while r2v and v2v are each written as one final batch holding all their rows |
| AllLinks.CalculateDynamicLinksFixed | src/prep_pavenet/links/all_links.py:115-207 | corrected: all three files get their generated rows, in batches over the cache size but the last |
| AllLinks.CalculateStaticLinks | src/prep_pavenet/links/all_links.py:93-113 | as written: the static phase succeeds iff the RSU count covers count + 1; each of r2r, r2c and c2r is written in one batch; r2r rows are all at time 0, and r2c and c2r hold no self links |
| AllLinks.StaticLinksAsWritten | src/prep_pavenet/links/all_links.py:93-113 | as written: each RSU has count + 1 r2r rows, one of them a link to itself at distance 0; an RSU and a controller are linked iff within r2c_radius (r2c) and c2r_radius (c2r) |
| AllLinks.CalculateStaticLinksFixed | src/prep_pavenet/links/all_links.py:93-113 | corrected: succeeds under the same condition, its r2r table holds no self links, and its r2c and c2r tables are those of the program |
| AllLinks.StaticLinksMeaning | src/prep_pavenet/links/all_links.py:93-113 | corrected: each RSU gets exactly count other RSUs; an RSU and a controller are linked iff within r2c_radius (r2c) and c2r_radius (c2r) |
| IdMaps.Numbered | src/prep_disolv/scripts/ns3_input_fix.py:7-18 | the i-th id is paired with offset + i |
| IdMaps.VehIdMapLookup | src/prep_disolv/scripts/ns3_input_fix.py:7-11 | the vehicle map holds exactly the ids of the table, each mapped to the position of its last occurrence |
| IdMaps.RsuIdMapLookup | src/prep_disolv/scripts/ns3_input_fix.py:14-18 | the RSU map holds exactly its ids, each mapped to the vehicle count plus the position of its last occurrence |
| IdMaps.NumberedRange | src/prep_disolv/scripts/ns3_input_fix.py:7-18 | every value of a numbering is in [offset, offset + n) |
| IdMaps.DisjointRanges | src/prep_disolv/scripts/ns3_input_fix.py:44-52 | with distinct ids, vehicles get 0..n-1, RSUs get n..n+m-1, and every vehicle number is below every RSU number |
| IdMaps.DuplicateIdsCollide | src/prep_disolv/scripts/ns3_input_fix.py:7-18 | with a repeated vehicle id the last position wins, and the RSU numbering starts at a number a vehicle already holds |
| IdMaps.ModifyAgentIds | src/prep_disolv/scripts/ns3_input_fix.py:21-24 | only the agent id changes, mapped through the map, and an unmapped id becomes missing |
| IdMaps.ModifyRoundTrip | src/prep_disolv/scripts/ns3_input_fix.py:21-24 | with distinct ids, mapping agent ids through a numbering and back gives the original rows |
| IdMaps.RemapLinks | src/prep_disolv/scripts/ns3_input_fix.py:63-66 | sources go through one map and targets through the other; time steps and distances are unchanged |
| IdMaps.V2rLinksRanges | src/prep_disolv/scripts/ns3_input_fix.py:63-66 | after the v2r remap every source is a vehicle number in [0, n) and every target an RSU number in [n, n + m) |
| Transitions.Find | src/prep_pavenet/scripts/v2r_transitions.py:49-52 | the lookup of a (node, time step) key finds a row with that key iff one exists |
| Transitions.Offer | src/prep_pavenet/scripts/v2r_transitions.py:49-52 | offering a row keeps the groups sorted by key, and adds no row but the one offered |
| Transitions.NearestFind | src/prep_pavenet/scripts/v2r_transitions.py:49-52 | exactly the keys of the input survive, each with the row of least distance, the first of equals |
| Transitions.NearestKeepsIdxMin | src/prep_pavenet/links/ns3_links.py:8-11 | every row that is its group's first minimum survives |
| Transitions.NearestOnlyIdxMin | src/prep_pavenet/links/ns3_links.py:8-11 | every surviving row is its group's first minimum |
| Transitions.NearestCoversGroups | src/prep_pavenet/links/ns3_links.py:8-11 | every (time step, node) group keeps a row |
| Transitions.TransitionsOrdered | src/prep_pavenet/links/ns3_links.py:14-23 | the output is ordered by (node, time step) and is made of input rows |
| Transitions.ChangeMask | src/prep_pavenet/links/ns3_links.py:15-22 | the mask is true exactly at the rows that are a node's first or change its target |
| Transitions.KeepChangesLastTarget | src/prep_pavenet/links/ns3_links.py:15-23 | filtering keeps each node's last target |
| Transitions.KeptRowsChange | src/prep_pavenet/scripts/v2r_transitions.py:57-64 | every kept row is its node's first or changes the target |
| Transitions.KeepChangesIdempotent | src/prep_pavenet/scripts/v2r_transitions.py:57-64 | filtering twice is filtering once |
| Transitions.AdjacentTargetsDiffer | src/prep_pavenet/scripts/v2r_transitions.py:57-64 | consecutive kept rows of a node have different targets |
| Transitions.KeptIffChanged | src/prep_pavenet/links/ns3_links.py:16-23 | a node's first row and every row that changes the target are kept |
| Transitions.EveryNodeKept | src/prep_pavenet/links/ns3_links.py:19-23 | a node keeps at least one row iff it has one |
| Transitions.MaskSubsequence | src/prep_pavenet/scripts/v2r_transitions.py:63-64 | masking yields input rows and preserves the order |
| Transitions.ReplaceTargets | src/prep_pavenet/scripts/v2r_transitions.py:66-78 | only the target changes; a mapped target takes its value and an unmapped one is kept |
| Transitions.PavenetTransitions | src/prep_pavenet/scripts/v2r_transitions.py:48-83 | the script fails iff the RSU table is empty; otherwise both outputs have one row per transition |
| Transitions.PavenetOnlyTargetsChange | src/prep_pavenet/scripts/v2r_transitions.py:66-78 | both outputs are the transitions with only their target ids replaced |
| Transitions.ReadNodeMapping | src/prep_pavenet/scripts/v2r_transitions.py:18-31 | reading the mapping fails iff the RSU table is empty |
| Transitions.NodeMappingOffset | src/prep_pavenet/scripts/v2r_transitions.py:23-31 | both mappings hold exactly the table's nodes; without offset each value is reduced by the first row's ns-3 id, so the first RSU maps to 0 |
| Transitions.IdentityMappingLookup | src/prep_disolv/scripts/v2r_transitions.py:24-37 | the disolv mappings are identities: on the agent ids, and on the agent ids shifted by the first one |
| Transitions.ReplaceIdentity | src/prep_disolv/scripts/v2r_transitions.py:29 | replacing targets through the identity mapping leaves every row unchanged |
| Transitions.DisolvTransitions | src/prep_disolv/scripts/v2r_transitions.py:24-85 | the disolv script fails iff the RSU table is empty; otherwise its output is sorted by (agent, time step), is made of input rows, and is its own change-filter fixed point |

## Left out

- Parquet, CSV and XML input and output are not modelled: readers, `ParquetWriter`, `to_parquet`, `to_csv`, `LinksWriter` (`src/prep_pavenet/links/writer.py`). A written file is the sequence of its batches; a read table is a sequence of row groups.
- The sklearn KD-tree is an oracle (`Spatial.KdTree`): the model states what a sound answer is (`NearestSound`, `WithinSound`) but not how the tree finds it.
- Float parsing and time-attribute arithmetic (`int(round(float(t), 1) * 10) * 100`, `int(float(t) * 1000)`) are not modelled: block times are given as integers. Coordinates, speeds and distances are opaque reals, and the coordinate offset is a plain subtraction.
- Progress bars, logging, configuration, command-line handling and orchestration are not modelled.
- Writes made before a mid-stream failure are not modelled: a failing conversion is a `Failure` with no partial output.
- `_get_row_group_ids` pops from the caller's list; the model works on a copy and does not model that mutation.
- Nothing is concurrent, and none of the multiprocessing its comment mentions is modelled.
- `src/prep_pavenet/links/devices.py` is a superseded data-frame copy of the link phases and is not modelled.
- The main-block file writes of `src/prep_disolv/scripts/ns3_input_fix.py` are not modelled, including the v2v/r2v/r2r blocks that write the activation table instead of the links.
- `src/prep_disolv/vehicle/veh_activations.py` is not part of this model; the disolv ingestion loop uses the tracker of `src/disolv_positions/vehicle/veh_activations.py`.
- Junction and controller placement, RSU deployment, geometry conversion and the plotting, sampling and scaling scripts are not modelled.
- Activation.PavenetActivationRows: the pavenet record has no ns-3 id; the model's shared record carries one, which the pavenet rows do not use.
- Activation.RunIntervalsOrdered: the ordering is proved for traces whose block times do not decrease; SUMO writes time steps in increasing order, and nothing is claimed otherwise.
- IdMaps.DisjointRanges: disjointness is proved for distinct ids only. Whether the activation tables can hold a vehicle twice depends on `src/prep_disolv/vehicle/veh_activations.py`, which is not part of this model; `IdMaps.DuplicateIdsCollide` shows what happens if they do.
- LaneParser.ConvertRoadDataToInt: `int` also accepts decimal digits of other scripts (Arabic-Indic, Devanagari, full-width, ...); the model accepts only '0'-'9'. SUMO lane ids are written with ASCII digits.
- Ingestion.ReadTimesteps: as for lane fields, `int` also accepts vehicle ids in decimal digits of other scripts; the model accepts only '0'-'9'.
- Spatial.Query: the model lets a tree hold zero points, so a query for zero neighbours on it succeeds; the library already refuses to build such a tree (`src/prep_pavenet/links/infra_tree.py:198`). Vehicle trees are never empty, because a step with no vehicles is skipped (`src/prep_pavenet/links/all_links.py:138-139`).
- InfraTree.N2nCountAtMost: each node's link count is bounded on the assumption that the oracle returns exactly the requested count of neighbours.

## Findings

| source | as written | input that shows it | evidently intended | confidence | as-written member | corrected member |
|---|---|---|---|---|---|---|
| src/prep_pavenet/links/infra_tree.py:356-364 | asks for link_count + 1 neighbours "because search includes the current device", then converts with `convert_query_to_df`, which drops nothing | any RSU set with at least link_count + 1 distinct positions: each RSU's own row is returned at distance 0 and written as an r2r link | each RSU gets link_count links to other RSUs, with its self match removed | high; not executed | InfraTree.GetI2iLinksOfCount, InfraTree.I2iKeepsSelfLinks, AllLinks.CalculateStaticLinks, AllLinks.StaticLinksAsWritten | InfraTree.GetI2iLinksOfCountFixed, InfraTree.I2iFixedCount, AllLinks.CalculateStaticLinksFixed, AllLinks.StaticLinksMeaning |
| src/prep_pavenet/links/all_links.py:160-167,173-184,190-196 | the r2v and v2v buffers get appended to but their `array_size` is never increased, so the `> 100000` checks never fire | any run whose r2v rows exceed 100000: the whole file is buffered and written once at the end | every buffer is flushed once it exceeds the cache size, like the v2r buffer | high; not executed | AllLinks.CalculateDynamicLinks | AllLinks.CalculateDynamicLinksFixed |

=== FILE: activation.dfy ===
/**
 * The per-vehicle presence tracker of the ingestion loops
 * (`ActivationData` and `VehicleActivation`). Each vehicle owns a list of
 * [start, end] presence intervals and is either CONTINUOUS (its current interval
 * is still open) or DISRUPTED (it was missing from a completed time step, so its
 * next sighting opens a new interval). The disolv and pavenet copies of the
 * tracker run the same state machine; they differ only in the rows they write,
 * which are the two `...ActivationRows` functions below.
 */
module Activation {
  import opened Seqs

  /** One vehicle's record; `index` is the position of the current interval (-1 before the first). */
  datatype ActivationData = ActivationData(
    id: int,
    ns3Id: int,
    startTimes: seq<int>,
    endTimes: seq<int>,
    index: int,
    disrupted: bool)

  /** A fresh record: disrupted, index -1, no intervals, ns3 id equal to the node id. */
  function NewActivationData(id: int): (a: ActivationData)
    ensures a.disrupted && a.index == -1
    ensures a.startTimes == [] && a.endTimes == []
    ensures a.id == id && a.ns3Id == id
  {
    ActivationData(id, id, [], [], -1, true)
  }

  /**
   * Open a new interval at `startTime`: the start list gains it as its last entry,
   * the record becomes continuous, and when `index` was on the last start it moves
   * on to the new one. The end list is left for `AddEndTime`.
   */
  function StartNewTrace(a: ActivationData, startTime: int): (r: ActivationData)
    ensures |r.startTimes| == |a.startTimes| + 1 && r.startTimes[..|a.startTimes|] == a.startTimes
    ensures r.startTimes[|a.startTimes|] == startTime
    ensures !r.disrupted
    ensures a.index + 1 == |a.startTimes| ==> r.index == |r.startTimes| - 1 && r.startTimes[r.index] == startTime
    ensures r.endTimes == a.endTimes && r.id == a.id && r.ns3Id == a.ns3Id
  {
    a.(startTimes := a.startTimes + [startTime], disrupted := false, index := a.index + 1)
  }

  /**
   * Set the end of the current interval, first appending a slot for it when the
   * end list is one short. Only that one entry changes.
   */
  function AddEndTime(a: ActivationData, endTime: int): (r: ActivationData)
    requires 0 <= a.index <= |a.endTimes|
    ensures |r.endTimes| == if |a.endTimes| < a.index + 1 then a.index + 1 else |a.endTimes|
    ensures r.endTimes[a.index] == endTime
    ensures forall k :: 0 <= k < |a.endTimes| && k != a.index ==> r.endTimes[k] == a.endTimes[k]
    ensures r.(endTimes := a.endTimes) == a
  {
    var ends := if |a.endTimes| < a.index + 1 then a.endTimes + [endTime] else a.endTimes;
    a.(endTimes := ends[a.index := endTime])
  }

  /** Mark the record disrupted; its intervals and everything else stay as they are. */
  function DisruptTrace(a: ActivationData): (r: ActivationData)
    ensures r.disrupted
    ensures r.(disrupted := a.disrupted) == a
  {
    a.(disrupted := true)
  }

  /** A record that has been through at least one update: as many starts as ends, `index` on the last. */
  predicate RecordValid(a: ActivationData)
  {
    0 <= a.index && |a.startTimes| == a.index + 1 && |a.endTimes| == a.index + 1
  }

  /** `end_times[-1]`. */
  function LastEnd(a: ActivationData): int
    requires RecordValid(a)
  {
    a.endTimes[a.index]
  }

  /**
   * The tracker: records by vehicle id, the dict's insertion order (which fixes
   * the order of the written rows), and the set of vehicles ever seen.
   */
  datatype Tracker = Tracker(data: map<int, ActivationData>, order: seq<int>, active: set<int>)

  predicate Valid(tr: Tracker)
  {
    && tr.active == tr.data.Keys
    && (forall i, j :: 0 <= i < j < |tr.order| ==> tr.order[i] != tr.order[j])
    && (forall k :: 0 <= k < |tr.order| ==> tr.order[k] in tr.data)
    && (forall v :: v in tr.data ==> v in tr.order)
    && (forall v :: v in tr.data ==> RecordValid(tr.data[v]) && tr.data[v].id == v && tr.data[v].ns3Id == v)
  }

  function EmptyTracker(): (tr: Tracker)
    ensures Valid(tr) && tr.data == map[]
  {
    Tracker(map[], [], {})
  }

  /** The start list a vehicle has before an update (empty for a vehicle not yet seen). */
  function StartsOf(tr: Tracker, vid: int): seq<int>
  {
    if vid in tr.data then tr.data[vid].startTimes else []
  }

  function EndsOf(tr: Tracker, vid: int): seq<int>
  {
    if vid in tr.data then tr.data[vid].endTimes else []
  }

  /** A new or disrupted vehicle opens a new interval on its next sighting. */
  predicate OpensInterval(tr: Tracker, vid: int)
  {
    vid !in tr.data || tr.data[vid].disrupted
  }

  /** A fresh record, or one that has been through an update. */
  predicate FreshOrValid(a: ActivationData)
  {
    (a.index == -1 && a.startTimes == [] && a.endTimes == []) || RecordValid(a)
  }

  /** The record-level half of `update_activation`: start a trace if disrupted, then set the end. */
  function Sighting(a: ActivationData, timestamp: int): (r: ActivationData)
    requires FreshOrValid(a) && (a.index == -1 ==> a.disrupted)
    ensures RecordValid(r) && !r.disrupted && LastEnd(r) == timestamp
    ensures r.id == a.id && r.ns3Id == a.ns3Id
    ensures a.disrupted ==> r.startTimes == a.startTimes + [timestamp] && r.endTimes == a.endTimes + [timestamp]
    ensures !a.disrupted ==>
      r.startTimes == a.startTimes && r.endTimes == a.endTimes[..a.index] + [timestamp]
  {
    var b := if a.disrupted then StartNewTrace(a, timestamp) else a;
    var r := AddEndTime(b, timestamp);
    assert !a.disrupted ==> r.endTimes == a.endTimes[..a.index] + [timestamp];
    r
  }

  /**
   * `update_activation`: record a sighting of `vid` at `timestamp`. A new or
   * disrupted vehicle gets a new interval [timestamp, timestamp]; a continuous
   * one has only its current interval's end moved to `timestamp`. Afterwards the
   * vehicle is continuous and nothing about any other vehicle has changed.
   */
  function UpdateActivation(tr: Tracker, timestamp: int, vid: int): (r: Tracker)
    requires Valid(tr)
    ensures Valid(r)
    ensures r.data.Keys == tr.data.Keys + {vid}
    ensures r.order == if vid in tr.data then tr.order else tr.order + [vid]
    ensures forall v :: v in tr.data && v != vid ==> r.data[v] == tr.data[v]
    ensures !r.data[vid].disrupted && LastEnd(r.data[vid]) == timestamp
    ensures OpensInterval(tr, vid) ==>
      && r.data[vid].startTimes == StartsOf(tr, vid) + [timestamp]
      && r.data[vid].endTimes == EndsOf(tr, vid) + [timestamp]
    ensures !OpensInterval(tr, vid) ==>
      && r.data[vid].startTimes == tr.data[vid].startTimes
      && r.data[vid].endTimes == tr.data[vid].endTimes[..tr.data[vid].index] + [timestamp]
  {
    var a := if vid in tr.data then tr.data[vid] else NewActivationData(vid);
    var order := if vid in tr.data then tr.order else tr.order + [vid];
    var r := Tracker(tr.data[vid := Sighting(a, timestamp)], order, tr.active + {vid});
    assert Valid(r) by {
      assert forall k :: 0 <= k < |tr.order| ==> order[k] == tr.order[k];
    }
    r
  }

  /**
   * `time_step_complete`: exactly the tracked vehicles whose last end time is
   * before `timestamp` become disrupted; no interval changes.
   */
  function TimeStepComplete(tr: Tracker, timestamp: int): (r: Tracker)
    requires Valid(tr)
    ensures Valid(r)
    ensures r.data.Keys == tr.data.Keys && r.order == tr.order && r.active == tr.active
    ensures forall v :: v in tr.data ==>
      r.data[v].disrupted == (tr.data[v].disrupted || LastEnd(tr.data[v]) < timestamp)
    ensures forall v :: v in tr.data ==> r.data[v].(disrupted := false) == tr.data[v].(disrupted := false)
  {
    var data := map v | v in tr.data :: if LastEnd(tr.data[v]) < timestamp then DisruptTrace(tr.data[v]) else tr.data[v];
    Tracker(data, tr.order, tr.active)
  }

  /** Completing the same time step twice is the same as completing it once. */
  lemma TimeStepCompleteIdempotent(tr: Tracker, timestamp: int)
    requires Valid(tr)
    ensures TimeStepComplete(TimeStepComplete(tr, timestamp), timestamp) == TimeStepComplete(tr, timestamp)
  {
    var once := TimeStepComplete(tr, timestamp);
    var twice := TimeStepComplete(once, timestamp);
    forall v | v in tr.data
      ensures twice.data[v] == once.data[v]
    {
      assert twice.data[v].(disrupted := false) == once.data[v].(disrupted := false);
    }
  }

  // ---------------------------------------------------------------------------
  // Runs: one time step block = every sighting in order, then one completion.

  datatype Step = Step(time: int, ids: seq<int>)

  /** The sightings of one block, in order. */
  function UpdateAll(tr: Tracker, timestamp: int, ids: seq<int>): (r: Tracker)
    requires Valid(tr)
    ensures Valid(r)
    decreases |ids|
  {
    if |ids| == 0 then tr
    else UpdateActivation(UpdateAll(tr, timestamp, ids[..|ids| - 1]), timestamp, ids[|ids| - 1])
  }

  function RunStep(tr: Tracker, s: Step): (r: Tracker)
    requires Valid(tr)
    ensures Valid(r)
  {
    TimeStepComplete(UpdateAll(tr, s.time, s.ids), s.time)
  }

  /** The tracker after a whole trace of blocks, starting from no vehicles. */
  function Run(steps: seq<Step>): (r: Tracker)
    ensures Valid(r)
    decreases |steps|
  {
    if |steps| == 0 then EmptyTracker()
    else RunStep(Run(steps[..|steps| - 1]), steps[|steps| - 1])
  }

  /** Every id sighted in a trace. */
  function SeenIds(steps: seq<Step>): set<int>
    decreases |steps|
  {
    if |steps| == 0 then {} else SeenIds(steps[..|steps| - 1]) + Elems(steps[|steps| - 1].ids)
  }

  lemma {:induction false} UpdateAllKeys(tr: Tracker, timestamp: int, ids: seq<int>)
    requires Valid(tr)
    ensures UpdateAll(tr, timestamp, ids).data.Keys == tr.data.Keys + Elems(ids)
    decreases |ids|
  {
    if |ids| > 0 {
      var ids' := ids[..|ids| - 1];
      var x := ids[|ids| - 1];
      UpdateAllKeys(tr, timestamp, ids');
      ElemsLast(ids);
    }
  }

  /**
   * The tracked vehicles after a trace are exactly the vehicles sighted in it,
   * so the set only grows and the unique vehicle count is the number of distinct ids.
   */
  lemma {:induction false} RunTracksSeenIds(steps: seq<Step>)
    ensures Run(steps).data.Keys == SeenIds(steps)
    ensures Run(steps).active == SeenIds(steps)
    ensures |Run(steps).order| == |SeenIds(steps)|
    decreases |steps|
  {
    if |steps| > 0 {
      var pre := steps[..|steps| - 1];
      var last := steps[|steps| - 1];
      RunTracksSeenIds(pre);
      UpdateAllKeys(Run(pre), last.time, last.ids);
    }
    OrderMatchesKeys(Run(steps));
  }

  lemma OrderMatchesKeys(tr: Tracker)
    requires Valid(tr)
    ensures |tr.order| == |tr.data.Keys|
  {
    DistinctCard(tr.order);
    assert (set k | 0 <= k < |tr.order| :: tr.order[k]) == tr.data.Keys by {
      forall v | v in tr.data ensures v in (set k | 0 <= k < |tr.order| :: tr.order[k]) {
        var k :| 0 <= k < |tr.order| && tr.order[k] == v;
      }
    }
  }

  lemma {:induction false} DistinctCard(xs: seq<int>)
    requires forall i, j :: 0 <= i < j < |xs| ==> xs[i] != xs[j]
    ensures |set k | 0 <= k < |xs| :: xs[k]| == |xs|
    decreases |xs|
  {
    if |xs| > 0 {
      var xs' := xs[..|xs| - 1];
      DistinctCard(xs');
      assert (set k | 0 <= k < |xs| :: xs[k]) == (set k | 0 <= k < |xs'| :: xs'[k]) + {xs[|xs| - 1]};
    }
  }

  // ---------------------------------------------------------------------------
  // Interval ordering.

  /**
   * The intervals of one vehicle, observed up to time `now`: each starts no later
   * than it ends, ends no later than `now`, ends strictly before the next one
   * starts, and a disrupted vehicle's last interval ended before `now`.
   */
  predicate IntervalsOrdered(a: ActivationData, now: int)
  {
    && RecordValid(a)
    && (forall i :: 0 <= i < |a.startTimes| ==> a.startTimes[i] <= a.endTimes[i] <= now)
    && (forall i :: 0 <= i < |a.startTimes| - 1 ==> a.endTimes[i] < a.startTimes[i + 1])
    && (a.disrupted ==> LastEnd(a) < now)
  }

  predicate Ordered(tr: Tracker, now: int)
  {
    Valid(tr) && forall v :: v in tr.data ==> IntervalsOrdered(tr.data[v], now)
  }

  lemma OrderedLater(tr: Tracker, now: int, later: int)
    requires Ordered(tr, now) && now <= later
    ensures Ordered(tr, later)
  {
  }

  lemma UpdateKeepsOrdered(tr: Tracker, timestamp: int, vid: int)
    requires Ordered(tr, timestamp)
    ensures Ordered(UpdateActivation(tr, timestamp, vid), timestamp)
  {
    var r := UpdateActivation(tr, timestamp, vid);
    var a := r.data[vid];
    if vid in tr.data && !tr.data[vid].disrupted {
      var old_ := tr.data[vid];
      assert a.startTimes == old_.startTimes;
      assert forall i :: 0 <= i < |a.endTimes| - 1 ==> a.endTimes[i] == old_.endTimes[i];
    } else if vid in tr.data {
      var old_ := tr.data[vid];
      assert LastEnd(old_) < timestamp;
    }
    assert IntervalsOrdered(a, timestamp);
  }

  lemma {:induction false} UpdateAllKeepsOrdered(tr: Tracker, timestamp: int, ids: seq<int>)
    requires Ordered(tr, timestamp)
    ensures Ordered(UpdateAll(tr, timestamp, ids), timestamp)
    decreases |ids|
  {
    if |ids| > 0 {
      UpdateAllKeepsOrdered(tr, timestamp, ids[..|ids| - 1]);
      UpdateKeepsOrdered(UpdateAll(tr, timestamp, ids[..|ids| - 1]), timestamp, ids[|ids| - 1]);
    }
  }

  lemma CompleteKeepsOrdered(tr: Tracker, timestamp: int)
    requires Ordered(tr, timestamp)
    ensures Ordered(TimeStepComplete(tr, timestamp), timestamp)
  {
    var r := TimeStepComplete(tr, timestamp);
    forall v | v in r.data
      ensures IntervalsOrdered(r.data[v], timestamp)
    {
      assert r.data[v].(disrupted := false) == tr.data[v].(disrupted := false);
    }
  }

  predicate TimesNonDecreasing(steps: seq<Step>)
  {
    forall i, j :: 0 <= i < j < |steps| ==> steps[i].time <= steps[j].time
  }

  /**
   * With non-decreasing block times, every vehicle's intervals after a run are
   * ordered: start_i <= end_i < start_{i+1}, all ending no later than the last block.
   */
  lemma {:induction false} RunIntervalsOrdered(steps: seq<Step>)
    requires |steps| > 0 && TimesNonDecreasing(steps)
    ensures Ordered(Run(steps), steps[|steps| - 1].time)
    decreases |steps|
  {
    var pre := steps[..|steps| - 1];
    var last := steps[|steps| - 1];
    if |pre| == 0 {
      assert Ordered(Run(pre), last.time);
    } else {
      RunIntervalsOrdered(pre);
      OrderedLater(Run(pre), pre[|pre| - 1].time, last.time);
    }
    UpdateAllKeepsOrdered(Run(pre), last.time, last.ids);
    CompleteKeepsOrdered(UpdateAll(Run(pre), last.time, last.ids), last.time);
  }

  lemma {:induction false} UpdateAllSightedContinuous(tr: Tracker, timestamp: int, ids: seq<int>, k: nat)
    requires Valid(tr) && k < |ids|
    ensures var r := UpdateAll(tr, timestamp, ids);
      ids[k] in r.data && !r.data[ids[k]].disrupted && LastEnd(r.data[ids[k]]) == timestamp
    decreases |ids|
  {
    var pre := ids[..|ids| - 1];
    var last := ids[|ids| - 1];
    assert UpdateAll(tr, timestamp, ids) == UpdateActivation(UpdateAll(tr, timestamp, pre), timestamp, last);
    if k < |ids| - 1 && ids[k] != last {
      assert pre[k] == ids[k];
      UpdateAllSightedContinuous(tr, timestamp, pre, k);
    }
  }

  /** A vehicle sighted in a block is still continuous once that block's time step completes. */
  lemma SightedStaysContinuous(tr: Tracker, s: Step, k: nat)
    requires Valid(tr) && k < |s.ids|
    ensures s.ids[k] in RunStep(tr, s).data && !RunStep(tr, s).data[s.ids[k]].disrupted
  {
    UpdateAllSightedContinuous(tr, s.time, s.ids, k);
  }

  /** Running one more block is one more step on the tracker the earlier blocks left. */
  lemma RunSnoc(steps: seq<Step>, s: Step)
    ensures Run(steps + [s]) == RunStep(Run(steps), s)
  {
    assert (steps + [s])[..|steps|] == steps;
  }

  /** A block with one sighting updates that vehicle, then completes the time step. */
  lemma SingleSighting(tr: Tracker, t: int, v: int)
    requires Valid(tr)
    ensures RunStep(tr, Step(t, [v])) == TimeStepComplete(UpdateActivation(tr, t, v), t)
  {
    assert [v][..0] == [];
    assert UpdateAll(tr, t, []) == tr;
    assert UpdateAll(tr, t, [v]) == UpdateActivation(tr, t, v);
  }

  /** The record of vehicle `v` in `tr` has exactly these intervals and this state. */
  predicate HasIntervals(tr: Tracker, v: int, starts: seq<int>, ends: seq<int>, disrupted: bool)
  {
    v in tr.data && tr.data[v].startTimes == starts && tr.data[v].endTimes == ends
    && tr.data[v].disrupted == disrupted
  }

  /** A lone sighting of a new or disrupted vehicle opens the interval [t, t]. */
  lemma SightingOpens(tr: Tracker, t: int, v: int, starts: seq<int>, ends: seq<int>)
    requires Valid(tr) && (HasIntervals(tr, v, starts, ends, true) || (v !in tr.data && starts == [] && ends == []))
    ensures HasIntervals(RunStep(tr, Step(t, [v])), v, starts + [t], ends + [t], false)
  {
    SingleSighting(tr, t, v);
  }

  /** A lone sighting of a continuous vehicle moves the end of its last interval to t. */
  lemma SightingExtends(tr: Tracker, t: int, v: int, starts: seq<int>, ends: seq<int>)
    requires Valid(tr) && HasIntervals(tr, v, starts, ends, false)
    ensures HasIntervals(RunStep(tr, Step(t, [v])), v, starts, ends[..|ends| - 1] + [t], false)
  {
    assert RecordValid(tr.data[v]);
    SingleSighting(tr, t, v);
  }

  /** A completed block without the vehicle, after its last end, disrupts it and keeps its intervals. */
  lemma EmptyStepDisrupts(tr: Tracker, t: int, v: int, starts: seq<int>, ends: seq<int>, d: bool)
    requires Valid(tr) && HasIntervals(tr, v, starts, ends, d) && LastEnd(tr.data[v]) < t
    ensures HasIntervals(RunStep(tr, Step(t, [])), v, starts, ends, true)
  {
    var r := RunStep(tr, Step(t, []));
    assert r.data[v].(disrupted := false) == tr.data[v].(disrupted := false);
  }

  /**
   * Sightings at 0, 10 and 20, a completed block at 30 without the vehicle, then
   * sightings at 50 and 60: two intervals, [0, 20] and [50, 60].
   */
  lemma TwoIntervalsExample(v: int)
    ensures var tr := Run([Step(0, [v]), Step(10, [v]), Step(20, [v]), Step(30, []), Step(50, [v]), Step(60, [v])]);
            HasIntervals(tr, v, [0, 50], [20, 60], false)
  {
    var t3 := RunStep(RunStep(RunStep(EmptyTracker(), Step(0, [v])), Step(10, [v])), Step(20, [v]));
    var t4 := RunStep(t3, Step(30, []));
    RunSix(Step(0, [v]), Step(10, [v]), Step(20, [v]), Step(30, []), Step(50, [v]), Step(60, [v]));
    FirstInterval(v);
    assert HasIntervals(t4, v, [0], [20], true) by {
      EmptyStepDisrupts(t3, 30, v, [0], [20], false);
    }
    SecondInterval(t4, v);
  }

  // Steps of TwoIntervalsExample: each lemma below takes the example's tracker
  // through one or more of its blocks.

  /** Example step: sightings at 0, 10 and 20 open one interval, [0, 20]. */
  lemma FirstInterval(v: int)
    ensures HasIntervals(RunStep(RunStep(RunStep(EmptyTracker(), Step(0, [v])), Step(10, [v])), Step(20, [v])), v, [0], [20], false)
  {
    var t1 := RunStep(EmptyTracker(), Step(0, [v]));
    OpenFirst(v);
    ExtendOnly(t1, 10, v, 0);
    ExtendOnly(RunStep(t1, Step(10, [v])), 20, v, 10);
  }

  /** Example step: the sighting at 0 opens [0, 0]. */
  lemma OpenFirst(v: int)
    ensures HasIntervals(RunStep(EmptyTracker(), Step(0, [v])), v, [0], [0], false)
  {
    assert [] + [0] == [0];
    SightingOpens(EmptyTracker(), 0, v, [], []);
  }

  /** Example step: a sighting of the vehicle whose one interval starts at 0 moves that interval's end. */
  lemma ExtendOnly(tr: Tracker, t: int, v: int, e: int)
    requires Valid(tr) && HasIntervals(tr, v, [0], [e], false)
    ensures HasIntervals(RunStep(tr, Step(t, [v])), v, [0], [t], false)
  {
    assert [e][..0] + [t] == [t];
    SightingExtends(tr, t, v, [0], [e]);
  }

  /** Example step: after the disruption at 30, sightings at 50 and 60 open a second interval, [50, 60]. */
  lemma SecondInterval(t4: Tracker, v: int)
    requires Valid(t4) && HasIntervals(t4, v, [0], [20], true)
    ensures HasIntervals(RunStep(RunStep(t4, Step(50, [v])), Step(60, [v])), v, [0, 50], [20, 60], false)
  {
    Reopen(t4, v);
    ExtendSecond(RunStep(t4, Step(50, [v])), v);
  }

  /** Example step: the sighting at 50 reopens the disrupted vehicle with [50, 50]. */
  lemma Reopen(t4: Tracker, v: int)
    requires Valid(t4) && HasIntervals(t4, v, [0], [20], true)
    ensures HasIntervals(RunStep(t4, Step(50, [v])), v, [0, 50], [20, 50], false)
  {
    assert [0] + [50] == [0, 50] && [20] + [50] == [20, 50];
    SightingOpens(t4, 50, v, [0], [20]);
  }

  /** Example step: the sighting at 60 moves the second interval's end to 60. */
  lemma ExtendSecond(t5: Tracker, v: int)
    requires Valid(t5) && HasIntervals(t5, v, [0, 50], [20, 50], false)
    ensures HasIntervals(RunStep(t5, Step(60, [v])), v, [0, 50], [20, 60], false)
  {
    assert [20, 50][..1] + [60] == [20, 60];
    SightingExtends(t5, 60, v, [0, 50], [20, 50]);
  }

  /** Example step: running the example's six blocks is running them one after the other. */
  lemma RunSix(a: Step, b: Step, c: Step, d: Step, e: Step, f: Step)
    ensures Run([a, b, c, d, e, f]) == RunStep(RunStep(RunStep(RunStep(RunStep(RunStep(EmptyTracker(), a), b), c), d), e), f)
  {
    SixSnoc(a, b, c, d, e, f);
    RunSnoc([], a);
    RunSnoc([] + [a], b);
    RunSnoc([] + [a] + [b], c);
    RunSnoc([] + [a] + [b] + [c], d);
    RunSnoc([] + [a] + [b] + [c] + [d], e);
    RunSnoc([] + [a] + [b] + [c] + [d] + [e], f);
  }

  /** Example step: a six-element display, built up one element at a time. */
  lemma SixSnoc<T>(a: T, b: T, c: T, d: T, e: T, f: T)
    ensures [a, b, c, d, e, f] == [] + [a] + [b] + [c] + [d] + [e] + [f]
  {
  }

  // ---------------------------------------------------------------------------
  // Written rows.

  /** A row of the disolv activation table: node id, ns3 id, on time, off time. */
  datatype ActivationRow = ActivationRow(nodeId: int, ns3Id: int, onTime: int, offTime: int)

  function IntervalRows(a: ActivationData): (rows: seq<ActivationRow>)
    requires |a.endTimes| == |a.startTimes|
    ensures |rows| == |a.startTimes|
    ensures forall k :: 0 <= k < |rows| ==>
      rows[k] == ActivationRow(a.id, a.ns3Id, a.startTimes[k], a.endTimes[k])
  {
    seq(|a.startTimes|, k requires 0 <= k < |a.startTimes| => ActivationRow(a.id, a.ns3Id, a.startTimes[k], a.endTimes[k]))
  }

  function IntervalCount(tr: Tracker, ids: seq<int>): nat
    requires Valid(tr) && forall k :: 0 <= k < |ids| ==> ids[k] in tr.data
    decreases |ids|
  {
    if |ids| == 0 then 0 else IntervalCount(tr, ids[..|ids| - 1]) + |tr.data[ids[|ids| - 1]].startTimes|
  }

  /** `r` is one interval of a tracked vehicle, written with the vehicle id as its ns3 id. */
  predicate IsIntervalRow(tr: Tracker, r: ActivationRow)
  {
    && r.nodeId in tr.data && r.ns3Id == r.nodeId
    && exists i :: 0 <= i < |tr.data[r.nodeId].startTimes| && |tr.data[r.nodeId].endTimes| == |tr.data[r.nodeId].startTimes|
         && r.onTime == tr.data[r.nodeId].startTimes[i] && r.offTime == tr.data[r.nodeId].endTimes[i]
  }

  /** The rows of the vehicles in `ids`, vehicle by vehicle, interval by interval. */
  function RowsFor(tr: Tracker, ids: seq<int>): (rows: seq<ActivationRow>)
    requires Valid(tr) && forall k :: 0 <= k < |ids| ==> ids[k] in tr.data
    ensures |rows| == IntervalCount(tr, ids)
    ensures forall k :: 0 <= k < |rows| ==> rows[k].nodeId in ids && IsIntervalRow(tr, rows[k])
    decreases |ids|
  {
    if |ids| == 0 then []
    else
      var pre := RowsFor(tr, ids[..|ids| - 1]);
      var v := ids[|ids| - 1];
      var mine := IntervalRows(tr.data[v]);
      var rows := pre + mine;
      assert forall k :: 0 <= k < |pre| ==> pre[k].nodeId in ids by {
        forall k | 0 <= k < |pre| ensures pre[k].nodeId in ids {
          var j :| 0 <= j < |ids| - 1 && ids[j] == pre[k].nodeId;
          assert ids[..|ids| - 1][j] == ids[j];
        }
      }
      forall k | |pre| <= k < |rows|
        ensures rows[k].nodeId in ids && IsIntervalRow(tr, rows[k])
      {
        assert rows[k] == mine[k - |pre|];
      }
      rows
  }

  /**
   * `write_activation_data` (disolv): one row per interval, vehicles in first-seen
   * order, each row carrying the vehicle id twice (node id and ns3 id).
   */
  function DisolvActivationRows(tr: Tracker): (rows: seq<ActivationRow>)
    requires Valid(tr)
    ensures |rows| == IntervalCount(tr, tr.order)
    ensures forall k :: 0 <= k < |rows| ==> IsIntervalRow(tr, rows[k])
  {
    RowsFor(tr, tr.order)
  }

  /** Every interval of every tracked vehicle is written. */
  lemma {:induction false} EveryIntervalWritten(tr: Tracker, ids: seq<int>, v: int, i: nat)
    requires Valid(tr) && (forall k :: 0 <= k < |ids| ==> ids[k] in tr.data)
    requires v in ids && i < |tr.data[v].startTimes|
    ensures ActivationRow(v, v, tr.data[v].startTimes[i], tr.data[v].endTimes[i]) in RowsFor(tr, ids)
    decreases |ids|
  {
    var pre := ids[..|ids| - 1];
    if ids[|ids| - 1] == v {
      var mine := IntervalRows(tr.data[v]);
      assert mine[i] == ActivationRow(v, v, tr.data[v].startTimes[i], tr.data[v].endTimes[i]);
      assert RowsFor(tr, ids) == RowsFor(tr, pre) + mine;
    } else {
      assert v in pre;
      EveryIntervalWritten(tr, pre, v, i);
    }
  }

  /** The rows of a prefix of the vehicles are a prefix of the rows of all of them. */
  lemma {:induction false} RowsForPrefix(tr: Tracker, ids: seq<int>, n: nat)
    requires Valid(tr) && (forall k :: 0 <= k < |ids| ==> ids[k] in tr.data) && n <= |ids|
    ensures var pre := RowsFor(tr, ids[..n]);
      |pre| <= |RowsFor(tr, ids)| && RowsFor(tr, ids)[..|pre|] == pre
    decreases |ids|
  {
    if n < |ids| {
      var init := ids[..|ids| - 1];
      RowsForPrefix(tr, init, n);
      assert init[..n] == ids[..n];
      var all := RowsFor(tr, ids);
      var before := RowsFor(tr, init);
      assert all[..|before|] == before;
    } else {
      assert ids[..n] == ids;
    }
  }

  /**
   * The rows of vehicle `ids[j]` are its interval rows, in interval order, and they
   * sit right after the rows of the vehicles before it.
   */
  lemma RowsForLayout(tr: Tracker, ids: seq<int>, j: nat)
    requires Valid(tr) && (forall k :: 0 <= k < |ids| ==> ids[k] in tr.data) && j < |ids|
    ensures var rows := RowsFor(tr, ids);
      var lo := |RowsFor(tr, ids[..j])|;
      var hi := |RowsFor(tr, ids[..j + 1])|;
      && lo <= hi <= |rows|
      && rows[lo..hi] == IntervalRows(tr.data[ids[j]])
  {
    var upto := ids[..j + 1];
    RowsForPrefix(tr, ids, j + 1);
    assert upto[..j] == ids[..j];
    assert RowsFor(tr, upto) == RowsFor(tr, ids[..j]) + IntervalRows(tr.data[ids[j]]);
  }

  /**
   * The disolv table is laid out vehicle by vehicle in record order: the rows of the
   * `j`-th recorded vehicle are exactly its intervals, in order, right after the rows
   * of the vehicles recorded before it.
   */
  lemma DisolvRowsLayout(tr: Tracker, j: nat)
    requires Valid(tr) && j < |tr.order|
    ensures var rows := DisolvActivationRows(tr);
      var lo := IntervalCount(tr, tr.order[..j]);
      var hi := IntervalCount(tr, tr.order[..j + 1]);
      && lo <= hi <= |rows|
      && hi == lo + |tr.data[tr.order[j]].startTimes|
      && rows[lo..hi] == IntervalRows(tr.data[tr.order[j]])
  {
    RowsForLayout(tr, tr.order, j);
    assert tr.order[..j + 1][..j] == tr.order[..j];
  }

  /** A row of the pavenet activation table: a vehicle with all its on and off times. */
  datatype VehicleRow = VehicleRow(nodeId: int, onTimes: seq<int>, offTimes: seq<int>)

  /**
   * `write_activation_data` (pavenet): exactly one row per distinct vehicle, in
   * first-seen order, carrying its full start and end lists.
   */
  function PavenetActivationRows(tr: Tracker): (rows: seq<VehicleRow>)
    requires Valid(tr)
    ensures |rows| == |tr.data.Keys| == |tr.order|
    ensures forall k :: 0 <= k < |rows| ==> rows[k].nodeId == tr.order[k]
    ensures forall k :: 0 <= k < |rows| ==>
      && rows[k].nodeId in tr.data
      && rows[k].onTimes == tr.data[rows[k].nodeId].startTimes
      && rows[k].offTimes == tr.data[rows[k].nodeId].endTimes
    ensures forall k, l :: 0 <= k < l < |rows| ==> rows[k].nodeId != rows[l].nodeId
    ensures forall v :: v in tr.data ==> exists k :: 0 <= k < |rows| && rows[k].nodeId == v
  {
    OrderMatchesKeys(tr);
    var rows := seq(|tr.order|, k requires 0 <= k < |tr.order| =>
      VehicleRow(tr.order[k], tr.data[tr.order[k]].startTimes, tr.data[tr.order[k]].endTimes));
    assert forall v :: v in tr.data ==> exists k :: 0 <= k < |rows| && rows[k].nodeId == v by {
      forall v | v in tr.data ensures exists k :: 0 <= k < |rows| && rows[k].nodeId == v {
        var k :| 0 <= k < |tr.order| && tr.order[k] == v;
        assert rows[k].nodeId == v;
      }
    }
    rows
  }
}

=== FILE: all_links.dfy ===
/**
 * The link computation over a whole run. The static phase links the RSUs among
 * themselves and with the controllers, once. The dynamic phase visits the time
 * steps 0, step, 2 * step, ... below the duration. At each step it reads the vehicle
 * positions, skips a step without vehicles, and computes the vehicle-to-RSU,
 * RSU-to-vehicle and (with more than one vehicle) vehicle-to-vehicle links. The
 * links go into three buffers, and each buffer is written whenever its row count
 * exceeds the cache size. Every buffer is written once more at the end.
 */
module AllLinks {
  import opened Wrappers
  import opened Seqs
  import opened Spatial
  import opened LinkArrays
  import opened InfraTree
  import Reader

  /** The row count above which a buffer is written out. */
  const CacheSize: nat := 100000

  datatype Config = Config(
    v2rCount: nat, r2vRadius: real, v2vRadius: real,
    r2rCount: nat, r2cRadius: real, c2rRadius: real,
    step: int, duration: int)

  datatype LinkError = ZeroStep | ReadFailed(readError: Reader.ReadError) | QueryFailed(queryError: QueryError)

  /**
   * The KD-tree constructor over the vehicle positions of one step: a tree over
   * exactly those points whose answers name its points.
   */
  ghost predicate Builds(build: seq<Point> -> KdTree)
  {
    forall ps :: build(ps).data == ps && InRange(build(ps))
  }

  // ---------------------------------------------------------------------------
  // The time steps.

  /** `range(start, stop, step)` for a step other than 0. */
  function Range(start: int, stop: int, step: int): (r: seq<int>)
    requires step != 0
    decreases if step > 0 then stop - start else start - stop
  {
    if (step > 0 && start < stop) || (step < 0 && start > stop) then [start] + Range(start + step, stop, step)
    else []
  }

  /**
   * With a positive step, the range holds the values start + i * step below stop,
   * for i = 0, 1, ..., in increasing order, and the next one would not be below stop.
   */
  lemma {:induction false} RangeValues(start: int, stop: int, step: int)
    requires step > 0
    ensures var r := Range(start, stop, step);
      && (forall i :: 0 <= i < |r| ==> r[i] == start + i * step && r[i] < stop)
      && start + |r| * step >= stop
      && (forall i, j :: 0 <= i < j < |r| ==> r[i] < r[j])
    decreases stop - start
  {
    var r := Range(start, stop, step);
    if start < stop {
      RangeValues(start + step, stop, step);
      var rest := Range(start + step, stop, step);
      forall i | 0 <= i < |r|
        ensures r[i] == start + i * step
      {
        if i > 0 {
          assert r[i] == rest[i - 1];
          assert (i - 1) * step + step == i * step;
        }
      }
      assert (|rest| + 1) * step == |rest| * step + step;
    }
  }

  // ---------------------------------------------------------------------------
  // One time step.

  datatype StepLinks = StepLinks(v2r: LinkDataArrays, r2v: LinkDataArrays, v2v: LinkDataArrays)

  /**
   * The links of one time step with vehicles: the `v2rCount` nearest RSUs of every
   * vehicle, the vehicles within `r2vRadius` of every RSU, and, only with more than one
   * vehicle, the other vehicles within `v2vRadius` of every vehicle.
   */
  function StepLinksAt(rsu: Infra, ids: seq<int>, positions: seq<Point>, ts: int, cfg: Config, build: seq<Point> -> KdTree)
    : (r: Result<StepLinks, QueryError>)
    requires Valid(rsu) && Builds(build) && |ids| == |positions|
    ensures r.Success? <==> cfg.v2rCount <= |rsu.infraIds|
    ensures r.Success? ==> Aligned(r.value.v2r) && Aligned(r.value.r2v) && Aligned(r.value.v2v)
    ensures r.Success? && |ids| <= 1 ==> Rows(r.value.v2v) == []
    ensures r.Success? ==> forall k :: 0 <= k < |Rows(r.value.v2v)| ==> Rows(r.value.v2v)[k].nodeId != Rows(r.value.v2v)[k].targetId
  {
    match GetN2iLinksWithCount(rsu, ids, positions, ts, cfg.v2rCount)
    case Failure(e) => Failure(e)
    case Success(v2r) =>
      var tree := build(positions);
      var r2v := GetI2nLinksWithRadius(rsu, ids, tree, ts, cfg.r2vRadius);
      var v2v := if |ids| > 1 then GetN2nLinksWithRadius(ids, positions, tree, ts, cfg.v2vRadius) else Reset();
      Success(StepLinks(v2r, r2v, v2v))
  }

  // ---------------------------------------------------------------------------
  // Reference: the rows a run generates, without any buffering.

  datatype Generated = Generated(reader: Reader.State, v2r: seq<LinkRow>, r2v: seq<LinkRow>, v2v: seq<LinkRow>)

  /** One more step on top of the rows so far; a step without vehicles adds none. */
  function GenerateStep(file: seq<seq<Reader.PosRow>>, rsu: Infra, cfg: Config, build: seq<Point> -> KdTree,
                        g: Generated, ts: int): Result<Generated, LinkError>
    requires Valid(rsu) && Builds(build)
  {
    var a := Reader.GetPositionsAt(file, g.reader, ts);
    if a.Failure? then Failure(ReadFailed(a.error))
    else if |a.value.ids| == 0 then Success(g.(reader := a.value.reader))
    else
      var s := StepLinksAt(rsu, a.value.ids, a.value.positions, ts, cfg, build);
      if s.Failure? then Failure(QueryFailed(s.error))
      else Success(Generated(a.value.reader, g.v2r + Rows(s.value.v2r), g.r2v + Rows(s.value.r2v), g.v2v + Rows(s.value.v2v)))
  }

  /** The rows of the given steps, in step order, on top of the rows so far. */
  function GenerateFrom(file: seq<seq<Reader.PosRow>>, rsu: Infra, cfg: Config, build: seq<Point> -> KdTree,
                        g: Generated, steps: seq<int>): Result<Generated, LinkError>
    requires Valid(rsu) && Builds(build)
    decreases |steps|
  {
    if |steps| == 0 then Success(g)
    else
      var next := GenerateStep(file, rsu, cfg, build, g, steps[0]);
      if next.Failure? then next else GenerateFrom(file, rsu, cfg, build, next.value, steps[1..])
  }

  /** The rows of the whole run. */
  function Generate(file: seq<seq<Reader.PosRow>>, rsu: Infra, cfg: Config, build: seq<Point> -> KdTree, start: Reader.State)
    : Result<Generated, LinkError>
    requires Valid(rsu) && Builds(build)
  {
    if cfg.step == 0 then Failure(ZeroStep)
    else GenerateFrom(file, rsu, cfg, build, Generated(start, [], [], []), Range(0, cfg.duration, cfg.step))
  }

  // ---------------------------------------------------------------------------
  // The dynamic phase with its buffers.

  /** The batches written to each links file, in write order. */
  datatype Writes = Writes(v2r: seq<seq<LinkRow>>, r2v: seq<seq<LinkRow>>, v2v: seq<seq<LinkRow>>)

  /** Write a buffer if its row count exceeds the cache size. */
  function Flush(writes: seq<seq<LinkRow>>, buf: LinkDataArrays): (r: (seq<seq<LinkRow>>, LinkDataArrays))
    requires SameLength(buf)
    ensures SameLength(r.1) && Flatten(r.0) + Rows(r.1) == Flatten(writes) + Rows(buf)
    ensures buf.arraySize > CacheSize ==> r.0 == writes + [Rows(buf)] && r.1 == Reset()
    ensures buf.arraySize <= CacheSize ==> r == (writes, buf)
  {
    if buf.arraySize > CacheSize then
      FlattenAppend(writes, Rows(buf));
      (writes + [Rows(buf)], Reset())
    else (writes, buf)
  }

  /** One links file: the batches written so far and the buffer. */
  datatype Stream = Stream(buf: LinkDataArrays, writes: seq<seq<LinkRow>>)

  /**
   * What a stream keeps: with its rows counted, the count is the buffer length,
   * which is at most the cache size, and every batch written holds more; with its
   * rows not counted, the count stays 0 and nothing is written.
   */
  predicate StreamInv(s: Stream, counts: bool)
  {
    if counts then
      && Aligned(s.buf) && |Rows(s.buf)| <= CacheSize
      && forall k :: 0 <= k < |s.writes| ==> |s.writes[k]| > CacheSize
    else SameLength(s.buf) && s.buf.arraySize == 0 && s.writes == []
  }

  /** The rows a stream has taken: those written, then those in the buffer. */
  function Emitted(s: Stream): seq<LinkRow>
    requires SameLength(s.buf)
  {
    Flatten(s.writes) + Rows(s.buf)
  }

  function EmptyStream(): (s: Stream)
    ensures StreamInv(s, true) && StreamInv(s, false) && Emitted(s) == []
  {
    Stream(Reset(), [])
  }

  /**
   * One step's arrays into a stream: append the columns (adding to the row count only
   * if the stream counts its rows), then write the buffer if its count is over the
   * cache size.
   */
  function AddTo(s: Stream, a: LinkDataArrays, counts: bool): (r: Stream)
    requires StreamInv(s, counts) && Aligned(a)
    ensures StreamInv(r, counts)
    ensures Emitted(r) == Emitted(s) + Rows(a)
  {
    var buf := if counts then Append(s.buf, a) else AppendColumns(s.buf, a);
    assert Rows(buf) == Rows(s.buf) + Rows(a);
    var f := Flush(s.writes, buf);
    assert Flatten(f.0) + Rows(f.1) == Flatten(s.writes) + (Rows(s.buf) + Rows(a));
    Stream(f.1, f.0)
  }

  /** The final write of the buffer, whatever its size. */
  function Close(s: Stream, counts: bool): (w: seq<seq<LinkRow>>)
    requires StreamInv(s, counts)
    ensures Flatten(w) == Emitted(s)
    ensures counts ==> InLoopWritesFull(w)
    ensures !counts ==> w == [Emitted(s)]
  {
    FlattenAppend(s.writes, Rows(s.buf));
    assert !counts ==> Flatten(s.writes) == [] && s.writes + [Rows(s.buf)] == [Rows(s.buf)];
    assert !counts ==> Emitted(s) == Rows(s.buf);
    s.writes + [Rows(s.buf)]
  }

  /**
   * The dynamic phase. `countAll` says whether the RSU-to-vehicle and
   * vehicle-to-vehicle buffers add to their row count as the vehicle-to-RSU buffer
   * does; as written they do not.
   */
  method DynamicLinks(file: seq<seq<Reader.PosRow>>, start: Reader.State, rsu: Infra, cfg: Config,
                      build: seq<Point> -> KdTree, countAll: bool) returns (res: Result<Writes, LinkError>)
    requires Valid(rsu) && Builds(build)
    ensures res.Success? <==> Generate(file, rsu, cfg, build, start).Success?
    ensures res.Success? ==> var g := Generate(file, rsu, cfg, build, start).value;
      Flatten(res.value.v2r) == g.v2r && Flatten(res.value.r2v) == g.r2v && Flatten(res.value.v2v) == g.v2v
    ensures res.Success? ==> InLoopWritesFull(res.value.v2r)
    ensures res.Success? && countAll ==> InLoopWritesFull(res.value.r2v) && InLoopWritesFull(res.value.v2v)
    ensures res.Success? && !countAll ==> |res.value.r2v| == 1 && |res.value.v2v| == 1
  {
    if cfg.step == 0 {
      return Failure(ZeroStep);
    }
    var steps := Range(0, cfg.duration, cfg.step);
    var rd := start;
    var v2r, r2v, v2v := EmptyStream(), EmptyStream(), EmptyStream();
    var i := 0;
    assert steps[0..] == steps;
    while i < |steps|
      invariant 0 <= i <= |steps|
      invariant StreamInv(v2r, true) && StreamInv(r2v, countAll) && StreamInv(v2v, countAll)
      invariant Generate(file, rsu, cfg, build, start)
        == GenerateFrom(file, rsu, cfg, build, Generated(rd, Emitted(v2r), Emitted(r2v), Emitted(v2v)), steps[i..])
    {
      assert steps[i..][1..] == steps[i + 1..];
      var step := DoStep(file, rsu, cfg, build, rd, v2r, r2v, v2v, steps[i], countAll);
      if step.Failure? {
        return Failure(step.error);
      }
      rd, v2r, r2v, v2v := step.value.0, step.value.1, step.value.2, step.value.3;
      i := i + 1;
    }
    assert steps[i..] == [];
    res := Success(Writes(Close(v2r, true), Close(r2v, countAll), Close(v2v, countAll)));
  }

  /** One pass of the loop body: read the positions, skip an empty step, add the step's links to the streams. */
  method DoStep(file: seq<seq<Reader.PosRow>>, rsu: Infra, cfg: Config, build: seq<Point> -> KdTree,
                rd: Reader.State, v2r: Stream, r2v: Stream, v2v: Stream, ts: int, countAll: bool)
    returns (res: Result<(Reader.State, Stream, Stream, Stream), LinkError>)
    requires Valid(rsu) && Builds(build)
    requires StreamInv(v2r, true) && StreamInv(r2v, countAll) && StreamInv(v2v, countAll)
    ensures var next := GenerateStep(file, rsu, cfg, build, Generated(rd, Emitted(v2r), Emitted(r2v), Emitted(v2v)), ts);
      && (res.Failure? <==> next.Failure?)
      && (res.Failure? ==> res.error == next.error)
      && (res.Success? ==>
            var (rd', v2r', r2v', v2v') := res.value;
            && StreamInv(v2r', true) && StreamInv(r2v', countAll) && StreamInv(v2v', countAll)
            && next.value == Generated(rd', Emitted(v2r'), Emitted(r2v'), Emitted(v2v')))
  {
    var a := Reader.GetPositionsAt(file, rd, ts);
    if a.Failure? {
      return Failure(ReadFailed(a.error));
    }
    var ans := a.value;
    if |ans.ids| == 0 {
      return Success((ans.reader, v2r, r2v, v2v));
    }
    var s := StepLinksAt(rsu, ans.ids, ans.positions, ts, cfg, build);
    if s.Failure? {
      return Failure(QueryFailed(s.error));
    }
    var links := s.value;
    var v2r' := AddTo(v2r, links.v2r, true);
    var r2v' := AddTo(r2v, links.r2v, countAll);
    var v2v' := v2v;
    if |ans.ids| > 1 {
      v2v' := AddTo(v2v, links.v2v, countAll);
    } else {
      assert Emitted(v2v) + Rows(links.v2v) == Emitted(v2v);
    }
    return Success((ans.reader, v2r', r2v', v2v'));
  }

  /**
   * Every batch written inside the loop holds more than the cache size, and the
   * final batch, written whatever its size, holds at most the cache size.
   */
  predicate InLoopWritesFull(writes: seq<seq<LinkRow>>)
  {
    && |writes| >= 1
    && (forall k :: 0 <= k < |writes| - 1 ==> |writes[k]| > CacheSize)
    && |writes[|writes| - 1]| <= CacheSize
  }

  /**
   * The dynamic phase as written: the vehicle-to-RSU file gets full batches, but the
   * RSU-to-vehicle and vehicle-to-vehicle buffers never count their rows, so each of
   * those files gets all its rows in one final batch, however many there are.
   */
  method CalculateDynamicLinks(file: seq<seq<Reader.PosRow>>, start: Reader.State, rsu: Infra, cfg: Config,
                               build: seq<Point> -> KdTree) returns (res: Result<Writes, LinkError>)
    requires Valid(rsu) && Builds(build)
    ensures res.Success? <==> Generate(file, rsu, cfg, build, start).Success?
    ensures res.Success? ==> var g := Generate(file, rsu, cfg, build, start).value;
      && InLoopWritesFull(res.value.v2r) && Flatten(res.value.v2r) == g.v2r
      && res.value.r2v == [g.r2v] && res.value.v2v == [g.v2v]
  {
    res := DynamicLinks(file, start, rsu, cfg, build, false);
    if res.Success? {
      FlattenSingle(res.value.r2v);
      FlattenSingle(res.value.v2v);
    }
  }

  /**
   * The dynamic phase with every buffer counting its rows: all three files get the
   * generated rows, in step order, in batches that are full except the last, which
   * holds at most the cache size.
   */
  method CalculateDynamicLinksFixed(file: seq<seq<Reader.PosRow>>, start: Reader.State, rsu: Infra, cfg: Config,
                                    build: seq<Point> -> KdTree) returns (res: Result<Writes, LinkError>)
    requires Valid(rsu) && Builds(build)
    ensures res.Success? <==> Generate(file, rsu, cfg, build, start).Success?
    ensures res.Success? ==> var g := Generate(file, rsu, cfg, build, start).value;
      && Flatten(res.value.v2r) == g.v2r && Flatten(res.value.r2v) == g.r2v && Flatten(res.value.v2v) == g.v2v
      && InLoopWritesFull(res.value.v2r) && InLoopWritesFull(res.value.r2v) && InLoopWritesFull(res.value.v2v)
  {
    res := DynamicLinks(file, start, rsu, cfg, build, true);
  }

  // ---------------------------------------------------------------------------
  // The static phase.

  datatype StaticWrites = StaticWrites(r2r: seq<seq<LinkRow>>, r2c: seq<seq<LinkRow>>, c2r: seq<seq<LinkRow>>)

  /**
   * The static links, each file written in one batch, all at time 0: the answers of
   * the `r2rCount + 1` nearest-RSU query of every RSU, unfiltered; the controllers
   * within `r2cRadius` of every RSU; and the RSUs within `c2rRadius` of every
   * controller. The r2r table keeps each RSU's match with itself.
   */
  function CalculateStaticLinks(rsu: Infra, controller: Infra, cfg: Config): (r: Result<StaticWrites, QueryError>)
    requires Valid(rsu) && Valid(controller)
    ensures r.Success? <==> cfg.r2rCount + 1 <= |rsu.infraIds|
    ensures r.Success? ==> |r.value.r2r| == |r.value.r2c| == |r.value.c2r| == 1
    ensures r.Success? ==> forall k :: 0 <= k < |r.value.r2r[0]| ==> r.value.r2r[0][k].timeStep == 0
    ensures r.Success? ==> forall k :: 0 <= k < |r.value.r2c[0]| ==> r.value.r2c[0][k].nodeId != r.value.r2c[0][k].targetId
    ensures r.Success? ==> forall k :: 0 <= k < |r.value.c2r[0]| ==> r.value.c2r[0][k].nodeId != r.value.c2r[0][k].targetId
  {
    match GetI2iLinksOfCount(rsu, cfg.r2rCount)
    case Failure(e) => Failure(e)
    case Success(r2r) => Success(StaticWrites([r2r], [RsuToController(rsu, controller, cfg)], [ControllerToRsu(rsu, controller, cfg)]))
  }

  /** The r2c table: controllers within `r2cRadius` of each RSU. */
  function RsuToController(rsu: Infra, controller: Infra, cfg: Config): (rows: seq<LinkRow>)
    requires Valid(rsu) && Valid(controller)
    ensures forall k :: 0 <= k < |rows| ==> rows[k].nodeId != rows[k].targetId
  {
    GetI2OtherILinksWithRadius(rsu, controller.infraIds, controller.tree, 0, cfg.r2cRadius)
  }

  /** The c2r table: RSUs within `c2rRadius` of each controller. */
  function ControllerToRsu(rsu: Infra, controller: Infra, cfg: Config): (rows: seq<LinkRow>)
    requires Valid(rsu) && Valid(controller)
    ensures forall k :: 0 <= k < |rows| ==> rows[k].nodeId != rows[k].targetId
  {
    GetI2OtherILinksWithRadius(controller, rsu.infraIds, rsu.tree, 0, cfg.c2rRadius)
  }

  /**
   * The static tables as written: every RSU has `r2rCount + 1` r2r rows, one of
   * them a link to itself at distance 0; an RSU and a controller with different ids
   * are linked (in either table) exactly when they are within that table's radius.
   */
  lemma StaticLinksAsWritten(rsu: Infra, controller: Infra, cfg: Config, i: nat, c: nat)
    requires Valid(rsu) && Valid(controller) && cfg.r2rCount + 1 <= |rsu.infraIds|
    requires DistinctIds(rsu.infraIds) && DistinctIds(controller.infraIds) && DistinctPoints(rsu.tree.data)
    requires i < |rsu.infraIds| && c < |controller.infraIds| && rsu.infraIds[i] != controller.infraIds[c]
    requires NearestSound(rsu.tree.data, rsu.tree.data[i], cfg.r2rCount + 1, rsu.tree.nearest(rsu.tree.data[i], cfg.r2rCount + 1))
    requires WithinSound(controller.tree.data, rsu.tree.data[i], cfg.r2cRadius, controller.tree.within(rsu.tree.data[i], cfg.r2cRadius))
    requires WithinSound(rsu.tree.data, controller.tree.data[c], cfg.c2rRadius, rsu.tree.within(controller.tree.data[c], cfg.c2rRadius))
    ensures var w := CalculateStaticLinks(rsu, controller, cfg).value;
      && |Filter(w.r2r[0], FromNode(rsu.infraIds[i]))| == cfg.r2rCount + 1
      && LinkRow(0, rsu.infraIds[i], rsu.infraIds[i], 0.0) in w.r2r[0]
      && (Linked(w.r2c[0], rsu.infraIds[i], controller.infraIds[c])
          <==> cfg.r2cRadius >= 0.0 && SqDist(rsu.tree.data[i], controller.tree.data[c]) <= Mul(cfg.r2cRadius, cfg.r2cRadius))
      && (Linked(w.c2r[0], controller.infraIds[c], rsu.infraIds[i])
          <==> cfg.c2rRadius >= 0.0 && SqDist(controller.tree.data[c], rsu.tree.data[i]) <= Mul(cfg.c2rRadius, cfg.c2rRadius))
  {
    I2iKeepsSelfLinks(rsu, cfg.r2rCount, i);
    RadiusTables(rsu, controller, cfg, i, c);
  }

  /** Corrected static links: as written, but the r2r table drops each RSU's match with itself. */
  function CalculateStaticLinksFixed(rsu: Infra, controller: Infra, cfg: Config): (r: Result<StaticWrites, QueryError>)
    requires Valid(rsu) && Valid(controller)
    ensures r.Success? <==> cfg.r2rCount + 1 <= |rsu.infraIds|
    ensures r.Success? ==> |r.value.r2r| == |r.value.r2c| == |r.value.c2r| == 1
    ensures r.Success? ==> forall k :: 0 <= k < |r.value.r2r[0]| ==> r.value.r2r[0][k].nodeId != r.value.r2r[0][k].targetId
    ensures r.Success? ==> r.value.r2c == CalculateStaticLinks(rsu, controller, cfg).value.r2c
    ensures r.Success? ==> r.value.c2r == CalculateStaticLinks(rsu, controller, cfg).value.c2r
  {
    match GetI2iLinksOfCountFixed(rsu, cfg.r2rCount)
    case Failure(e) => Failure(e)
    case Success(r2r) => Success(StaticWrites([r2r], [RsuToController(rsu, controller, cfg)], [ControllerToRsu(rsu, controller, cfg)]))
  }

  /**
   * The corrected static tables: every RSU has exactly `r2rCount` links to other
   * RSUs; the radius tables are those of the program.
   */
  lemma StaticLinksMeaning(rsu: Infra, controller: Infra, cfg: Config, i: nat, c: nat)
    requires Valid(rsu) && Valid(controller) && cfg.r2rCount + 1 <= |rsu.infraIds|
    requires DistinctIds(rsu.infraIds) && DistinctIds(controller.infraIds) && DistinctPoints(rsu.tree.data)
    requires i < |rsu.infraIds| && c < |controller.infraIds| && rsu.infraIds[i] != controller.infraIds[c]
    requires NearestSound(rsu.tree.data, rsu.tree.data[i], cfg.r2rCount + 1, rsu.tree.nearest(rsu.tree.data[i], cfg.r2rCount + 1))
    requires WithinSound(controller.tree.data, rsu.tree.data[i], cfg.r2cRadius, controller.tree.within(rsu.tree.data[i], cfg.r2cRadius))
    requires WithinSound(rsu.tree.data, controller.tree.data[c], cfg.c2rRadius, rsu.tree.within(controller.tree.data[c], cfg.c2rRadius))
    ensures var w := CalculateStaticLinksFixed(rsu, controller, cfg).value;
      && |Filter(w.r2r[0], FromNode(rsu.infraIds[i]))| == cfg.r2rCount
      && (forall k :: 0 <= k < |w.r2r[0]| ==> w.r2r[0][k].nodeId != w.r2r[0][k].targetId)
      && (Linked(w.r2c[0], rsu.infraIds[i], controller.infraIds[c])
          <==> cfg.r2cRadius >= 0.0 && SqDist(rsu.tree.data[i], controller.tree.data[c]) <= Mul(cfg.r2cRadius, cfg.r2cRadius))
      && (Linked(w.c2r[0], controller.infraIds[c], rsu.infraIds[i])
          <==> cfg.c2rRadius >= 0.0 && SqDist(controller.tree.data[c], rsu.tree.data[i]) <= Mul(cfg.c2rRadius, cfg.c2rRadius))
  {
    I2iFixedCount(rsu, cfg.r2rCount, i);
    RadiusTables(rsu, controller, cfg, i, c);
  }

  lemma RadiusTables(rsu: Infra, controller: Infra, cfg: Config, i: nat, c: nat)
    requires Valid(rsu) && Valid(controller)
    requires DistinctIds(rsu.infraIds) && DistinctIds(controller.infraIds)
    requires i < |rsu.infraIds| && c < |controller.infraIds| && rsu.infraIds[i] != controller.infraIds[c]
    requires WithinSound(controller.tree.data, rsu.tree.data[i], cfg.r2cRadius, controller.tree.within(rsu.tree.data[i], cfg.r2cRadius))
    requires WithinSound(rsu.tree.data, controller.tree.data[c], cfg.c2rRadius, rsu.tree.within(controller.tree.data[c], cfg.c2rRadius))
    ensures Linked(RsuToController(rsu, controller, cfg), rsu.infraIds[i], controller.infraIds[c])
      <==> cfg.r2cRadius >= 0.0 && SqDist(rsu.tree.data[i], controller.tree.data[c]) <= Mul(cfg.r2cRadius, cfg.r2cRadius)
    ensures Linked(ControllerToRsu(rsu, controller, cfg), controller.infraIds[c], rsu.infraIds[i])
      <==> cfg.c2rRadius >= 0.0 && SqDist(controller.tree.data[c], rsu.tree.data[i]) <= Mul(cfg.c2rRadius, cfg.c2rRadius)
  {
    I2OtherIRadiusLinks(rsu, controller.infraIds, controller.tree, 0, cfg.r2cRadius, i, c);
    I2OtherIRadiusLinks(controller, rsu.infraIds, rsu.tree, 0, cfg.c2rRadius, c, i);
  }
}

=== FILE: batching.dfy ===
/**
 * The row buffers of the ingestion loops: rows are appended one at a time, the
 * buffer is written as one batch the moment it holds exactly `limit` rows and is
 * then emptied, and whatever is left is written once more at the end of the
 * stream if it is not empty. Writes are recorded, in order, in `writes`.
 */
module Batching {
  import opened Seqs

  datatype Buffer<T> = Buffer(pending: seq<T>, writes: seq<seq<T>>)

  function Empty<T>(): Buffer<T>
  {
    Buffer([], [])
  }

  /** Every write so far is a full batch and the pending rows have not reached the limit. */
  predicate Valid<T>(b: Buffer<T>, limit: nat)
  {
    && |b.pending| < limit
    && forall k :: 0 <= k < |b.writes| ==> |b.writes[k]| == limit
  }

  /** All rows appended so far, written or still pending. */
  function Rows<T>(b: Buffer<T>): seq<T>
  {
    Flatten(b.writes) + b.pending
  }

  /** Append one row; write and reset when the buffer reaches exactly `limit` rows. */
  function Push<T>(b: Buffer<T>, x: T, limit: nat): (r: Buffer<T>)
    requires Valid(b, limit)
    ensures Valid(r, limit)
    ensures Rows(r) == Rows(b) + [x]
    ensures |r.writes| >= |b.writes| && r.writes[..|b.writes|] == b.writes
  {
    var p := b.pending + [x];
    if |p| == limit then
      FlattenAppend(b.writes, p);
      Buffer([], b.writes + [p])
    else
      Buffer(p, b.writes)
  }

  /** Append rows in order. */
  function PushAll<T>(b: Buffer<T>, xs: seq<T>, limit: nat): (r: Buffer<T>)
    requires Valid(b, limit)
    ensures Valid(r, limit)
    ensures Rows(r) == Rows(b) + xs
    ensures |r.writes| >= |b.writes| && r.writes[..|b.writes|] == b.writes
    decreases |xs|
  {
    if |xs| == 0 then b
    else
      var r := Push(PushAll(b, xs[..|xs| - 1], limit), xs[|xs| - 1], limit);
      assert xs == xs[..|xs| - 1] + [xs[|xs| - 1]];
      r
  }

  /** The end-of-stream flush: the pending rows are written only when there are some. */
  function Finish<T>(b: Buffer<T>): (w: seq<seq<T>>)
    ensures Flatten(w) == Rows(b)
    ensures |b.pending| == 0 ==> w == b.writes
    ensures |b.pending| > 0 ==> |w| == |b.writes| + 1 && w[..|b.writes|] == b.writes && w[|b.writes|] == b.pending
  {
    if |b.pending| > 0 then
      FlattenAppend(b.writes, b.pending);
      b.writes + [b.pending]
    else
      b.writes
  }

  /** All batches a whole stream produces. */
  function WriteStream<T>(xs: seq<T>, limit: nat): seq<seq<T>>
    requires 0 < limit
  {
    Finish(PushAll(Empty(), xs, limit))
  }

  /**
   * The batches of a stream hold exactly the stream's rows, in order, whatever
   * the limit: every batch but the last is full, the last holds between 1 and
   * `limit` rows, and there are ceil(|xs| / limit) of them.
   */
  lemma WriteStreamBatches<T>(xs: seq<T>, limit: nat)
    requires 0 < limit
    ensures Flatten(WriteStream(xs, limit)) == xs
    ensures var w := WriteStream(xs, limit);
      && (forall k :: 0 <= k < |w| - 1 ==> |w[k]| == limit)
      && (|w| > 0 ==> 0 < |w[|w| - 1]| <= limit)
      && |w| == (|xs| + limit - 1) / limit
  {
    var b := PushAll(Empty(), xs, limit);
    assert Rows(b) == xs by {
      assert Rows(Empty<T>()) == [];
    }
    assert WriteStream(xs, limit) == Finish(b);
    FinishCount(b, limit);
    FinishShape(b, limit);
  }

  /** Finishing a valid buffer writes full batches and then at most one shorter, non-empty one. */
  lemma FinishShape<T>(b: Buffer<T>, limit: nat)
    requires 0 < limit && Valid(b, limit)
    ensures var w := Finish(b);
      && (forall k :: 0 <= k < |w| - 1 ==> |w[k]| == limit)
      && (|w| > 0 ==> 0 < |w[|w| - 1]| <= limit)
  {
  }

  /** Finishing a valid buffer writes ceil(rows / limit) batches. */
  lemma FinishCount<T>(b: Buffer<T>, limit: nat)
    requires 0 < limit && Valid(b, limit)
    ensures |Finish(b)| == (|Rows(b)| + limit - 1) / limit
  {
    assert |Rows(b)| == limit * |b.writes| + |b.pending| by {
      FlattenLength(b.writes, limit);
    }
    DivCeil(|Rows(b)|, limit, |b.writes|, |b.pending|);
  }

  lemma DivCeil(n: nat, limit: nat, q: nat, p: nat)
    requires 0 < limit && p < limit && n == limit * q + p
    ensures p == 0 ==> (n + limit - 1) / limit == q
    ensures p > 0 ==> (n + limit - 1) / limit == q + 1
  {
    if p == 0 {
      DivUnique(n + limit - 1, limit, q, limit - 1);
    } else {
      DivUnique(n + limit - 1, limit, q + 1, p - 1);
    }
  }

  /** Quotient and remainder are unique. */
  lemma DivUnique(a: int, l: int, q: int, r: int)
    requires 0 < l && 0 <= r < l && a == l * q + r
    ensures a / l == q
  {
    var q' := a / l;
    var r' := a % l;
    assert a == l * q' + r';
    if q > q' {
      MulAtLeast(l, q - q');
      assert false;
    } else if q < q' {
      MulAtLeast(l, q' - q);
      assert false;
    }
  }

  lemma MulAtLeast(l: int, d: int)
    requires 0 < l && 1 <= d
    ensures l * d >= l
  {
    var e := d - 1;
    assert l * d == l * e + l;
    assert l * e >= 0;
  }
}

=== FILE: disolv_sumo.dfy ===
/**
 * The disolv SUMO converter: times are shifted so that the first timestep block is
 * at 0, the lane string is stored unchanged as `road_data`, and position rows are
 * written in batches of 10000. The tracker output is one row per interval.
 */
module DisolvSumo {
  import opened Wrappers
  import opened Seqs
  import opened Batching
  import opened Activation
  import opened LaneParser
  import opened Ingestion

  /** The size at which the position buffer is written. */
  const FlushSize: nat := 10000

  /** The value of the time offset before any block has been seen. */
  const Unset: int := -1

  datatype PositionRow = PositionRow(
    timeStep: int, agentId: int, x: real, y: real, velocity: real, roadData: string, vehType: string)

  /**
   * The blocks with their times reduced by the offset. The offset starts unset and is
   * set to the time of the block that finds it unset; every block, that one included,
   * is then reduced by it.
   */
  function Normalize(blocks: seq<Block>, offset: int): (r: seq<Block>)
    ensures |r| == |blocks|
    ensures forall k :: 0 <= k < |blocks| ==> r[k].obs == blocks[k].obs
    decreases |blocks|
  {
    if |blocks| == 0 then []
    else
      var off := if offset == Unset then blocks[0].time else offset;
      [Block(blocks[0].time - off, blocks[0].obs)] + Normalize(blocks[1..], off)
  }

  /** Once the offset is set, every block is reduced by it and nothing else changes. */
  lemma {:induction false} NormalizeBySetOffset(blocks: seq<Block>, offset: int)
    requires offset != Unset
    ensures forall k :: 0 <= k < |blocks| ==> Normalize(blocks, offset)[k] == Block(blocks[k].time - offset, blocks[k].obs)
    decreases |blocks|
  {
    if |blocks| > 0 {
      NormalizeBySetOffset(blocks[1..], offset);
      var r := Normalize(blocks, offset);
      forall k | 0 <= k < |blocks|
        ensures r[k] == Block(blocks[k].time - offset, blocks[k].obs)
      {
        if k > 0 {
          assert r[k] == Normalize(blocks[1..], offset)[k - 1];
        }
      }
    }
  }

  /**
   * With a first time that is not the sentinel (SUMO times in milliseconds are
   * multiples of 100, so never -1), the offset is the first block's time: the first
   * block lands on 0 and the order and spacing of the times are kept.
   */
  lemma NormalizeByFirstTime(blocks: seq<Block>)
    requires |blocks| > 0 && blocks[0].time != Unset
    ensures forall k :: 0 <= k < |blocks| ==> Normalize(blocks, Unset)[k] == Block(blocks[k].time - blocks[0].time, blocks[k].obs)
    ensures Normalize(blocks, Unset)[0].time == 0
  {
    var t0 := blocks[0].time;
    NormalizeBySetOffset(blocks[1..], t0);
    var r := Normalize(blocks, Unset);
    forall k | 0 <= k < |blocks|
      ensures r[k] == Block(blocks[k].time - t0, blocks[k].obs)
    {
      if k > 0 {
        assert r[k] == Normalize(blocks[1..], t0)[k - 1];
      }
    }
  }

  function Times(blocks: seq<Block>): (ts: seq<int>)
    ensures |ts| == |blocks| && forall k :: 0 <= k < |blocks| ==> ts[k] == blocks[k].time
  {
    seq(|blocks|, k requires 0 <= k < |blocks| => blocks[k].time)
  }

  /** Non-decreasing input times give non-negative, non-decreasing normalised times. */
  lemma NormalizedTimesOrdered(blocks: seq<Block>)
    requires |blocks| > 0 && blocks[0].time != Unset && NonDecreasing(Times(blocks))
    ensures NonDecreasing(Times(Normalize(blocks, Unset)))
    ensures forall k :: 0 <= k < |blocks| ==> Normalize(blocks, Unset)[k].time >= 0
  {
    NormalizeByFirstTime(blocks);
    var ts := Times(blocks);
    forall k | 0 <= k < |blocks|
      ensures Normalize(blocks, Unset)[k].time >= 0
    {
      if k > 0 {
        assert ts[0] <= ts[k];
      }
    }
  }

  /** One position row: the lane string is kept as it is, so a row never fails. */
  function ReadVehicleData(offsetX: real, offsetY: real, s: Stamped): Result<PositionRow, RoadError>
  {
    Success(PositionRow(s.time, s.obs.id, s.obs.x - offsetX, s.obs.y - offsetY, s.obs.speed, s.obs.lane, s.obs.vehType))
  }

  datatype Conversion = Conversion(writes: seq<seq<PositionRow>>, activations: seq<ActivationRow>, uniqueVehicleCount: nat)

  /**
   * `rows` are the position rows of the observations `xs`, one each, in order: the
   * coordinates shifted by the offset, the lane string unchanged.
   */
  predicate RowsOf(rows: seq<PositionRow>, xs: seq<Stamped>, offsetX: real, offsetY: real)
  {
    |rows| == |xs| && forall k :: 0 <= k < |xs| ==>
      rows[k] == PositionRow(xs[k].time, xs[k].obs.id, xs[k].obs.x - offsetX, xs[k].obs.y - offsetY,
                             xs[k].obs.speed, xs[k].obs.lane, xs[k].obs.vehType)
  }

  /**
   * What the conversion of the blocks produces: one row per observation, at its
   * normalised time and with its lane string unchanged, in document order, in batches
   * of 10000 but the last; the activation rows of the tracker run on the normalised
   * times; and the number of distinct ids.
   */
  predicate Converted(blocks: seq<Block>, c: Conversion, offsetX: real, offsetY: real)
  {
    && RowsOf(Flatten(c.writes), Observations(Normalize(blocks, Unset)), offsetX, offsetY)
    && |Flatten(c.writes)| == ObservationCount(blocks)
    && (forall k :: 0 <= k < |c.writes| - 1 ==> |c.writes[k]| == FlushSize)
    && c.activations == DisolvActivationRows(Run(Steps(Normalize(blocks, Unset))))
    && c.uniqueVehicleCount == |SeenIds(Steps(blocks))|
  }

  /**
   * The whole conversion of an FCD file. It fails with `ValueError` exactly when some
   * vehicle id is not an integer. Otherwise there is one row per observation, at its
   * normalised time and with its lane string unchanged, in document order, in batches
   * of 10000 but the last; the tracker sees the normalised times; the activation
   * output has one row per interval and the count is the number of distinct ids.
   */
  method ConvertFcdToParquet(ts: seq<Timestep>, offsetX: real, offsetY: real) returns (r: Result<Conversion, RoadError>)
    ensures r.Failure? <==> !IdsReadable(ts)
    ensures r.Failure? ==> r.error == NotANumber
    ensures r.Success? ==> IdsReadable(ts) && Converted(ReadTimesteps(ts).value, r.value, offsetX, offsetY)
    ensures r.Success? ==> |Flatten(r.value.writes)| == |Sightings(ts)|
  {
    var read := ReadTimesteps(ts);
    if read.Failure? {
      r := Failure(read.error);
    } else {
      var blocks := read.value;
      ReadCount(ts);
      var c := ConvertBlocks(blocks, offsetX, offsetY);
      r := Success(c);
    }
  }

  /** The conversion of the blocks once every id is read; this part cannot fail. */
  method ConvertBlocks(blocks: seq<Block>, offsetX: real, offsetY: real) returns (c: Conversion)
    ensures Converted(blocks, c, offsetX, offsetY)
  {
    var normalized := Normalize(blocks, Unset);
    var out := ConvertFcd(normalized, FlushSize, RowReader(offsetX, offsetY));
    var xs := Observations(normalized);
    RowsNeverFail(xs, offsetX, offsetY);
    var o := out.value;
    assert RowsOf(Flatten(o.writes), xs, offsetX, offsetY);
    NormalizedCount(blocks);
    SameIds(normalized, blocks);
    c := Conversion(o.writes, DisolvActivationRows(o.tracker), o.uniqueVehicleCount);
  }

  /** Normalising the times keeps every observation. */
  lemma NormalizedCount(blocks: seq<Block>)
    ensures |Observations(Normalize(blocks, Unset))| == ObservationCount(blocks)
  {
    ObservationsLength(Normalize(blocks, Unset));
    SameObservationCount(Normalize(blocks, Unset), blocks);
  }

  function RowReader(offsetX: real, offsetY: real): Stamped -> Result<PositionRow, RoadError>
  {
    s => ReadVehicleData(offsetX, offsetY, s)
  }

  /** Reading rows never fails, and gives one row per observation, in order. */
  lemma RowsNeverFail(xs: seq<Stamped>, offsetX: real, offsetY: real)
    ensures MapRows(xs, RowReader(offsetX, offsetY)).Success?
    ensures RowsOf(MapRows(xs, RowReader(offsetX, offsetY)).value, xs, offsetX, offsetY)
  {
  }

  lemma {:induction false} SameObservationCount(a: seq<Block>, b: seq<Block>)
    requires |a| == |b| && forall k :: 0 <= k < |a| ==> a[k].obs == b[k].obs
    ensures ObservationCount(a) == ObservationCount(b)
    decreases |a|
  {
    if |a| > 0 {
      SameObservationCount(a[..|a| - 1], b[..|b| - 1]);
    }
  }

  lemma {:induction false} SameIds(a: seq<Block>, b: seq<Block>)
    requires |a| == |b| && forall k :: 0 <= k < |a| ==> a[k].obs == b[k].obs
    ensures SeenIds(Steps(a)) == SeenIds(Steps(b))
    decreases |a|
  {
    if |a| > 0 {
      var n := |a| - 1;
      SameIds(a[..n], b[..n]);
      assert Steps(a)[..n] == Steps(a[..n]);
      assert Steps(b)[..n] == Steps(b[..n]);
    }
  }
}

=== FILE: from_sumo.dfy ===
/**
 * The older pavenet converter: each vehicle has a single activation interval. The
 * first sighting records the start time and an end time of -1; every later sighting
 * overwrites the end time, whatever the gap. No time step is ever completed.
 * Position rows carry the unshifted coordinates and are written in batches of 1000.
 */
module FromSumo {
  import opened Wrappers
  import opened Seqs
  import opened Batching
  import opened LaneParser
  import opened Ingestion
  import PavenetSumo

  const FlushSize: nat := 1000

  /** The end time of a vehicle sighted only once. */
  const NoEnd: int := -1

  datatype ActivationData = ActivationData(id: int, startTime: int, endTime: int)

  /** The activation records, with their ids in first-sighting order (the dict's order). */
  datatype Registry = Registry(data: map<int, ActivationData>, order: seq<int>)

  predicate Valid(reg: Registry)
  {
    && (forall i, j :: 0 <= i < j < |reg.order| ==> reg.order[i] != reg.order[j])
    && Elems(reg.order) == reg.data.Keys
    && (forall v :: v in reg.data ==> reg.data[v].id == v)
  }

  function UpdateActivation(reg: Registry, timestamp: int, vid: int): (r: Registry)
    requires Valid(reg)
    ensures Valid(r)
    ensures r.data.Keys == reg.data.Keys + {vid}
    ensures vid !in reg.data ==> r.data[vid] == ActivationData(vid, timestamp, NoEnd) && r.order == reg.order + [vid]
    ensures vid in reg.data ==> r.data[vid] == reg.data[vid].(endTime := timestamp) && r.order == reg.order
    ensures forall v :: v in reg.data && v != vid ==> r.data[v] == reg.data[v]
  {
    if vid !in reg.data then Registry(reg.data[vid := ActivationData(vid, timestamp, NoEnd)], reg.order + [vid])
    else Registry(reg.data[vid := reg.data[vid].(endTime := timestamp)], reg.order)
  }

  /** The registry after a stream of observations. */
  function Register(xs: seq<Stamped>): (r: Registry)
    ensures Valid(r)
    decreases |xs|
  {
    if |xs| == 0 then Registry(map[], [])
    else UpdateActivation(Register(xs[..|xs| - 1]), xs[|xs| - 1].time, xs[|xs| - 1].obs.id)
  }

  /** Observation `k` is the first sighting of `v`. */
  predicate IsFirst(xs: seq<Stamped>, v: int, k: int)
  {
    0 <= k < |xs| && xs[k].obs.id == v && forall l :: 0 <= l < k ==> xs[l].obs.id != v
  }

  /** Observation `k` is the last sighting of `v`. */
  predicate IsLast(xs: seq<Stamped>, v: int, k: int)
  {
    0 <= k < |xs| && xs[k].obs.id == v && forall l :: k < l < |xs| ==> xs[l].obs.id != v
  }

  /** The ids of a stream of observations. */
  function SightedIds(xs: seq<Stamped>): set<int>
    decreases |xs|
  {
    if |xs| == 0 then {} else SightedIds(xs[..|xs| - 1]) + {xs[|xs| - 1].obs.id}
  }

  lemma {:induction false} SightedIdsAt(xs: seq<Stamped>, v: int)
    ensures v in SightedIds(xs) <==> exists k :: 0 <= k < |xs| && xs[k].obs.id == v
    decreases |xs|
  {
    if |xs| > 0 {
      var n := |xs| - 1;
      SightedIdsAt(xs[..n], v);
      if v in SightedIds(xs[..n]) {
        var k :| 0 <= k < n && xs[..n][k].obs.id == v;
        assert xs[k].obs.id == v;
      }
      if exists k :: 0 <= k < |xs| && xs[k].obs.id == v {
        var k :| 0 <= k < |xs| && xs[k].obs.id == v;
        if k < n {
          assert xs[..n][k].obs.id == v;
        }
      }
    }
  }

  /** The tracked vehicles are the sighted ones. */
  lemma {:induction false} TrackedIffSighted(xs: seq<Stamped>)
    ensures Register(xs).data.Keys == SightedIds(xs)
    decreases |xs|
  {
    if |xs| > 0 {
      TrackedIffSighted(xs[..|xs| - 1]);
    }
  }

  /** The interval starts at the first sighting. */
  lemma {:induction false} StartIsFirstSighting(xs: seq<Stamped>, v: int, f: int)
    requires IsFirst(xs, v, f)
    ensures v in Register(xs).data && Register(xs).data[v].startTime == xs[f].time
    decreases |xs|
  {
    var n := |xs| - 1;
    var pre := xs[..n];
    var last := xs[n];
    assert Register(xs) == UpdateActivation(Register(pre), last.time, last.obs.id);
    if f < n {
      assert IsFirst(pre, v, f);
      StartIsFirstSighting(pre, v, f);
    } else {
      NotSightedBefore(xs, v, f);
    }
  }

  /** Nothing before the first sighting of `v` tracks it. */
  lemma NotSightedBefore(xs: seq<Stamped>, v: int, f: int)
    requires IsFirst(xs, v, f)
    ensures v !in Register(xs[..f]).data
  {
    TrackedIffSighted(xs[..f]);
    SightedIdsAt(xs[..f], v);
  }

  /** Once sighted, `v` stays tracked. */
  lemma SightedBefore(xs: seq<Stamped>, v: int, f: int, n: int)
    requires 0 <= f < n <= |xs| && xs[f].obs.id == v
    ensures v in Register(xs[..n]).data
  {
    TrackedIffSighted(xs[..n]);
    SightedIdsAt(xs[..n], v);
    assert xs[..n][f].obs.id == v;
  }

  /** The interval ends at the last sighting, or at -1 if that is also the first. */
  lemma {:induction false} EndIsLastSighting(xs: seq<Stamped>, v: int, f: int, l: int)
    requires IsFirst(xs, v, f) && IsLast(xs, v, l)
    ensures v in Register(xs).data
    ensures f == l ==> Register(xs).data[v].endTime == NoEnd
    ensures f < l ==> Register(xs).data[v].endTime == xs[l].time
    decreases |xs|
  {
    var n := |xs| - 1;
    if l < n {
      var pre := xs[..n];
      assert IsFirst(pre, v, f) && IsLast(pre, v, l) by {
        assert forall k :: 0 <= k < n ==> pre[k] == xs[k];
      }
      EndIsLastSighting(pre, v, f, l);
      OtherSightingKeepsRecord(xs, v, f, l);
    } else if f == l {
      FirstSightingHasNoEnd(xs, v, f);
    } else {
      LaterSightingSetsEnd(xs, v, f, l);
    }
  }

  lemma OtherSightingKeepsRecord(xs: seq<Stamped>, v: int, f: int, l: int)
    requires IsFirst(xs, v, f) && IsLast(xs, v, l) && l < |xs| - 1
    requires v in Register(xs[..|xs| - 1]).data
    ensures v in Register(xs).data
    ensures Register(xs).data[v] == Register(xs[..|xs| - 1]).data[v]
  {
    var n := |xs| - 1;
    assert Register(xs) == UpdateActivation(Register(xs[..n]), xs[n].time, xs[n].obs.id);
  }

  lemma FirstSightingHasNoEnd(xs: seq<Stamped>, v: int, f: int)
    requires IsFirst(xs, v, f) && f == |xs| - 1
    ensures v in Register(xs).data
    ensures Register(xs).data[v].endTime == NoEnd
  {
    var n := |xs| - 1;
    assert Register(xs) == UpdateActivation(Register(xs[..n]), xs[n].time, xs[n].obs.id);
    NotSightedBefore(xs, v, f);
  }

  lemma LaterSightingSetsEnd(xs: seq<Stamped>, v: int, f: int, l: int)
    requires IsFirst(xs, v, f) && f < l == |xs| - 1 && xs[l].obs.id == v
    ensures v in Register(xs).data
    ensures Register(xs).data[v].endTime == xs[l].time
  {
    var n := |xs| - 1;
    assert Register(xs) == UpdateActivation(Register(xs[..n]), xs[n].time, xs[n].obs.id);
    SightedBefore(xs, v, f, n);
  }

  datatype ActivationRow = ActivationRow(nodeId: int, startTime: int, endTime: int)

  /** One row per vehicle, in first-sighting order: (id, start_time, end_time). */
  function ActivationRows(reg: Registry): (rows: seq<ActivationRow>)
    requires Valid(reg)
    ensures |rows| == |reg.order|
    ensures forall k :: 0 <= k < |rows| ==>
      rows[k] == ActivationRow(reg.order[k], reg.data[reg.order[k]].startTime, reg.data[reg.order[k]].endTime)
  {
    seq(|reg.order|, k requires 0 <= k < |reg.order| =>
      ActivationRow(reg.order[k], reg.data[reg.order[k]].startTime, reg.data[reg.order[k]].endTime))
  }

  /** Every sighted vehicle has exactly one activation row. */
  lemma OneRowPerVehicle(xs: seq<Stamped>, v: int)
    requires v in SightedIds(xs)
    ensures var rows := ActivationRows(Register(xs));
      exists k :: 0 <= k < |rows| && rows[k].nodeId == v && forall l :: 0 <= l < |rows| && rows[l].nodeId == v ==> l == k
  {
    TrackedIffSighted(xs);
    var reg := Register(xs);
    var rows := ActivationRows(reg);
    var k :| 0 <= k < |reg.order| && reg.order[k] == v;
    assert rows[k].nodeId == v;
  }

  datatype Conversion = Conversion(writes: seq<seq<PavenetSumo.PositionRow>>, activations: seq<ActivationRow>)

  /**
   * The whole conversion of an FCD file: it fails exactly when some vehicle element
   * has an id that is not an integer or a lane string that does not parse, with the
   * error of the first such element. Otherwise the batches hold one unshifted row per
   * observation in document order, each batch but the last holds 1000 rows, and the
   * activation output is the registry of all sightings.
   */
  method ConvertFcdToParquet(ts: seq<Timestep>) returns (r: Result<Conversion, RoadError>)
    ensures r.Failure? <==> PavenetSumo.SomeVehicleUnreadable(Sightings(ts))
    ensures r.Failure? ==>
      (exists k: nat :: FirstFailure(Sightings(ts), PavenetSumo.SightingReader(0.0, 0.0), k)
        && r.error == PavenetSumo.SightingRow(0.0, 0.0, Sightings(ts)[k]).error)
    ensures r.Success? ==> IdsReadable(ts)
    ensures r.Success? ==>
      var rows := Flatten(r.value.writes);
      var xs := Observations(ReadTimesteps(ts).value);
      && |rows| == |xs|
      && forall k :: 0 <= k < |xs| ==>
           PavenetSumo.ReadVehicleData(0.0, 0.0, xs[k]).Success? && rows[k] == PavenetSumo.ReadVehicleData(0.0, 0.0, xs[k]).value
    ensures r.Success? ==> forall k :: 0 <= k < |r.value.writes| - 1 ==> |r.value.writes[k]| == FlushSize
    ensures r.Success? ==> r.value.activations == ActivationRows(Register(Observations(ReadTimesteps(ts).value)))
  {
    var ss := Sightings(ts);
    var rows := MapRows(ss, PavenetSumo.SightingReader(0.0, 0.0));
    PavenetSumo.SightingRowsFailIff(ss, 0.0, 0.0);
    if rows.Failure? {
      r := Failure(rows.error);
    } else {
      assert IdsReadable(ts) by {
        forall m | 0 <= m < |ss| ensures IdReadable(ss[m].vehicle) {
          if !IdReadable(ss[m].vehicle) {
            assert PavenetSumo.SomeVehicleUnreadable(ss);
          }
        }
      }
      var xs := Observations(ReadTimesteps(ts).value);
      PavenetSumo.SameRows(ts, 0.0, 0.0);
      var w := WriteStream(rows.value, FlushSize);
      WriteStreamBatches(rows.value, FlushSize);
      PavenetSumo.RowsRead(xs, 0.0, 0.0);
      r := Success(Conversion(w, ActivationRows(Register(xs))));
    }
  }
}

=== FILE: id_maps.dfy ===
/**
 * Renumbering agents for ns-3 (`scripts/ns3_input_fix.py`). Vehicles get the dense
 * ids 0, 1, ... in the row order of the vehicle activation table; roadside units get
 * the ids that follow, starting at the number of entries of the vehicle map. Each
 * table's id columns are then rewritten through these maps, and pandas' `map` turns
 * an id the map does not hold into a missing value.
 */
module IdMaps {
  import opened Wrappers
  import opened Seqs
  import opened OrderedDict

  /** The pairs `zip(ids, range(offset, offset + len(ids)))`. */
  function Numbered(ids: seq<int>, offset: int): (pairs: seq<Entry<int>>)
    ensures |pairs| == |ids|
    ensures forall i :: 0 <= i < |ids| ==> pairs[i].key == ids[i] && pairs[i].value == offset + i
  {
    seq(|ids|, i requires 0 <= i < |ids| => Entry(ids[i], offset + i))
  }

  /** `prepare_veh_id_map`: the vehicle ids, numbered from 0. */
  function VehIdMap(ids: seq<int>): (m: seq<Entry<int>>)
    ensures DistinctKeys(m)
  {
    FromPairs(Numbered(ids, 0))
  }

  /** `prepare_rsu_id_map`: the roadside unit ids, numbered from `vehCount`. */
  function RsuIdMap(ids: seq<int>, vehCount: int): (m: seq<Entry<int>>)
    ensures DistinctKeys(m)
  {
    FromPairs(Numbered(ids, vehCount))
  }

  /** Both maps, the second numbered from the size of the first, as the script builds them. */
  function PrepareMaps(vehIds: seq<int>, rsuIds: seq<int>): (maps: (seq<Entry<int>>, seq<Entry<int>>))
  {
    var vehMap := VehIdMap(vehIds);
    (vehMap, RsuIdMap(rsuIds, |vehMap|))
  }

  /**
   * A numbering holds exactly the ids given, and an id maps to the offset plus the
   * position of its LAST occurrence.
   */
  lemma NumberedLookup(ids: seq<int>, offset: int, k: int)
    ensures Lookup(FromPairs(Numbered(ids, offset)), k).None? <==> k !in ids
    ensures forall i :: 0 <= i < |ids| && ids[i] == k && (forall j :: i < j < |ids| ==> ids[j] != k) ==>
              Lookup(FromPairs(Numbered(ids, offset)), k) == Some(offset + i)
  {
    var pairs := Numbered(ids, offset);
    FromPairsLookup(pairs, k);
    LastValueAt(pairs, k);
    assert k in ids ==> exists j :: 0 <= j < |pairs| && pairs[j].key == k;
  }

  /** `prepare_veh_id_map`: the i-th vehicle id maps to i unless it occurs again later. */
  lemma VehIdMapLookup(ids: seq<int>, k: int)
    ensures Lookup(VehIdMap(ids), k).None? <==> k !in ids
    ensures forall i :: 0 <= i < |ids| && ids[i] == k && (forall j :: i < j < |ids| ==> ids[j] != k) ==>
              Lookup(VehIdMap(ids), k) == Some(i)
  {
    assert VehIdMap(ids) == FromPairs(Numbered(ids, 0));
    NumberedLookup(ids, 0, k);
  }

  /** `prepare_rsu_id_map`: the i-th roadside unit id maps to `vehCount + i` unless it occurs again later. */
  lemma RsuIdMapLookup(ids: seq<int>, vehCount: int, k: int)
    ensures Lookup(RsuIdMap(ids, vehCount), k).None? <==> k !in ids
    ensures forall i :: 0 <= i < |ids| && ids[i] == k && (forall j :: i < j < |ids| ==> ids[j] != k) ==>
              Lookup(RsuIdMap(ids, vehCount), k) == Some(vehCount + i)
  {
    NumberedLookup(ids, vehCount, k);
  }

  /** Every number a numbering hands out lies in `[offset, offset + len(ids))`. */
  lemma NumberedRange(ids: seq<int>, offset: int)
    ensures forall e :: e in FromPairs(Numbered(ids, offset)) ==> offset <= e.value < offset + |ids|
  {
    var pairs := Numbered(ids, offset);
    var m := FromPairs(pairs);
    forall e | e in m
      ensures offset <= e.value < offset + |ids|
    {
      var i :| 0 <= i < |m| && m[i] == e;
      FromPairsLookup(pairs, e.key);
      LastValueFrom(pairs, e.key);
      var j :| 0 <= j < |pairs| && pairs[j] == Entry(e.key, LastValue(pairs, e.key).value);
    }
  }

  /** Over distinct ids a numbering is the zip itself: one entry per id, the i-th id mapped to offset + i. */
  lemma NumberedDistinct(ids: seq<int>, offset: int)
    requires DistinctIds(ids)
    ensures FromPairs(Numbered(ids, offset)) == Numbered(ids, offset)
  {
    FromDistinctPairs(Numbered(ids, offset));
  }

  /** Over distinct ids the numbering has one entry per id, each in `[offset, offset + len(ids))`. */
  lemma DistinctNumbering(ids: seq<int>, offset: int)
    requires DistinctIds(ids)
    ensures |FromPairs(Numbered(ids, offset))| == |ids|
    ensures forall e :: e in FromPairs(Numbered(ids, offset)) ==> offset <= e.value < offset + |ids|
  {
    NumberedDistinct(ids, offset);
  }

  /** Over distinct ids the i-th id maps to offset + i. */
  lemma NumberingAt(ids: seq<int>, offset: int, i: nat)
    requires DistinctIds(ids) && i < |ids|
    ensures Lookup(FromPairs(Numbered(ids, offset)), ids[i]) == Some(offset + i)
  {
    NumberedDistinct(ids, offset);
    assert Numbered(ids, offset)[i].key == ids[i];
  }

  /**
   * With distinct ids on both sides, the vehicles take exactly `[0, n)` and the
   * roadside units exactly `[n, n + m)`, so no two agents share an ns-3 id.
   */
  lemma DisjointRanges(vehIds: seq<int>, rsuIds: seq<int>)
    requires DistinctIds(vehIds) && DistinctIds(rsuIds)
    ensures |PrepareMaps(vehIds, rsuIds).0| == |vehIds|
    ensures forall i :: 0 <= i < |vehIds| ==> Lookup(PrepareMaps(vehIds, rsuIds).0, vehIds[i]) == Some(i)
    ensures forall i :: 0 <= i < |rsuIds| ==> Lookup(PrepareMaps(vehIds, rsuIds).1, rsuIds[i]) == Some(|vehIds| + i)
    ensures forall e, f :: e in PrepareMaps(vehIds, rsuIds).0 && f in PrepareMaps(vehIds, rsuIds).1 ==> e.value < f.value
  {
    var (vm, rm) := PrepareMaps(vehIds, rsuIds);
    assert |vm| == |vehIds| && forall e :: e in vm ==> e.value < |vehIds| by {
      DistinctNumbering(vehIds, 0);
    }
    forall i | 0 <= i < |vehIds|
      ensures Lookup(vm, vehIds[i]) == Some(i)
    {
      NumberingAt(vehIds, 0, i);
    }
    RsuNumbering(vehIds, rsuIds);
    Separated(vm, rm, |vehIds|);
  }

  /** The roadside map is numbered from the number of distinct vehicles. */
  lemma RsuNumbering(vehIds: seq<int>, rsuIds: seq<int>)
    requires DistinctIds(vehIds) && DistinctIds(rsuIds)
    ensures forall i :: 0 <= i < |rsuIds| ==> Lookup(PrepareMaps(vehIds, rsuIds).1, rsuIds[i]) == Some(|vehIds| + i)
    ensures forall e :: e in PrepareMaps(vehIds, rsuIds).1 ==> |vehIds| <= e.value
  {
    var rm := PrepareMaps(vehIds, rsuIds).1;
    assert rm == FromPairs(Numbered(rsuIds, |vehIds|)) by {
      DistinctNumbering(vehIds, 0);
    }
    forall i | 0 <= i < |rsuIds|
      ensures Lookup(rm, rsuIds[i]) == Some(|vehIds| + i)
    {
      NumberingAt(rsuIds, |vehIds|, i);
    }
    assert forall e :: e in rm ==> |vehIds| <= e.value by {
      DistinctNumbering(rsuIds, |vehIds|);
    }
  }

  lemma Separated(a: seq<Entry<int>>, b: seq<Entry<int>>, n: int)
    requires forall e :: e in a ==> e.value < n
    requires forall f :: f in b ==> n <= f.value
    ensures forall e, f :: e in a && f in b ==> e.value < f.value
  {
  }

  /**
   * When a vehicle id occurs twice the vehicle map has fewer entries than the table
   * has rows, and the roadside units are numbered from a value a vehicle already holds.
   */
  lemma DuplicateIdsCollide()
    ensures PrepareMaps([7, 7], [9]).0 == [Entry(7, 1)]
    ensures PrepareMaps([7, 7], [9]).1 == [Entry(9, 1)]
  {
    var pairs := Numbered([7, 7], 0);
    assert pairs == [Entry(7, 0), Entry(7, 1)];
    assert pairs[..1] == [Entry(7, 0)];
    FromDistinctPairs(pairs[..1]);
    assert IndexOf(Keys([Entry(7, 0)]), 7) == 0;
    var rsu := Numbered([9], 1);
    assert rsu == [Entry(9, 1)] && rsu[..0] == [];
  }

  /** A row of one of the agent tables: its agent id and the columns the script leaves alone. */
  datatype AgentRow<R> = AgentRow(agentId: int, rest: R)

  /** The same row after the remap; `None` is the missing value of an unmapped id. */
  datatype MappedRow<R> = MappedRow(agentId: Option<int>, rest: R)

  /** `modify_agent_ids`: a copy of the table with only `agent_id` mapped. */
  function ModifyAgentIds<R>(rows: seq<AgentRow<R>>, m: seq<Entry<int>>): (r: seq<MappedRow<R>>)
    ensures |r| == |rows|
    ensures forall i :: 0 <= i < |rows| ==> r[i].rest == rows[i].rest
    ensures forall i :: 0 <= i < |rows| ==> (r[i].agentId.None? <==> forall j :: 0 <= j < |m| ==> m[j].key != rows[i].agentId)
    ensures DistinctKeys(m) ==> forall i, j :: 0 <= i < |rows| && 0 <= j < |m| && m[j].key == rows[i].agentId ==> r[i].agentId == Some(m[j].value)
  {
    seq(|rows|, i requires 0 <= i < |rows| => MappedRow(Lookup(m, rows[i].agentId), rows[i].rest))
  }

  /** Ns-3 id `offset + i` names the i-th id of the list. */
  predicate Restorable<R>(row: MappedRow<R>, ids: seq<int>, offset: int)
  {
    row.agentId.Some? && offset <= row.agentId.value < offset + |ids|
  }

  /** Undo a numbering of `ids` from `offset`: ns-3 id `offset + i` goes back to `ids[i]`. */
  function RestoreAgentIds<R>(rows: seq<MappedRow<R>>, ids: seq<int>, offset: int): (r: Option<seq<AgentRow<R>>>)
    ensures r.Some? <==> forall i :: 0 <= i < |rows| ==> Restorable(rows[i], ids, offset)
    ensures r.Some? ==> |r.value| == |rows| && forall i :: 0 <= i < |rows| ==> r.value[i].rest == rows[i].rest
  {
    if forall i :: 0 <= i < |rows| ==> Restorable(rows[i], ids, offset)
    then Some(seq(|rows|, i requires 0 <= i < |rows| && Restorable(rows[i], ids, offset) =>
                AgentRow(ids[rows[i].agentId.value - offset], rows[i].rest)))
    else None
  }

  /**
   * Renumbering a table whose agents all appear, once each, in the id list is
   * undone by numbering back: nothing is lost and nothing else changes.
   */
  lemma ModifyRoundTrip<R>(rows: seq<AgentRow<R>>, ids: seq<int>, offset: int)
    requires DistinctIds(ids)
    requires forall i :: 0 <= i < |rows| ==> rows[i].agentId in ids
    ensures RestoreAgentIds(ModifyAgentIds(rows, FromPairs(Numbered(ids, offset))), ids, offset) == Some(rows)
  {
    var mapped := ModifyAgentIds(rows, FromPairs(Numbered(ids, offset)));
    forall i | 0 <= i < |rows|
      ensures Restorable(mapped[i], ids, offset) && ids[mapped[i].agentId.value - offset] == rows[i].agentId
    {
      var k := NumberOf(ids, offset, rows[i].agentId);
    }
    var back := RestoreAgentIds(mapped, ids, offset);
    assert back.Some? && |back.value| == |rows|;
    assert forall i :: 0 <= i < |rows| ==> back.value[i] == rows[i];
    assert back.value == rows;
  }

  /** Under a numbering of distinct ids, an id of the list maps to the offset plus its position. */
  lemma NumberOf(ids: seq<int>, offset: int, id: int) returns (k: nat)
    requires DistinctIds(ids) && id in ids
    ensures k < |ids| && ids[k] == id
    ensures Lookup(FromPairs(Numbered(ids, offset)), id) == Some(offset + k)
  {
    k :| 0 <= k < |ids| && ids[k] == id;
    NumberedDistinct(ids, offset);
    var pairs := Numbered(ids, offset);
    assert pairs[k] == Entry(id, offset + k);
  }

  /** A link row before the remap. */
  datatype AgentLink = AgentLink(timeStep: int, agentId: int, targetId: int, distance: real)

  /** A link row after the remap; a `None` id is a missing value. */
  datatype MappedLink = MappedLink(timeStep: int, agentId: Option<int>, targetId: Option<int>, distance: real)

  /** Map the source column through one map and the target column through another. */
  function RemapLinks(links: seq<AgentLink>, agentMap: seq<Entry<int>>, targetMap: seq<Entry<int>>): (r: seq<MappedLink>)
    ensures |r| == |links|
    ensures forall i :: 0 <= i < |links| ==>
              r[i].timeStep == links[i].timeStep && r[i].distance == links[i].distance
              && r[i].agentId == Lookup(agentMap, links[i].agentId) && r[i].targetId == Lookup(targetMap, links[i].targetId)
  {
    seq(|links|, i requires 0 <= i < |links| =>
      var l := links[i];
      MappedLink(l.timeStep, Lookup(agentMap, l.agentId), Lookup(targetMap, l.targetId), l.distance))
  }

  /** The v2r links: vehicle sources through the vehicle map, roadside unit targets through the RSU map. */
  function V2rLinks(links: seq<AgentLink>, vehIds: seq<int>, rsuIds: seq<int>): (r: seq<MappedLink>)
  {
    var maps := PrepareMaps(vehIds, rsuIds);
    RemapLinks(links, maps.0, maps.1)
  }

  /**
   * After the v2r remap, with distinct ids and links from known vehicles to known
   * roadside units, every source is a vehicle number in `[0, n)` and every target a
   * roadside unit number in `[n, n + m)`; time steps and distances are untouched.
   */
  lemma V2rLinksRanges(links: seq<AgentLink>, vehIds: seq<int>, rsuIds: seq<int>)
    requires DistinctIds(vehIds) && DistinctIds(rsuIds)
    requires forall i :: 0 <= i < |links| ==> links[i].agentId in vehIds && links[i].targetId in rsuIds
    ensures |V2rLinks(links, vehIds, rsuIds)| == |links|
    ensures forall i :: 0 <= i < |links| ==>
              var r := V2rLinks(links, vehIds, rsuIds)[i];
              && r.timeStep == links[i].timeStep && r.distance == links[i].distance
              && r.agentId.Some? && 0 <= r.agentId.value < |vehIds|
              && r.targetId.Some? && |vehIds| <= r.targetId.value < |vehIds| + |rsuIds|
  {
    DisjointRanges(vehIds, rsuIds);
    forall i | 0 <= i < |links|
      ensures var r := V2rLinks(links, vehIds, rsuIds)[i];
              && r.agentId.Some? && 0 <= r.agentId.value < |vehIds|
              && r.targetId.Some? && |vehIds| <= r.targetId.value < |vehIds| + |rsuIds|
    {
      var a :| 0 <= a < |vehIds| && vehIds[a] == links[i].agentId;
      var b :| 0 <= b < |rsuIds| && rsuIds[b] == links[i].targetId;
    }
  }
}

=== FILE: infra_tree.dfy ===
/**
 * The link queries between nodes (vehicles) and infrastructure units (RSUs,
 * controllers). Each query asks a KD-tree for the `k` nearest points or the points
 * within a radius and turns the answers into link rows. The choices that differ
 * between the queries are modelled as written: how many neighbours are asked for
 * (`k` or `k + 1`), whether self links are dropped, and whether the result is in
 * array or data-frame form.
 */
module InfraTree {
  import opened Wrappers
  import opened Seqs
  import opened Spatial
  import opened LinkArrays

  /** An infrastructure tree: the unit ids and the KD-tree over their positions, in the same order. */
  datatype Infra = Infra(infraIds: seq<int>, tree: KdTree)

  ghost predicate Valid(infra: Infra)
  {
    |infra.infraIds| == |infra.tree.data| && InRange(infra.tree)
  }

  /** Answers of a tree whose answers are in range index the ids that go with its points. */
  lemma NearestIn(sources: seq<int>, targets: seq<int>, tree: KdTree, queries: seq<Point>, k: nat)
    requires InRange(tree) && |targets| == |tree.data| && k <= |tree.data|
    ensures QueryIn(sources, targets, Query(tree, queries, k).value)
  {
    var q := Query(tree, queries, k).value;
    forall i | 0 <= i < ZipLength(sources, q)
      ensures IndicesIn(q[i], |targets|)
    {
      assert q[i] == tree.nearest(queries[i], k);
    }
  }

  lemma WithinIn(sources: seq<int>, targets: seq<int>, tree: KdTree, queries: seq<Point>, radius: real)
    requires InRange(tree) && |targets| == |tree.data|
    ensures QueryIn(sources, targets, QueryRadius(tree, queries, radius))
  {
    var q := QueryRadius(tree, queries, radius);
    forall i | 0 <= i < ZipLength(sources, q)
      ensures IndicesIn(q[i], |targets|)
    {
      assert q[i] == tree.within(queries[i], radius);
    }
  }

  // ---------------------------------------------------------------------------
  // The queries.

  /** Node-to-node links by count: `linkCount` nearest nodes, self links dropped. */
  function GetN2nLinksWithCount(nodeIds: seq<int>, nodePositions: seq<Point>, nodeTree: KdTree, ts: int, linkCount: nat)
    : (r: Result<LinkDataArrays, QueryError>)
    requires InRange(nodeTree) && |nodeIds| == |nodeTree.data|
    ensures r.Success? <==> linkCount <= |nodeTree.data|
    ensures r.Success? ==> Aligned(r.value) && forall k :: 0 <= k < r.value.arraySize ==> r.value.nodeId[k] != r.value.targetId[k]
  {
    match Query(nodeTree, nodePositions, linkCount)
    case Failure(e) => Failure(e)
    case Success(q) =>
      NearestIn(nodeIds, nodeIds, nodeTree, nodePositions, linkCount);
      var a := ConvertQueryToArrays(nodeIds, nodeIds, q, ts, true);
      NoSelfColumns(nodeIds, nodeIds, q, ts);
      Success(a)
  }

  /** Node-to-node links by radius: every node within `radius`, self links dropped. */
  function GetN2nLinksWithRadius(nodeIds: seq<int>, nodePositions: seq<Point>, nodeTree: KdTree, ts: int, radius: real)
    : (a: LinkDataArrays)
    requires InRange(nodeTree) && |nodeIds| == |nodeTree.data|
    ensures Aligned(a) && forall k :: 0 <= k < a.arraySize ==> a.nodeId[k] != a.targetId[k]
  {
    WithinIn(nodeIds, nodeIds, nodeTree, nodePositions, radius);
    NoSelfColumns(nodeIds, nodeIds, QueryRadius(nodeTree, nodePositions, radius), ts);
    ConvertQueryToArrays(nodeIds, nodeIds, QueryRadius(nodeTree, nodePositions, radius), ts, true)
  }

  /** Node-to-infrastructure links by count: the `linkCount` nearest units of every node. */
  function GetN2iLinksWithCount(infra: Infra, nodeIds: seq<int>, nodePositions: seq<Point>, ts: int, linkCount: nat)
    : (r: Result<LinkDataArrays, QueryError>)
    requires Valid(infra)
    ensures r.Success? <==> linkCount <= |infra.infraIds|
    ensures r.Success? ==> Aligned(r.value)
  {
    match Query(infra.tree, nodePositions, linkCount)
    case Failure(e) => Failure(e)
    case Success(q) =>
      NearestIn(nodeIds, infra.infraIds, infra.tree, nodePositions, linkCount);
      Success(ConvertQueryToArrays(nodeIds, infra.infraIds, q, ts, false))
  }

  /** Node-to-infrastructure links by radius. */
  function GetN2iLinksWithRadius(infra: Infra, nodeIds: seq<int>, nodePositions: seq<Point>, ts: int, radius: real)
    : (a: LinkDataArrays)
    requires Valid(infra)
    ensures Aligned(a)
  {
    WithinIn(nodeIds, infra.infraIds, infra.tree, nodePositions, radius);
    ConvertQueryToArrays(nodeIds, infra.infraIds, QueryRadius(infra.tree, nodePositions, radius), ts, false)
  }

  /** Infrastructure-to-node links by count: `linkCount + 1` nearest nodes of every unit, nothing dropped. */
  function GetI2nLinksWithCount(infra: Infra, nodeIds: seq<int>, nodeTree: KdTree, ts: int, linkCount: nat)
    : (r: Result<LinkDataArrays, QueryError>)
    requires Valid(infra) && InRange(nodeTree) && |nodeIds| == |nodeTree.data|
    ensures r.Success? <==> linkCount + 1 <= |nodeTree.data|
    ensures r.Success? ==> Aligned(r.value)
  {
    match Query(nodeTree, infra.tree.data, linkCount + 1)
    case Failure(e) => Failure(e)
    case Success(q) =>
      NearestIn(infra.infraIds, nodeIds, nodeTree, infra.tree.data, linkCount + 1);
      Success(ConvertQueryToArrays(infra.infraIds, nodeIds, q, ts, false))
  }

  /** Infrastructure-to-node links by radius. */
  function GetI2nLinksWithRadius(infra: Infra, nodeIds: seq<int>, nodeTree: KdTree, ts: int, radius: real)
    : (a: LinkDataArrays)
    requires Valid(infra) && InRange(nodeTree) && |nodeIds| == |nodeTree.data|
    ensures Aligned(a)
  {
    WithinIn(infra.infraIds, nodeIds, nodeTree, infra.tree.data, radius);
    ConvertQueryToArrays(infra.infraIds, nodeIds, QueryRadius(nodeTree, infra.tree.data, radius), ts, false)
  }

  /**
   * Infrastructure-to-infrastructure links by count, as written: `linkCount + 1`
   * nearest units of every unit, at time 0, in data-frame form, with nothing dropped.
   */
  function GetI2iLinksOfCount(infra: Infra, linkCount: nat): (r: Result<seq<LinkRow>, QueryError>)
    requires Valid(infra)
    ensures r.Success? <==> linkCount + 1 <= |infra.infraIds|
    ensures r.Success? ==> forall k :: 0 <= k < |r.value| ==> r.value[k].timeStep == 0
  {
    match Query(infra.tree, infra.tree.data, linkCount + 1)
    case Failure(e) => Failure(e)
    case Success(q) =>
      NearestIn(infra.infraIds, infra.infraIds, infra.tree, infra.tree.data, linkCount + 1);
      Success(ConvertQueryToDf(infra.infraIds, infra.infraIds, q, 0))
  }

  /**
   * The same query with the self links removed, which is what asking for one extra
   * neighbour is there for: every unit keeps `linkCount` links to other units.
   */
  function GetI2iLinksOfCountFixed(infra: Infra, linkCount: nat): (r: Result<seq<LinkRow>, QueryError>)
    requires Valid(infra)
    ensures r.Success? <==> linkCount + 1 <= |infra.infraIds|
    ensures r.Success? ==> forall k :: 0 <= k < |r.value| ==> r.value[k].timeStep == 0 && r.value[k].nodeId != r.value[k].targetId
  {
    match GetI2iLinksOfCount(infra, linkCount)
    case Failure(e) => Failure(e)
    case Success(rows) =>
      FilterKeeps(rows, NotSelf);
      Success(Filter(rows, NotSelf))
  }

  /**
   * Links from these units to the units of another tree by radius, in data-frame
   * form, without the rows whose source id equals the target id, whatever class
   * the two units belong to.
   */
  function GetI2OtherILinksWithRadius(infra: Infra, otherIds: seq<int>, otherTree: KdTree, ts: int, radius: real)
    : (rows: seq<LinkRow>)
    requires Valid(infra) && InRange(otherTree) && |otherIds| == |otherTree.data|
    ensures forall k :: 0 <= k < |rows| ==> rows[k].nodeId != rows[k].targetId
  {
    WithinIn(infra.infraIds, otherIds, otherTree, infra.tree.data, radius);
    var df := ConvertQueryToDf(infra.infraIds, otherIds, QueryRadius(otherTree, infra.tree.data, radius), ts);
    FilterKeeps(df, NotSelf);
    Filter(df, NotSelf)
  }

  // ---------------------------------------------------------------------------
  // Helpers for the contracts above.

  lemma FilterKeeps(rows: seq<LinkRow>, p: LinkRow -> bool)
    ensures forall k :: 0 <= k < |Filter(rows, p)| ==> p(Filter(rows, p)[k]) && Filter(rows, p)[k] in rows
  {
    forall k | 0 <= k < |Filter(rows, p)|
      ensures p(Filter(rows, p)[k]) && Filter(rows, p)[k] in rows
    {
      FilterMember(rows, p, Filter(rows, p)[k]);
    }
  }

  lemma NoSelfColumns(sources: seq<int>, targets: seq<int>, query: seq<seq<Neighbor>>, ts: int)
    requires QueryIn(sources, targets, query)
    ensures var a := ConvertQueryToArrays(sources, targets, query, ts, true);
      forall k :: 0 <= k < a.arraySize ==> a.nodeId[k] != a.targetId[k]
  {
    var a := ConvertQueryToArrays(sources, targets, query, ts, true);
    ConvertFormsAgree(sources, targets, query, ts, true);
    FilterKeeps(ConvertQueryToDf(sources, targets, query, ts), NotSelf);
    forall k | 0 <= k < a.arraySize
      ensures a.nodeId[k] != a.targetId[k]
    {
      assert Rows(a)[k].nodeId == a.nodeId[k] && Rows(a)[k].targetId == a.targetId[k];
    }
  }

  /** Distinct ids: equal ids sit at the same index. */
  lemma SameIdSameIndex(ids: seq<int>, i: nat, j: nat)
    requires DistinctIds(ids) && i < |ids| && j < |ids| && ids[i] == ids[j]
    ensures i == j
  {
  }

  // ---------------------------------------------------------------------------
  // How many links each source gets. The answers are those of a correct tree
  // (`NearestSound`), and the source ids are distinct, so that the rows of one source
  // are the rows with its id.

  /**
   * A self-query over distinct points with distinct ids: exactly one answer of
   * source `i` names `i` itself, so dropping self links leaves `k - 1` of its `k` rows.
   */
  lemma SelfBlockDropsOne(ids: seq<int>, tree: KdTree, ts: int, k: nat, i: nat)
    requires |ids| == |tree.data| && DistinctIds(ids) && DistinctPoints(tree.data)
    requires 1 <= k && i < |ids|
    requires NearestSound(tree.data, tree.data[i], k, tree.nearest(tree.data[i], k))
    ensures IndicesIn(tree.nearest(tree.data[i], k), |ids|)
    ensures |Filter(SourceRows(ts, ids[i], ids, tree.nearest(tree.data[i], k)), NotSelf)| == k - 1
    ensures LinkRow(ts, ids[i], ids[i], 0.0) in SourceRows(ts, ids[i], ids, tree.nearest(tree.data[i], k))
  {
    var res := tree.nearest(tree.data[i], k);
    var block := SourceRows(ts, ids[i], ids, res);
    var j0 := SelfIsNearest(tree.data, i, k, res);
    forall j | 0 <= j < |block| && j != j0
      ensures NotSelf(block[j])
    {
      assert res[j].idx != i by {
        if j < j0 { assert res[j].idx != res[j0].idx; } else { assert res[j0].idx != res[j].idx; }
      }
      var p := res[j].idx;
      assert ids[p] != ids[i] by {
        if p < i { assert ids[p] != ids[i]; } else { assert ids[i] != ids[p]; }
      }
    }
    assert block[j0] == LinkRow(ts, ids[i], ids[i], 0.0);
    FilterOneFails(block, NotSelf, j0);
  }

  /** The rows of source `i` in a converted query are its own block (distinct ids). */
  lemma BlockOf(sources: seq<int>, targets: seq<int>, query: seq<seq<Neighbor>>, ts: int, i: nat)
    requires QueryIn(sources, targets, query) && DistinctIds(sources) && i < ZipLength(sources, query)
    ensures Filter(ConvertQueryToDf(sources, targets, query, ts), FromNode(sources[i])) == SourceRows(ts, sources[i], targets, query[i])
    ensures Filter(Rows(ConvertQueryToArrays(sources, targets, query, ts, true)), FromNode(sources[i]))
      == Filter(SourceRows(ts, sources[i], targets, query[i]), NotSelf)
    ensures Filter(Rows(ConvertQueryToArrays(sources, targets, query, ts, false)), FromNode(sources[i]))
      == SourceRows(ts, sources[i], targets, query[i])
  {
    var df := ConvertQueryToDf(sources, targets, query, ts);
    RowsOfSource(sources, targets, query, ts, ZipLength(sources, query), i);
    ConvertFormsAgree(sources, targets, query, ts, true);
    ConvertFormsAgree(sources, targets, query, ts, false);
    FilterCommute(df, NotSelf, FromNode(sources[i]));
  }

  /** Node-to-node by count: each node gets at most `linkCount` links. */
  lemma N2nCountAtMost(nodeIds: seq<int>, nodePositions: seq<Point>, nodeTree: KdTree, ts: int, linkCount: nat, i: nat)
    requires InRange(nodeTree) && |nodeIds| == |nodeTree.data| && linkCount <= |nodeTree.data|
    requires DistinctIds(nodeIds) && i < |nodeIds| && i < |nodePositions|
    requires |nodeTree.nearest(nodePositions[i], linkCount)| == linkCount
    ensures |Filter(Rows(GetN2nLinksWithCount(nodeIds, nodePositions, nodeTree, ts, linkCount).value), FromNode(nodeIds[i]))| <= linkCount
  {
    var q := Query(nodeTree, nodePositions, linkCount).value;
    NearestIn(nodeIds, nodeIds, nodeTree, nodePositions, linkCount);
    BlockOf(nodeIds, nodeIds, q, ts, i);
  }

  /**
   * Node-to-node by count over distinct positions: the node itself is always its
   * nearest answer and is dropped, so each node gets exactly `linkCount - 1` links.
   */
  lemma N2nCountSelfQuery(nodeIds: seq<int>, nodeTree: KdTree, ts: int, linkCount: nat, i: nat)
    requires InRange(nodeTree) && |nodeIds| == |nodeTree.data| && 1 <= linkCount <= |nodeTree.data|
    requires DistinctIds(nodeIds) && DistinctPoints(nodeTree.data) && i < |nodeIds|
    requires NearestSound(nodeTree.data, nodeTree.data[i], linkCount, nodeTree.nearest(nodeTree.data[i], linkCount))
    ensures |Filter(Rows(GetN2nLinksWithCount(nodeIds, nodeTree.data, nodeTree, ts, linkCount).value), FromNode(nodeIds[i]))|
      == linkCount - 1
  {
    var q := Query(nodeTree, nodeTree.data, linkCount).value;
    NearestIn(nodeIds, nodeIds, nodeTree, nodeTree.data, linkCount);
    BlockOf(nodeIds, nodeIds, q, ts, i);
    SelfBlockDropsOne(nodeIds, nodeTree, ts, linkCount, i);
  }

  /** Node-to-infrastructure by count: each node gets exactly `linkCount` links. */
  lemma N2iCount(infra: Infra, nodeIds: seq<int>, nodePositions: seq<Point>, ts: int, linkCount: nat, i: nat)
    requires Valid(infra) && linkCount <= |infra.infraIds|
    requires DistinctIds(nodeIds) && i < |nodeIds| && i < |nodePositions|
    requires |infra.tree.nearest(nodePositions[i], linkCount)| == linkCount
    ensures |Filter(Rows(GetN2iLinksWithCount(infra, nodeIds, nodePositions, ts, linkCount).value), FromNode(nodeIds[i]))| == linkCount
  {
    var q := Query(infra.tree, nodePositions, linkCount).value;
    NearestIn(nodeIds, infra.infraIds, infra.tree, nodePositions, linkCount);
    BlockOf(nodeIds, infra.infraIds, q, ts, i);
  }

  /** Infrastructure-to-node by count: each unit gets `linkCount + 1` links, one more than asked. */
  lemma I2nCount(infra: Infra, nodeIds: seq<int>, nodeTree: KdTree, ts: int, linkCount: nat, i: nat)
    requires Valid(infra) && InRange(nodeTree) && |nodeIds| == |nodeTree.data| && linkCount + 1 <= |nodeTree.data|
    requires DistinctIds(infra.infraIds) && i < |infra.infraIds|
    requires |nodeTree.nearest(infra.tree.data[i], linkCount + 1)| == linkCount + 1
    ensures |Filter(Rows(GetI2nLinksWithCount(infra, nodeIds, nodeTree, ts, linkCount).value), FromNode(infra.infraIds[i]))|
      == linkCount + 1
  {
    var q := Query(nodeTree, infra.tree.data, linkCount + 1).value;
    NearestIn(infra.infraIds, nodeIds, nodeTree, infra.tree.data, linkCount + 1);
    BlockOf(infra.infraIds, nodeIds, q, ts, i);
  }

  /**
   * As written, the unit-to-unit query keeps the link of every unit to itself, at
   * distance 0, and so gives every unit `linkCount + 1` links.
   */
  lemma I2iKeepsSelfLinks(infra: Infra, linkCount: nat, i: nat)
    requires Valid(infra) && linkCount + 1 <= |infra.infraIds|
    requires DistinctIds(infra.infraIds) && DistinctPoints(infra.tree.data) && i < |infra.infraIds|
    requires NearestSound(infra.tree.data, infra.tree.data[i], linkCount + 1, infra.tree.nearest(infra.tree.data[i], linkCount + 1))
    ensures LinkRow(0, infra.infraIds[i], infra.infraIds[i], 0.0) in GetI2iLinksOfCount(infra, linkCount).value
    ensures |Filter(GetI2iLinksOfCount(infra, linkCount).value, FromNode(infra.infraIds[i]))| == linkCount + 1
  {
    var ids := infra.infraIds;
    var q := Query(infra.tree, infra.tree.data, linkCount + 1).value;
    NearestIn(ids, ids, infra.tree, infra.tree.data, linkCount + 1);
    BlockOf(ids, ids, q, 0, i);
    SelfBlockDropsOne(ids, infra.tree, 0, linkCount + 1, i);
    var block := SourceRows(0, ids[i], ids, q[i]);
    FilterMember(ConvertQueryToDf(ids, ids, q, 0), FromNode(ids[i]), LinkRow(0, ids[i], ids[i], 0.0));
  }

  /** With the self links removed, every unit has exactly `linkCount` links, none to itself. */
  lemma I2iFixedCount(infra: Infra, linkCount: nat, i: nat)
    requires Valid(infra) && linkCount + 1 <= |infra.infraIds|
    requires DistinctIds(infra.infraIds) && DistinctPoints(infra.tree.data) && i < |infra.infraIds|
    requires NearestSound(infra.tree.data, infra.tree.data[i], linkCount + 1, infra.tree.nearest(infra.tree.data[i], linkCount + 1))
    ensures |Filter(GetI2iLinksOfCountFixed(infra, linkCount).value, FromNode(infra.infraIds[i]))| == linkCount
  {
    var ids := infra.infraIds;
    var q := Query(infra.tree, infra.tree.data, linkCount + 1).value;
    NearestIn(ids, ids, infra.tree, infra.tree.data, linkCount + 1);
    var df := ConvertQueryToDf(ids, ids, q, 0);
    BlockOf(ids, ids, q, 0, i);
    SelfBlockDropsOne(ids, infra.tree, 0, linkCount + 1, i);
    FilterCommute(df, NotSelf, FromNode(ids[i]));
  }

  // ---------------------------------------------------------------------------
  // Radius queries link exactly the pairs within the radius.

  /** Source `a` and target `b` are linked by some row. */
  predicate Linked(rows: seq<LinkRow>, source: int, target: int)
  {
    exists r :: r in rows && r.nodeId == source && r.targetId == target
  }

  /**
   * In a converted radius query with distinct ids on both sides, source `a` is
   * linked to target `b` exactly when point `b` is within the radius of query `a`.
   */
  lemma DfRadiusPair(sources: seq<int>, targets: seq<int>, tree: KdTree, queries: seq<Point>, radius: real, ts: int, a: nat, b: nat)
    requires InRange(tree) && |targets| == |tree.data| && |sources| == |queries|
    requires DistinctIds(sources) && DistinctIds(targets) && a < |sources| && b < |targets|
    requires WithinSound(tree.data, queries[a], radius, tree.within(queries[a], radius))
    ensures QueryIn(sources, targets, QueryRadius(tree, queries, radius))
    ensures Linked(ConvertQueryToDf(sources, targets, QueryRadius(tree, queries, radius), ts), sources[a], targets[b])
      <==> radius >= 0.0 && SqDist(queries[a], tree.data[b]) <= Mul(radius, radius)
  {
    var q := QueryRadius(tree, queries, radius);
    WithinIn(sources, targets, tree, queries, radius);
    var n := ZipLength(sources, q);
    var df := ConvertQueryToDf(sources, targets, q, ts);
    assert q[a] == tree.within(queries[a], radius);
    if Found(q[a], b) {
      var j :| 0 <= j < |q[a]| && q[a][j].idx == b;
      var r := LinkRow(ts, sources[a], targets[q[a][j].idx], q[a][j].dist);
      DfMembers(sources, targets, q, ts, n, r);
      assert r in df;
    }
    if Linked(df, sources[a], targets[b]) {
      var r :| r in df && r.nodeId == sources[a] && r.targetId == targets[b];
      DfMembers(sources, targets, q, ts, n, r);
      var i, j :| 0 <= i < n && 0 <= j < |q[i]| && r == LinkRow(ts, sources[i], targets[q[i][j].idx], q[i][j].dist);
      SameIdSameIndex(sources, i, a);
      SameIdSameIndex(targets, q[a][j].idx, b);
      assert Found(q[a], b);
    }
  }

  /** Node-to-node by radius: two distinct nodes are linked exactly when they are within the radius. */
  lemma N2nRadiusLinks(nodeIds: seq<int>, nodeTree: KdTree, ts: int, radius: real, a: nat, b: nat)
    requires InRange(nodeTree) && |nodeIds| == |nodeTree.data| && DistinctIds(nodeIds) && a < |nodeIds| && b < |nodeIds|
    requires WithinSound(nodeTree.data, nodeTree.data[a], radius, nodeTree.within(nodeTree.data[a], radius))
    ensures Linked(Rows(GetN2nLinksWithRadius(nodeIds, nodeTree.data, nodeTree, ts, radius)), nodeIds[a], nodeIds[b])
      <==> a != b && radius >= 0.0 && SqDist(nodeTree.data[a], nodeTree.data[b]) <= Mul(radius, radius)
  {
    var q := QueryRadius(nodeTree, nodeTree.data, radius);
    DfRadiusPair(nodeIds, nodeIds, nodeTree, nodeTree.data, radius, ts, a, b);
    var df := ConvertQueryToDf(nodeIds, nodeIds, q, ts);
    ConvertFormsAgree(nodeIds, nodeIds, q, ts, true);
    assert a != b <==> nodeIds[a] != nodeIds[b] by {
      if a < b { assert nodeIds[a] != nodeIds[b]; } else if b < a { assert nodeIds[b] != nodeIds[a]; }
    }
    if Linked(Filter(df, NotSelf), nodeIds[a], nodeIds[b]) {
      var r :| r in Filter(df, NotSelf) && r.nodeId == nodeIds[a] && r.targetId == nodeIds[b];
      FilterMember(df, NotSelf, r);
    }
    if Linked(df, nodeIds[a], nodeIds[b]) && a != b {
      var r :| r in df && r.nodeId == nodeIds[a] && r.targetId == nodeIds[b];
      FilterMember(df, NotSelf, r);
    }
  }

  /** Infrastructure-to-node by radius: a unit is linked to a node exactly when the node is within the radius. */
  lemma I2nRadiusLinks(infra: Infra, nodeIds: seq<int>, nodeTree: KdTree, ts: int, radius: real, a: nat, b: nat)
    requires Valid(infra) && InRange(nodeTree) && |nodeIds| == |nodeTree.data|
    requires DistinctIds(infra.infraIds) && DistinctIds(nodeIds) && a < |infra.infraIds| && b < |nodeIds|
    requires WithinSound(nodeTree.data, infra.tree.data[a], radius, nodeTree.within(infra.tree.data[a], radius))
    ensures Linked(Rows(GetI2nLinksWithRadius(infra, nodeIds, nodeTree, ts, radius)), infra.infraIds[a], nodeIds[b])
      <==> radius >= 0.0 && SqDist(infra.tree.data[a], nodeTree.data[b]) <= Mul(radius, radius)
  {
    var q := QueryRadius(nodeTree, infra.tree.data, radius);
    DfRadiusPair(infra.infraIds, nodeIds, nodeTree, infra.tree.data, radius, ts, a, b);
    ConvertFormsAgree(infra.infraIds, nodeIds, q, ts, false);
  }

  /**
   * Unit-to-other-unit by radius: unit `a` is linked to other unit `b` exactly when
   * `b` is within the radius and the two ids differ.
   */
  lemma I2OtherIRadiusLinks(infra: Infra, otherIds: seq<int>, otherTree: KdTree, ts: int, radius: real, a: nat, b: nat)
    requires Valid(infra) && InRange(otherTree) && |otherIds| == |otherTree.data|
    requires DistinctIds(infra.infraIds) && DistinctIds(otherIds) && a < |infra.infraIds| && b < |otherIds|
    requires WithinSound(otherTree.data, infra.tree.data[a], radius, otherTree.within(infra.tree.data[a], radius))
    ensures Linked(GetI2OtherILinksWithRadius(infra, otherIds, otherTree, ts, radius), infra.infraIds[a], otherIds[b])
      <==> infra.infraIds[a] != otherIds[b] && radius >= 0.0 && SqDist(infra.tree.data[a], otherTree.data[b]) <= Mul(radius, radius)
  {
    var q := QueryRadius(otherTree, infra.tree.data, radius);
    DfRadiusPair(infra.infraIds, otherIds, otherTree, infra.tree.data, radius, ts, a, b);
    var df := ConvertQueryToDf(infra.infraIds, otherIds, q, ts);
    var s := infra.infraIds[a];
    var t := otherIds[b];
    if Linked(Filter(df, NotSelf), s, t) {
      var r :| r in Filter(df, NotSelf) && r.nodeId == s && r.targetId == t;
      FilterMember(df, NotSelf, r);
    }
    if Linked(df, s, t) && s != t {
      var r :| r in df && r.nodeId == s && r.targetId == t;
      FilterMember(df, NotSelf, r);
    }
  }
}

=== FILE: ingestion.dfy ===
/**
 * The shared shape of the SUMO trace converters: the trace is a sequence of timestep
 * blocks, each holding the vehicles observed at that time. For every observation, in
 * order, the converter records the vehicle's activation and builds one position row;
 * after each block it completes the time step once. Rows go through a buffer that is
 * written whenever it holds exactly `limit` rows, and once more at the end if rows
 * are left over. A row that cannot be built aborts the conversion with its error.
 * The file holds vehicle ids as text: every converter reads each id with `int()`,
 * which raises `ValueError` on text that is not an integer.
 */
module Ingestion {
  import opened Wrappers
  import opened Seqs
  import opened Batching
  import opened Activation
  import opened LaneParser
  import opened Strings

  /** One `<vehicle>` element of a timestep block, its id read as an integer; coordinates are already real numbers. */
  datatype Observation = Observation(id: int, x: real, y: real, speed: real, lane: string, vehType: string)

  /** One `<timestep>` element: its time in milliseconds and its vehicles in document order. */
  datatype Block = Block(time: int, obs: seq<Observation>)

  /** An observation together with the time of its block. */
  datatype Stamped = Stamped(time: int, obs: Observation)

  function Ids(obs: seq<Observation>): (ids: seq<int>)
    ensures |ids| == |obs| && forall k :: 0 <= k < |obs| ==> ids[k] == obs[k].id
  {
    seq(|obs|, k requires 0 <= k < |obs| => obs[k].id)
  }

  /** The tracker calls a trace makes: one step per block, with the block's vehicle ids. */
  function Steps(blocks: seq<Block>): (steps: seq<Step>)
    ensures |steps| == |blocks|
    ensures forall k :: 0 <= k < |blocks| ==> steps[k] == Step(blocks[k].time, Ids(blocks[k].obs))
  {
    seq(|blocks|, k requires 0 <= k < |blocks| => Step(blocks[k].time, Ids(blocks[k].obs)))
  }

  function Stamp(b: Block): (xs: seq<Stamped>)
    ensures |xs| == |b.obs| && forall k :: 0 <= k < |xs| ==> xs[k] == Stamped(b.time, b.obs[k])
  {
    seq(|b.obs|, k requires 0 <= k < |b.obs| => Stamped(b.time, b.obs[k]))
  }

  /** Every observation of a trace, in document order, with its block's time. */
  function Observations(blocks: seq<Block>): (xs: seq<Stamped>)
    decreases |blocks|
  {
    if |blocks| == 0 then [] else Observations(blocks[..|blocks| - 1]) + Stamp(blocks[|blocks| - 1])
  }

  /** The number of observations of a trace. */
  function ObservationCount(blocks: seq<Block>): nat
    decreases |blocks|
  {
    if |blocks| == 0 then 0 else ObservationCount(blocks[..|blocks| - 1]) + |blocks[|blocks| - 1].obs|
  }

  lemma {:induction false} ObservationsLength(blocks: seq<Block>)
    ensures |Observations(blocks)| == ObservationCount(blocks)
    decreases |blocks|
  {
    if |blocks| > 0 {
      ObservationsLength(blocks[..|blocks| - 1]);
    }
  }

  /** One `<vehicle>` element as the file holds it: the id is still text. */
  datatype Vehicle = Vehicle(id: string, x: real, y: real, speed: real, lane: string, vehType: string)

  /** One `<timestep>` element as the file holds it: its time in milliseconds and its vehicle elements. */
  datatype Timestep = Timestep(time: int, vehicles: seq<Vehicle>)

  /** A vehicle element together with the time of its timestep. */
  datatype Sighting = Sighting(time: int, vehicle: Vehicle)

  /** The id is integer text, as `int()` of the `id` attribute demands. */
  predicate IdReadable(v: Vehicle)
  {
    ParseInt(v.id).Some?
  }

  /** Every id of a timestep's vehicles reads. */
  predicate AllIdsReadable(vs: seq<Vehicle>)
  {
    forall k :: 0 <= k < |vs| ==> IdReadable(vs[k])
  }

  /** The observation of a vehicle element whose id reads. */
  function ObservationOf(v: Vehicle): Observation
    requires IdReadable(v)
  {
    Observation(ParseInt(v.id).value, v.x, v.y, v.speed, v.lane, v.vehType)
  }

  function StampVehicles(t: Timestep): (xs: seq<Sighting>)
    ensures |xs| == |t.vehicles| && forall k :: 0 <= k < |xs| ==> xs[k] == Sighting(t.time, t.vehicles[k])
  {
    seq(|t.vehicles|, k requires 0 <= k < |t.vehicles| => Sighting(t.time, t.vehicles[k]))
  }

  /** Every vehicle element of a file, in document order, with its timestep's time. */
  function Sightings(ts: seq<Timestep>): seq<Sighting>
    decreases |ts|
  {
    if |ts| == 0 then [] else Sightings(ts[..|ts| - 1]) + StampVehicles(ts[|ts| - 1])
  }

  /** Every vehicle id of the file reads as an integer. */
  predicate IdsReadable(ts: seq<Timestep>)
  {
    forall m :: 0 <= m < |Sightings(ts)| ==> IdReadable(Sightings(ts)[m].vehicle)
  }

  /** The observation of a sighting whose id reads. */
  function Observe(s: Sighting): Stamped
    requires IdReadable(s.vehicle)
  {
    Stamped(s.time, ObservationOf(s.vehicle))
  }

  /**
   * `int()` of the ids of one timestep's vehicles, in order: the first id that is not
   * integer text raises `ValueError`.
   */
  function ReadVehicles(vs: seq<Vehicle>): (r: Result<seq<Observation>, RoadError>)
    ensures r.Success? <==> AllIdsReadable(vs)
    ensures r.Failure? ==> r.error == NotANumber
    ensures r.Success? ==> |r.value| == |vs| && forall k :: 0 <= k < |vs| ==> r.value[k] == ObservationOf(vs[k])
    decreases |vs|
  {
    if |vs| == 0 then Success([])
    else
      var n := |vs| - 1;
      match ReadVehicles(vs[..n])
      case Failure(e) =>
        PrefixUnreadable(vs);
        Failure(e)
      case Success(obs) =>
        if IdReadable(vs[n]) then
          ReadVehiclesSnoc(vs, obs);
          Success(obs + [ObservationOf(vs[n])])
        else Failure(NotANumber)
  }

  lemma PrefixUnreadable(vs: seq<Vehicle>)
    requires |vs| > 0 && !AllIdsReadable(vs[..|vs| - 1])
    ensures !AllIdsReadable(vs)
  {
    var k :| 0 <= k < |vs| - 1 && !IdReadable(vs[..|vs| - 1][k]);
    assert vs[..|vs| - 1][k] == vs[k];
  }

  lemma ReadVehiclesSnoc(vs: seq<Vehicle>, obs: seq<Observation>)
    requires |vs| > 0 && AllIdsReadable(vs[..|vs| - 1]) && IdReadable(vs[|vs| - 1])
    requires |obs| == |vs| - 1 && forall k :: 0 <= k < |obs| ==> obs[k] == ObservationOf(vs[..|vs| - 1][k])
    ensures AllIdsReadable(vs)
    ensures var r := obs + [ObservationOf(vs[|vs| - 1])];
      |r| == |vs| && forall k :: 0 <= k < |vs| ==> r[k] == ObservationOf(vs[k])
  {
    ReadableSnoc(vs);
    var n := |vs| - 1;
    var r := obs + [ObservationOf(vs[n])];
    forall k | 0 <= k < |vs| ensures r[k] == ObservationOf(vs[k]) {
      if k < n {
        assert vs[..n][k] == vs[k];
      }
    }
  }

  lemma ReadableSnoc(vs: seq<Vehicle>)
    requires |vs| > 0 && AllIdsReadable(vs[..|vs| - 1]) && IdReadable(vs[|vs| - 1])
    ensures AllIdsReadable(vs)
  {
    forall k | 0 <= k < |vs| - 1 ensures IdReadable(vs[k]) {
      assert vs[..|vs| - 1][k] == vs[k];
    }
  }

  /**
   * The blocks of a file, every id read as an integer; `ValueError` when some id is
   * not integer text.
   */
  function ReadTimesteps(ts: seq<Timestep>): (r: Result<seq<Block>, RoadError>)
    ensures r.Success? <==> IdsReadable(ts)
    ensures r.Failure? ==> r.error == NotANumber
    ensures r.Success? ==> ReadAs(ts, r.value)
    decreases |ts|
  {
    if |ts| == 0 then Success([])
    else
      var n := |ts| - 1;
      IdsReadableSnoc(ts);
      match ReadTimesteps(ts[..n])
      case Failure(e) => Failure(e)
      case Success(bs) =>
        match ReadVehicles(ts[n].vehicles)
        case Failure(e) => Failure(e)
        case Success(obs) =>
          ReadAsSnoc(ts, bs, obs);
          Success(bs + [Block(ts[n].time, obs)])
  }

  /** `blocks` are the timesteps `ts` with their ids read: one block each, at the same time. */
  predicate ReadAs(ts: seq<Timestep>, blocks: seq<Block>)
  {
    |blocks| == |ts| && forall i :: 0 <= i < |ts| ==>
      blocks[i].time == ts[i].time && ReadVehicles(ts[i].vehicles) == Success(blocks[i].obs)
  }

  lemma ReadAsSnoc(ts: seq<Timestep>, bs: seq<Block>, obs: seq<Observation>)
    requires |ts| > 0 && ReadAs(ts[..|ts| - 1], bs)
    requires ReadVehicles(ts[|ts| - 1].vehicles) == Success(obs)
    ensures ReadAs(ts, bs + [Block(ts[|ts| - 1].time, obs)])
  {
    var n := |ts| - 1;
    var blocks := bs + [Block(ts[n].time, obs)];
    forall i | 0 <= i < |ts| ensures blocks[i].time == ts[i].time && ReadVehicles(ts[i].vehicles) == Success(blocks[i].obs) {
      if i < n {
        assert ts[..n][i] == ts[i];
      }
    }
  }

  lemma IdsReadableSnoc(ts: seq<Timestep>)
    requires |ts| > 0
    ensures IdsReadable(ts) <==>
      IdsReadable(ts[..|ts| - 1]) && AllIdsReadable(ts[|ts| - 1].vehicles)
  {
    var n := |ts| - 1;
    var pre := Sightings(ts[..n]);
    var last := StampVehicles(ts[n]);
    assert Sightings(ts) == pre + last;
    if IdsReadable(ts) {
      forall m | 0 <= m < |pre| ensures IdReadable(pre[m].vehicle) {
        assert Sightings(ts)[m] == pre[m];
      }
      forall k | 0 <= k < |ts[n].vehicles| ensures IdReadable(ts[n].vehicles[k]) {
        assert Sightings(ts)[|pre| + k] == last[k];
      }
      assert AllIdsReadable(ts[n].vehicles);
    }
  }

  /** Reading one more timestep appends its block. */
  lemma ReadTimestepsSnoc(ts: seq<Timestep>, bs: seq<Block>, obs: seq<Observation>)
    requires |ts| > 0
    requires ReadTimesteps(ts[..|ts| - 1]) == Success(bs)
    requires ReadVehicles(ts[|ts| - 1].vehicles) == Success(obs)
    ensures ReadTimesteps(ts) == Success(bs + [Block(ts[|ts| - 1].time, obs)])
  {
  }

  /** `xs` holds the observations of the sightings `ss`, one each, in order. */
  predicate Observed(xs: seq<Stamped>, ss: seq<Sighting>)
  {
    |xs| == |ss| && forall m :: 0 <= m < |ss| ==> IdReadable(ss[m].vehicle) && xs[m] == Observe(ss[m])
  }

  lemma ObservedConcat(xs1: seq<Stamped>, ss1: seq<Sighting>, xs2: seq<Stamped>, ss2: seq<Sighting>)
    requires Observed(xs1, ss1) && Observed(xs2, ss2)
    ensures Observed(xs1 + xs2, ss1 + ss2)
  {
    var xs, ss := xs1 + xs2, ss1 + ss2;
    forall m | 0 <= m < |ss| ensures IdReadable(ss[m].vehicle) && xs[m] == Observe(ss[m]) {
      if m >= |ss1| {
        assert xs[m] == xs2[m - |xs1|] && ss[m] == ss2[m - |ss1|];
      }
    }
  }

  /** The block read from a timestep holds the observations of its vehicle elements. */
  lemma StampObserved(t: Timestep, obs: seq<Observation>)
    requires ReadVehicles(t.vehicles) == Success(obs)
    ensures Observed(Stamp(Block(t.time, obs)), StampVehicles(t))
  {
  }

  /** Read blocks hold the observations of the file's vehicle elements, one each, in order. */
  lemma {:induction false} ReadObservations(ts: seq<Timestep>)
    requires IdsReadable(ts)
    ensures Observed(Observations(ReadTimesteps(ts).value), Sightings(ts))
    decreases |ts|
  {
    if |ts| > 0 {
      var n := |ts| - 1;
      IdsReadableSnoc(ts);
      ReadObservations(ts[..n]);
      var bs := ReadTimesteps(ts[..n]).value;
      var obs := ReadVehicles(ts[n].vehicles).value;
      var b := Block(ts[n].time, obs);
      ReadTimestepsSnoc(ts, bs, obs);
      assert (bs + [b])[..n] == bs;
      StampObserved(ts[n], obs);
      ObservedConcat(Observations(bs), Sightings(ts[..n]), Stamp(b), StampVehicles(ts[n]));
    }
  }

  /** A file whose ids read holds one observation per vehicle element. */
  lemma ReadCount(ts: seq<Timestep>)
    requires IdsReadable(ts)
    ensures ObservationCount(ReadTimesteps(ts).value) == |Sightings(ts)|
  {
    ReadObservations(ts);
    ObservationsLength(ReadTimesteps(ts).value);
  }

  /** The vehicle element of an observation, its id written as decimal text. */
  function VehicleOf(o: Observation): Vehicle
  {
    Vehicle(FormatInt(o.id), o.x, o.y, o.speed, o.lane, o.vehType)
  }

  /** The vehicle elements of a block's observations. */
  function WriteVehicles(obs: seq<Observation>): (vs: seq<Vehicle>)
    ensures |vs| == |obs| && forall k :: 0 <= k < |vs| ==> vs[k] == VehicleOf(obs[k])
  {
    seq(|obs|, k requires 0 <= k < |obs| => VehicleOf(obs[k]))
  }

  /** The file holding a sequence of blocks. */
  function WriteTimesteps(blocks: seq<Block>): (ts: seq<Timestep>)
    ensures |ts| == |blocks|
    ensures forall i :: 0 <= i < |ts| ==> ts[i] == Timestep(blocks[i].time, WriteVehicles(blocks[i].obs))
  {
    seq(|blocks|, i requires 0 <= i < |blocks| => Timestep(blocks[i].time, WriteVehicles(blocks[i].obs)))
  }

  /** Ids written as decimal integers read back as the observations they were written from. */
  lemma ReadWrittenVehicles(obs: seq<Observation>)
    ensures ReadVehicles(WriteVehicles(obs)) == Success(obs)
  {
    var vs := WriteVehicles(obs);
    forall k | 0 <= k < |vs| ensures IdReadable(vs[k]) && ObservationOf(vs[k]) == obs[k] {
      VehicleRoundTrip(obs[k]);
    }
    assert AllIdsReadable(vs);
    var r := ReadVehicles(vs);
    assert r.value == obs;
  }

  lemma VehicleRoundTrip(o: Observation)
    ensures IdReadable(VehicleOf(o)) && ObservationOf(VehicleOf(o)) == o
  {
    ParseFormatInt(o.id);
  }

  lemma WrittenSplit(blocks: seq<Block>)
    requires |blocks| > 0
    ensures var ts, n := WriteTimesteps(blocks), |blocks| - 1;
      && ts[..|ts| - 1] == WriteTimesteps(blocks[..n])
      && ts[|ts| - 1] == Timestep(blocks[n].time, WriteVehicles(blocks[n].obs))
  {
    WriteTimestepsPrefix(blocks, |blocks| - 1);
  }

  lemma LastBlock(blocks: seq<Block>)
    requires |blocks| > 0
    ensures var n := |blocks| - 1; blocks[..n] + [Block(blocks[n].time, blocks[n].obs)] == blocks
  {
  }

  lemma WriteTimestepsPrefix(blocks: seq<Block>, n: nat)
    requires n <= |blocks|
    ensures WriteTimesteps(blocks)[..n] == WriteTimesteps(blocks[..n])
  {
    var ts, pre := WriteTimesteps(blocks), WriteTimesteps(blocks[..n]);
    forall i | 0 <= i < n ensures ts[i] == pre[i] {
      assert blocks[..n][i] == blocks[i];
    }
  }

  /** A file whose ids are written as decimal integers reads back as the blocks it was written from. */
  lemma {:induction false} ReadWrittenTimesteps(blocks: seq<Block>)
    ensures ReadTimesteps(WriteTimesteps(blocks)) == Success(blocks)
    decreases |blocks|
  {
    if |blocks| > 0 {
      var n := |blocks| - 1;
      var ts := WriteTimesteps(blocks);
      WrittenSplit(blocks);
      ReadWrittenTimesteps(blocks[..n]);
      ReadWrittenVehicles(blocks[n].obs);
      ReadTimestepsSnoc(ts, blocks[..n], blocks[n].obs);
      LastBlock(blocks);
    }
  }

  /** Index of the first element of `xs` whose row cannot be built. */
  predicate FirstFailure<X, R>(xs: seq<X>, mk: X -> Result<R, RoadError>, k: nat)
  {
    k < |xs| && mk(xs[k]).Failure? && forall l :: 0 <= l < k ==> mk(xs[l]).Success?
  }

  /**
   * The rows of a stream of observations, built one at a time; the first row that
   * cannot be built turns the whole stream into its error.
   */
  function MapRows<X, R>(xs: seq<X>, mk: X -> Result<R, RoadError>): (r: Result<seq<R>, RoadError>)
    ensures r.Success? <==> forall k :: 0 <= k < |xs| ==> mk(xs[k]).Success?
    ensures r.Success? ==> |r.value| == |xs| && forall k :: 0 <= k < |xs| ==> r.value[k] == mk(xs[k]).value
    ensures r.Failure? ==> exists k: nat :: FirstFailure(xs, mk, k) && r.error == mk(xs[k]).error
    decreases |xs|
  {
    if |xs| == 0 then Success([])
    else
      var n := |xs| - 1;
      match MapRows(xs[..n], mk)
      case Failure(e) =>
        var k: nat :| FirstFailure(xs[..n], mk, k) && e == mk(xs[..n][k]).error;
        assert FirstFailure(xs, mk, k);
        Failure(e)
      case Success(rows) =>
        match mk(xs[n])
        case Failure(e) =>
          assert FirstFailure(xs, mk, n);
          Failure(e)
        case Success(row) => Success(rows + [row])
  }

  lemma {:induction false} MapRowsFailureSticks<X, R>(xs: seq<X>, ys: seq<X>, mk: X -> Result<R, RoadError>)
    requires MapRows(xs, mk).Failure?
    ensures MapRows(xs + ys, mk) == MapRows(xs, mk)
    decreases |ys|
  {
    if |ys| > 0 {
      var ys' := ys[..|ys| - 1];
      assert (xs + ys)[..|xs + ys| - 1] == xs + ys';
      MapRowsFailureSticks(xs, ys', mk);
    } else {
      assert xs + ys == xs;
    }
  }

  lemma MapRowsSnoc<X, R>(xs: seq<X>, x: X, mk: X -> Result<R, RoadError>)
    requires MapRows(xs, mk).Success? && mk(x).Success?
    ensures MapRows(xs + [x], mk) == Success(MapRows(xs, mk).value + [mk(x).value])
  {
    assert (xs + [x])[..|xs|] == xs;
  }

  /**
   * Two streams whose rows are built alike, element by element, give the same
   * result: the same rows, or the same first error.
   */
  lemma {:induction false} MapRowsPointwise<X, Y, R>(xs: seq<X>, mk: X -> Result<R, RoadError>, ys: seq<Y>, mk': Y -> Result<R, RoadError>)
    requires |xs| == |ys| && forall k :: 0 <= k < |xs| ==> mk(xs[k]) == mk'(ys[k])
    ensures MapRows(xs, mk) == MapRows(ys, mk')
    decreases |xs|
  {
    if |xs| > 0 {
      var n := |xs| - 1;
      MapRowsPointwise(xs[..n], mk, ys[..n], mk');
    }
  }

  /** What a conversion leaves behind. */
  datatype Output<R> = Output(writes: seq<seq<R>>, tracker: Tracker, uniqueVehicleCount: nat)

  /**
   * The conversion loop. On success the batches written hold every row in document
   * order, each batch but the last is full, the tracker has seen every block, and the
   * vehicle count is the number of distinct ids in the trace. It fails exactly when
   * some row cannot be built, with the first such row's error.
   */
  method ConvertFcd<R>(blocks: seq<Block>, limit: nat, mk: Stamped -> Result<R, RoadError>)
    returns (r: Result<Output<R>, RoadError>)
    requires 0 < limit
    ensures r.Failure? <==> MapRows(Observations(blocks), mk).Failure?
    ensures r.Failure? ==> r.error == MapRows(Observations(blocks), mk).error
    ensures r.Success? ==> r.value.writes == WriteStream(MapRows(Observations(blocks), mk).value, limit)
    ensures r.Success? ==> Flatten(r.value.writes) == MapRows(Observations(blocks), mk).value
    ensures r.Success? ==> forall k :: 0 <= k < |r.value.writes| - 1 ==> |r.value.writes[k]| == limit
    ensures r.Success? ==> r.value.tracker == Run(Steps(blocks))
    ensures r.Success? ==> r.value.uniqueVehicleCount == |SeenIds(Steps(blocks))|
  {
    var tracker := EmptyTracker();
    var buffer: Buffer<R> := Empty();
    ghost var rows: seq<R> := [];
    var i := 0;
    assert Steps(blocks[..0]) == [];
    while i < |blocks|
      invariant 0 <= i <= |blocks|
      invariant tracker == Run(Steps(blocks[..i]))
      invariant MapRows(Observations(blocks[..i]), mk) == Success(rows)
      invariant Batching.Valid(buffer, limit) && buffer == PushAll(Empty(), rows, limit)
    {
      var block := blocks[i];
      ghost var before := tracker;
      ghost var seen := Observations(blocks[..i]);
      var j := 0;
      BlockStart(seen, block);
      while j < |block.obs|
        invariant 0 <= j <= |block.obs|
        invariant Activation.Valid(before)
        invariant tracker == UpdateAll(before, block.time, Ids(block.obs[..j]))
        invariant MapRows(seen + Stamp(block)[..j], mk) == Success(rows)
        invariant Batching.Valid(buffer, limit) && buffer == PushAll(Empty(), rows, limit)
      {
        var x := Stamped(block.time, block.obs[j]);
        ObservationStep(before, seen, block, j);
        tracker := UpdateActivation(tracker, block.time, block.obs[j].id);
        match mk(x)
        case Failure(e) =>
          PrefixFailure(blocks, i, j, mk);
          return Failure(e);
        case Success(row) =>
          MapRowsSnoc(seen + Stamp(block)[..j], x, mk);
          buffer := Push(buffer, row, limit);
          PushAllSnoc(rows, row, limit);
          rows := rows + [row];
          j := j + 1;
      }
      tracker := TimeStepComplete(tracker, block.time);
      BlockEnd(blocks, i);
      i := i + 1;
    }
    assert blocks[..i] == blocks;
    RunTracksSeenIds(Steps(blocks));
    OrderMatchesKeys(tracker);
    WriteStreamBatches(rows, limit);
    r := Success(Output(Finish(buffer), tracker, |tracker.data|));
  }

  lemma BlockStart(seen: seq<Stamped>, block: Block)
    ensures Ids(block.obs[..0]) == [] && seen + Stamp(block)[..0] == seen
  {
  }

  lemma ObservationStep(before: Tracker, seen: seq<Stamped>, block: Block, j: nat)
    requires Activation.Valid(before) && j < |block.obs|
    ensures UpdateAll(before, block.time, Ids(block.obs[..j + 1]))
      == UpdateActivation(UpdateAll(before, block.time, Ids(block.obs[..j])), block.time, block.obs[j].id)
    ensures seen + Stamp(block)[..j + 1] == (seen + Stamp(block)[..j]) + [Stamped(block.time, block.obs[j])]
  {
    IdsSnoc(block.obs, j);
    UpdateAllSnoc(before, block.time, Ids(block.obs[..j]), block.obs[j].id);
    StampSnoc(seen, block, j);
  }

  lemma StampSnoc(seen: seq<Stamped>, block: Block, j: nat)
    requires j < |block.obs|
    ensures seen + Stamp(block)[..j + 1] == (seen + Stamp(block)[..j]) + [Stamped(block.time, block.obs[j])]
  {
    assert Stamp(block)[..j + 1] == Stamp(block)[..j] + [Stamped(block.time, block.obs[j])];
  }

  lemma IdsSnoc(obs: seq<Observation>, j: nat)
    requires j < |obs|
    ensures Ids(obs[..j + 1]) == Ids(obs[..j]) + [obs[j].id]
  {
  }

  lemma UpdateAllSnoc(tr: Tracker, t: int, ids: seq<int>, id: int)
    requires Activation.Valid(tr)
    ensures UpdateAll(tr, t, ids + [id]) == UpdateActivation(UpdateAll(tr, t, ids), t, id)
  {
    assert (ids + [id])[..|ids|] == ids;
  }

  lemma PushAllSnoc<R>(rows: seq<R>, row: R, limit: nat)
    requires 0 < limit
    ensures PushAll(Empty(), rows + [row], limit) == Push(PushAll(Empty(), rows, limit), row, limit)
  {
    assert (rows + [row])[..|rows|] == rows;
  }

  /** Completing block `i` extends the run and the observations by that block. */
  lemma BlockEnd(blocks: seq<Block>, i: nat)
    requires i < |blocks|
    ensures Run(Steps(blocks[..i + 1]))
      == TimeStepComplete(UpdateAll(Run(Steps(blocks[..i])), blocks[i].time, Ids(blocks[i].obs[..|blocks[i].obs|])), blocks[i].time)
    ensures Observations(blocks[..i + 1]) == Observations(blocks[..i]) + Stamp(blocks[i])[..|blocks[i].obs|]
  {
    var b := blocks[i];
    assert blocks[..i + 1][..i] == blocks[..i];
    assert b.obs[..|b.obs|] == b.obs;
    assert Stamp(b)[..|b.obs|] == Stamp(b);
    assert Steps(blocks[..i + 1]) == Steps(blocks[..i]) + [Step(b.time, Ids(b.obs))];
    RunSnoc(Steps(blocks[..i]), Step(b.time, Ids(b.obs)));
  }

  /** A row that cannot be built in block `i` makes the rows of the whole trace fail with its error. */
  lemma PrefixFailure<R>(blocks: seq<Block>, i: nat, j: nat, mk: Stamped -> Result<R, RoadError>)
    requires i < |blocks| && j < |blocks[i].obs|
    requires MapRows(Observations(blocks[..i]) + Stamp(blocks[i])[..j], mk).Success?
    requires mk(Stamped(blocks[i].time, blocks[i].obs[j])).Failure?
    ensures MapRows(Observations(blocks), mk) == Failure(mk(Stamped(blocks[i].time, blocks[i].obs[j])).error)
  {
    var pre := Observations(blocks[..i]) + Stamp(blocks[i])[..j];
    var x := Stamped(blocks[i].time, blocks[i].obs[j]);
    MapRowsFails(pre, x, mk);
    var tail := ObservationsAround(blocks, i, j);
    MapRowsFailureSticks(pre + [x], tail, mk);
  }

  lemma MapRowsFails<X, R>(xs: seq<X>, x: X, mk: X -> Result<R, RoadError>)
    requires MapRows(xs, mk).Success? && mk(x).Failure?
    ensures MapRows(xs + [x], mk) == Failure(mk(x).error)
  {
    assert (xs + [x])[..|xs|] == xs;
  }

  /** The observations of a trace, cut around observation `j` of block `i`. */
  lemma ObservationsAround(blocks: seq<Block>, i: nat, j: nat) returns (tail: seq<Stamped>)
    requires i < |blocks| && j < |blocks[i].obs|
    ensures Observations(blocks)
      == (Observations(blocks[..i]) + Stamp(blocks[i])[..j] + [Stamped(blocks[i].time, blocks[i].obs[j])]) + tail
  {
    var whole := Observations(blocks);
    var before := Observations(blocks[..i]);
    var st := Stamp(blocks[i]);
    assert whole == (before + st) + whole[|before + st|..] by {
      ObservationsSplit(blocks, i);
    }
    tail := st[j + 1..] + whole[|before + st|..];
    CutAround(before, st, j, whole[|before + st|..]);
  }

  lemma CutAround<T>(a: seq<T>, s: seq<T>, j: nat, c: seq<T>)
    requires j < |s|
    ensures (a + s) + c == (a + s[..j] + [s[j]]) + (s[j + 1..] + c)
  {
    assert s == s[..j] + [s[j]] + s[j + 1..];
  }

  lemma ObservationsSplit(blocks: seq<Block>, i: nat)
    requires i < |blocks|
    ensures Observations(blocks[..i + 1]) == Observations(blocks[..i]) + Stamp(blocks[i])
    ensures Observations(blocks[..i + 1]) <= Observations(blocks)
  {
    assert blocks[..i + 1][..i] == blocks[..i];
    ObservationsPrefix(blocks, i + 1);
  }

  /** The observations of a prefix of the trace are a prefix of its observations. */
  lemma {:induction false} ObservationsPrefix(blocks: seq<Block>, n: nat)
    requires n <= |blocks|
    ensures Observations(blocks[..n]) <= Observations(blocks)
    decreases |blocks| - n
  {
    if n < |blocks| {
      ObservationsPrefix(blocks, n + 1);
      assert blocks[..n + 1][..n] == blocks[..n];
    } else {
      assert blocks[..n] == blocks;
    }
  }
}

=== FILE: lane_parser.dfy ===
/**
 * The SUMO lane-string parser of the position converters: a lane id is split into a
 * road id, a sub-road id and a lane index. Three shapes are recognised, tried in
 * this order:
 *   - internal lanes, `<anything>:<road>_<sub>_<lane>[_...]`;
 *   - numbered edges, `<road>#<sub>_<lane>`;
 *   - plain edges without `_`, which get sub-road 0 and lane 0.
 * Each field is then converted to an integer. Every failure of the source (an index
 * past the end of a split, a tuple unpacking of the wrong width, an assignment to a
 * field of an immutable named tuple, a non-numeric field) is an error value here.
 */
module LaneParser {
  import opened Wrappers
  import opened Strings

  /** The exception the source raises. */
  datatype RoadError =
    | MissingField     // a split had too few pieces for the index taken
    | WrongPartCount   // a two-name unpacking of a split with another number of pieces
    | ImmutableField   // an assignment to a field of the immutable `road_info` tuple
    | NotANumber       // `int()` of a field that is not decimal text

  /** A field before conversion: text cut from the lane string, or the literal 0 of the plain case. */
  datatype Field = Text(text: string) | Number(n: int)

  datatype RawRoad = RawRoad(road: Field, subRoad: Field, lane: Field)

  datatype Road = Road(road: int, subRoad: int, lane: int)

  /** Internal-lane parsing: the text after the first `:`, split on `_`, fields 0, 1 and 2. */
  function ReadLaneDataWithColon(s: string): (r: Result<RawRoad, RoadError>)
    ensures r.Success? <==> ':' in s && |Split(Split(s, ':')[1], '_')| >= 3
    ensures r.Failure? ==> r.error == MissingField
    ensures r.Success? ==> r.value.road.Text? && r.value.subRoad.Text? && r.value.lane.Text?
    ensures r.Success? ==> '_' !in r.value.road.text && '_' !in r.value.subRoad.text && '_' !in r.value.lane.text
    ensures r.Success? ==> var fields := Split(Split(s, ':')[1], '_');
      r.value == RawRoad(Text(fields[0]), Text(fields[1]), Text(fields[2]))
  {
    var parts := Split(s, ':');
    if |parts| < 2 then Failure(MissingField)
    else
      var fields := Split(parts[1], '_');
      if |fields| < 3 then Failure(MissingField)
      else Success(RawRoad(Text(fields[0]), Text(fields[1]), Text(fields[2])))
  }

  /** Numbered-edge parsing: exactly one `_`, and a `#` in the part before it. */
  function ReadLaneDataWithHash(s: string): (r: Result<RawRoad, RoadError>)
    ensures r.Success? <==> |Split(s, '_')| == 2 && '#' in Split(s, '_')[0]
    ensures r.Failure? && |Split(s, '_')| != 2 ==> r.error == WrongPartCount
    ensures r.Failure? && |Split(s, '_')| == 2 ==> r.error == MissingField
    ensures r.Success? ==> r.value.lane == Text(Split(s, '_')[1])
    ensures r.Success? ==> r.value.road.Text? && '#' !in r.value.road.text && '_' !in r.value.road.text
    ensures r.Success? ==> var pieces := Split(Split(s, '_')[0], '#');
      r.value.road == Text(pieces[0]) && r.value.subRoad == Text(pieces[1])
  {
    var halves := Split(s, '_');
    if |halves| != 2 then Failure(WrongPartCount)
    else
      var pieces := Split(halves[0], '#');
      if |pieces| < 2 then Failure(MissingField)
      else Success(RawRoad(Text(pieces[0]), Text(pieces[1]), Text(halves[1])))
  }

  /** The raw fields of a lane string: `:` takes precedence over `#`, and `#` over the plain case. */
  function ReadRoadData(s: string): (r: Result<RawRoad, RoadError>)
    ensures ':' !in s && '#' !in s && '_' !in s ==> r == Success(RawRoad(Text(s), Number(0), Number(0)))
    ensures ':' !in s && '#' !in s && '_' in s ==> r.Failure?
    ensures ':' in s ==> (r.Success? <==> |Split(Split(s, ':')[1], '_')| >= 3)
    ensures ':' !in s && '#' in s ==> (r.Success? <==> |Split(s, '_')| == 2 && '#' in Split(s, '_')[0])
  {
    if ':' in s then ReadLaneDataWithColon(s)
    else if '#' in s then ReadLaneDataWithHash(s)
    else
      if '_' in s then
        // The unpacking is evaluated first; when it has the right width the
        // assignment to the tuple's field fails instead.
        if |Split(s, '_')| != 2 then Failure(WrongPartCount) else Failure(ImmutableField)
      else Success(RawRoad(Text(s), Number(0), Number(0)))
  }

  function FieldToInt(f: Field): (r: Option<int>)
    ensures f.Number? ==> r == Some(f.n)
    ensures f.Text? ==> r == ParseInt(f.text)
  {
    match f
    case Number(n) => Some(n)
    case Text(t) => ParseInt(t)
  }

  /** `int()` of the three fields, in order road, sub-road, lane. */
  function ConvertRoadDataToInt(raw: RawRoad): (r: Result<Road, RoadError>)
    ensures r.Success? <==> FieldToInt(raw.road).Some? && FieldToInt(raw.subRoad).Some? && FieldToInt(raw.lane).Some?
    ensures r.Success? ==> r.value == Road(FieldToInt(raw.road).value, FieldToInt(raw.subRoad).value, FieldToInt(raw.lane).value)
    ensures r.Failure? ==> r.error == NotANumber
  {
    match (FieldToInt(raw.road), FieldToInt(raw.subRoad), FieldToInt(raw.lane))
    case (Some(a), Some(b), Some(c)) => Success(Road(a, b, c))
    case _ => Failure(NotANumber)
  }

  /** The road columns the pavenet converters store for one lane string. */
  function ParseRoad(s: string): (r: Result<Road, RoadError>)
    ensures ReadRoadData(s).Failure? ==> r == Failure(ReadRoadData(s).error)
    ensures ReadRoadData(s).Success? ==> r == ConvertRoadDataToInt(ReadRoadData(s).value)
  {
    match ReadRoadData(s)
    case Failure(e) => Failure(e)
    case Success(raw) => ConvertRoadDataToInt(raw)
  }

  // ---------------------------------------------------------------------------
  // The lane strings SUMO writes, and what the parser recovers from them.

  /** A piece that may stand between separators. */
  predicate Plain(s: string)
  {
    ':' !in s && '#' !in s && '_' !in s
  }

  /** `<prefix>:<road>_<sub>_<lane>`, the id of a lane inside a junction. */
  function InternalLane(prefix: string, road: string, sub: string, lane: string): string
  {
    Join([prefix, Join([road, sub, lane], '_')], ':')
  }

  /** `<road>#<sub>_<lane>`, a lane of a numbered edge. */
  function NumberedLane(road: string, sub: string, lane: string): string
  {
    Join([Join([road, sub], '#'), lane], '_')
  }

  /**
   * An internal-lane id gives back its first three `_` fields, whatever the prefix
   * before the `:` and however many further fields follow (`:J_0_1_2` reads as J, 0,
   * 1), even when the road field holds a `#`: the `:` rule wins.
   */
  lemma InternalLaneFields(prefix: string, fields: seq<string>)
    requires |fields| >= 3
    requires ':' !in prefix
    requires ':' !in fields[0] && '_' !in fields[0]
    requires forall k :: 1 <= k < |fields| ==> Plain(fields[k])
    ensures ReadRoadData(Join([prefix, Join(fields, '_')], ':'))
      == Success(RawRoad(Text(fields[0]), Text(fields[1]), Text(fields[2])))
  {
    var body := Join(fields, '_');
    JoinExcludes(fields, '_', ':');
    SplitJoin(fields, '_');
    ColonLaneReads(prefix, body);
  }

  /** The `:` shape read from a prefix and a `:`-free body: the body's first three `_` fields. */
  lemma ColonLaneReads(prefix: string, body: string)
    requires ':' !in prefix && ':' !in body
    requires |Split(body, '_')| >= 3
    ensures var fields := Split(body, '_');
      ReadRoadData(Join([prefix, body], ':')) == Success(RawRoad(Text(fields[0]), Text(fields[1]), Text(fields[2])))
  {
    var s := Join([prefix, body], ':');
    assert ':' in s by {
      assert [prefix, body][1..] == [body];
      assert Join([body], ':') == body;
      assert s[|prefix|] == ':';
    }
    SplitJoin([prefix, body], ':');
  }

  /**
   * A numbered-edge lane id gives back its first two `#` pieces as road and sub-road
   * and the text after the `_` as lane; further `#` pieces are dropped (`R#S#T_L`
   * reads as R, S, L).
   */
  lemma NumberedLaneFields(pieces: seq<string>, lane: string)
    requires |pieces| >= 2 && Plain(lane)
    requires forall k :: 0 <= k < |pieces| ==> Plain(pieces[k])
    ensures ReadRoadData(Join([Join(pieces, '#'), lane], '_'))
      == Success(RawRoad(Text(pieces[0]), Text(pieces[1]), Text(lane)))
  {
    var head := Join(pieces, '#');
    JoinExcludes(pieces, '#', '_');
    JoinExcludes(pieces, '#', ':');
    SplitJoin(pieces, '#');
    var s := Join([head, lane], '_');
    SplitJoin([head, lane], '_');
    JoinExcludes([head, lane], '_', ':');
    assert '#' in s by {
      assert s == head + ['_'] + lane;
      assert head == pieces[0] + ['#'] + Join(pieces[1..], '#');
    }
  }

  /** The integer columns of a numbered-edge lane id `R#S_L` are R, S and L. */
  lemma NumberedLaneRoundTrip(road: int, sub: int, lane: int)
    ensures ParseRoad(NumberedLane(FormatInt(road), FormatInt(sub), FormatInt(lane))) == Success(Road(road, sub, lane))
  {
    FormatIntPlain(road);
    FormatIntPlain(sub);
    FormatIntPlain(lane);
    NumberedLaneFields([FormatInt(road), FormatInt(sub)], FormatInt(lane));
    ParseFormatInt(road);
    ParseFormatInt(sub);
    ParseFormatInt(lane);
  }

  /** White space before the road number of `R#S_L` is ignored, as `int()` ignores it (` 7#3_0` reads as 7, 3, 0). */
  lemma PaddedNumberedLane(before: string, road: int, sub: int, lane: int)
    requires forall k :: 0 <= k < |before| ==> IsSpace(before[k])
    ensures ParseRoad(NumberedLane(before + FormatInt(road), FormatInt(sub), FormatInt(lane))) == Success(Road(road, sub, lane))
  {
    var head := before + FormatInt(road);
    FormatIntPlain(road);
    assert Plain(head) by {
      forall k | 0 <= k < |head| ensures head[k] != ':' && head[k] != '#' && head[k] != '_' {
        if k >= |before| {
          assert head[k] == FormatInt(road)[k - |before|];
        }
      }
    }
    FormatIntPlain(sub);
    FormatIntPlain(lane);
    NumberedLaneFields([head, FormatInt(sub)], FormatInt(lane));
    ParseIntPadded(road, before, "");
    assert head + "" == head;
    ParseFormatInt(sub);
    ParseFormatInt(lane);
  }

  /** The integer columns of an internal-lane id `:R_S_L` are R, S and L. */
  lemma InternalLaneRoundTrip(road: int, sub: int, lane: int)
    ensures ParseRoad(InternalLane("", FormatInt(road), FormatInt(sub), FormatInt(lane))) == Success(Road(road, sub, lane))
  {
    FormatIntPlain(road);
    FormatIntPlain(sub);
    FormatIntPlain(lane);
    InternalLaneFields("", [FormatInt(road), FormatInt(sub), FormatInt(lane)]);
    ParseFormatInt(road);
    ParseFormatInt(sub);
    ParseFormatInt(lane);
  }

  /** A plain numeric edge id is its own road id, on sub-road 0 and lane 0. */
  lemma PlainEdgeRoundTrip(edge: int)
    ensures ParseRoad(FormatInt(edge)) == Success(Road(edge, 0, 0))
  {
    FormatIntPlain(edge);
    ParseFormatInt(edge);
  }

  /** An edge with lane suffix but no `#` (`R_L`) is always rejected. */
  lemma PlainEdgeWithLaneFails(road: string, lane: string)
    requires Plain(road) && Plain(lane)
    ensures ReadRoadData(Join([road, lane], '_')) == Failure(ImmutableField)
  {
    var s := Join([road, lane], '_');
    JoinExcludes([road, lane], '_', ':');
    JoinExcludes([road, lane], '_', '#');
    SplitJoin([road, lane], '_');
    assert '_' in s;
  }

  /** A numbered edge with two lane suffixes (`R#S_L_X`) is rejected by the unpacking. */
  lemma NumberedLaneExtraFieldFails(road: string, sub: string, lane: string, extra: string)
    requires Plain(road) && Plain(sub) && Plain(lane) && Plain(extra)
    ensures ReadRoadData(Join([Join([road, sub], '#'), lane, extra], '_')) == Failure(WrongPartCount)
  {
    var head := Join([road, sub], '#');
    JoinExcludes([road, sub], '#', '_');
    JoinExcludes([road, sub], '#', ':');
    SplitJoin([head, lane, extra], '_');
    JoinExcludes([head, lane, extra], '_', ':');
    var s := Join([head, lane, extra], '_');
    assert '#' in head;
    assert s == head + ['_'] + Join([lane, extra], '_');
    assert '#' in s;
  }

  /** An internal lane with only two `_` fields after the `:` is rejected. */
  lemma InternalLaneTooShortFails(prefix: string, road: string, sub: string)
    requires ':' !in prefix && Plain(road) && Plain(sub)
    ensures ReadRoadData(Join([prefix, Join([road, sub], '_')], ':')) == Failure(MissingField)
  {
    var body := Join([road, sub], '_');
    JoinExcludes([road, sub], '_', ':');
    SplitJoin([prefix, body], ':');
    SplitJoin([road, sub], '_');
    assert ':' in Join([prefix, body], ':');
  }
}

=== FILE: link_arrays.dfy ===
/**
 * Link rows assembled from neighbour-query answers. For every source (zipped with
 * its answer list, so the shorter of the two decides how many sources are used) and
 * every answer, in answer order, a row (time step, source id, id of the answered
 * point, distance) is produced. The array form can drop the rows that link a node to
 * itself; the data-frame form keeps every row.
 */
module LinkArrays {
  import opened Seqs
  import opened Spatial

  datatype LinkRow = LinkRow(timeStep: int, nodeId: int, targetId: int, distance: real)

  /** The four link columns and the row count kept beside them. */
  datatype LinkDataArrays = LinkDataArrays(
    arraySize: int, timeStep: seq<int>, nodeId: seq<int>, targetId: seq<int>, distance: seq<real>)

  predicate SameLength(a: LinkDataArrays)
  {
    |a.timeStep| == |a.nodeId| == |a.targetId| == |a.distance|
  }

  /** The columns have one length and the row count is that length. */
  predicate Aligned(a: LinkDataArrays)
  {
    SameLength(a) && a.arraySize == |a.timeStep|
  }

  /** The rows the columns hold, read across. */
  function Rows(a: LinkDataArrays): (rows: seq<LinkRow>)
    requires SameLength(a)
    ensures |rows| == |a.timeStep|
  {
    seq(|a.timeStep|, k requires 0 <= k < |a.timeStep| =>
      LinkRow(a.timeStep[k], a.nodeId[k], a.targetId[k], a.distance[k]))
  }

  /** Fresh (or reset) arrays: empty columns and a row count of 0. */
  function Reset(): (a: LinkDataArrays)
    ensures Aligned(a) && a.arraySize == 0 && Rows(a) == []
  {
    LinkDataArrays(0, [], [], [], [])
  }

  /** Appending the four columns of `b` to those of `a`, leaving the row count alone. */
  function AppendColumns(a: LinkDataArrays, b: LinkDataArrays): (r: LinkDataArrays)
    requires SameLength(a) && SameLength(b)
    ensures SameLength(r) && r.arraySize == a.arraySize
    ensures Rows(r) == Rows(a) + Rows(b)
  {
    LinkDataArrays(a.arraySize, a.timeStep + b.timeStep, a.nodeId + b.nodeId, a.targetId + b.targetId, a.distance + b.distance)
  }

  /** Appending the columns and adding the row counts. */
  function Append(a: LinkDataArrays, b: LinkDataArrays): (r: LinkDataArrays)
    requires SameLength(a) && SameLength(b)
    ensures SameLength(r) && r.arraySize == a.arraySize + b.arraySize
    ensures Aligned(a) && Aligned(b) ==> Aligned(r)
    ensures Rows(r) == Rows(a) + Rows(b)
  {
    AppendColumns(a, b).(arraySize := a.arraySize + b.arraySize)
  }

  /** The number of `true` entries. */
  function TrueCount(keep: seq<bool>): nat
    decreases |keep|
  {
    if |keep| == 0 then 0 else TrueCount(keep[..|keep| - 1]) + (if keep[|keep| - 1] then 1 else 0)
  }

  /** Boolean-mask selection `xs[keep]`. */
  function Mask<T>(xs: seq<T>, keep: seq<bool>): (r: seq<T>)
    requires |xs| == |keep|
    ensures |r| == TrueCount(keep)
    decreases |xs|
  {
    if |xs| == 0 then []
    else Mask(xs[..|xs| - 1], keep[..|keep| - 1]) + (if keep[|keep| - 1] then [xs[|xs| - 1]] else [])
  }

  /** A row that does not link a node to itself. */
  predicate NotSelf(r: LinkRow)
  {
    r.nodeId != r.targetId
  }

  /** The rows of node `v`. */
  function FromNode(v: int): LinkRow -> bool
  {
    (r: LinkRow) => r.nodeId == v
  }

  /** Every answer names one of the `n` targets. */
  predicate IndicesIn(nbs: seq<Neighbor>, n: nat)
  {
    forall j :: 0 <= j < |nbs| ==> nbs[j].idx < n
  }

  /** The number of sources that take part: `zip` stops at the shorter list. */
  function ZipLength(sources: seq<int>, query: seq<seq<Neighbor>>): nat
  {
    if |sources| < |query| then |sources| else |query|
  }

  /** Every answer list that takes part names targets only. */
  predicate QueryIn(sources: seq<int>, targets: seq<int>, query: seq<seq<Neighbor>>)
  {
    forall i :: 0 <= i < ZipLength(sources, query) ==> IndicesIn(query[i], |targets|)
  }

  // ---------------------------------------------------------------------------
  // The data-frame form: one block of rows per source, in source order.

  /** The rows of one source: one per answer, in answer order. */
  function SourceRows(ts: int, source: int, targets: seq<int>, nbs: seq<Neighbor>): (rows: seq<LinkRow>)
    requires IndicesIn(nbs, |targets|)
    ensures |rows| == |nbs|
    ensures forall j :: 0 <= j < |nbs| ==> rows[j] == LinkRow(ts, source, targets[nbs[j].idx], nbs[j].dist)
  {
    seq(|nbs|, j requires 0 <= j < |nbs| => LinkRow(ts, source, targets[nbs[j].idx], nbs[j].dist))
  }

  /** The rows of the first `n` sources. */
  function DfUpTo(sources: seq<int>, targets: seq<int>, query: seq<seq<Neighbor>>, ts: int, n: nat): seq<LinkRow>
    requires QueryIn(sources, targets, query) && n <= ZipLength(sources, query)
    decreases n
  {
    if n == 0 then []
    else DfUpTo(sources, targets, query, ts, n - 1) + SourceRows(ts, sources[n - 1], targets, query[n - 1])
  }

  lemma {:induction false} DfTimes(sources: seq<int>, targets: seq<int>, query: seq<seq<Neighbor>>, ts: int, n: nat)
    requires QueryIn(sources, targets, query) && n <= ZipLength(sources, query)
    ensures forall k :: 0 <= k < |DfUpTo(sources, targets, query, ts, n)| ==> DfUpTo(sources, targets, query, ts, n)[k].timeStep == ts
    decreases n
  {
    if n > 0 {
      DfTimes(sources, targets, query, ts, n - 1);
    }
  }

  /**
   * `convert_query_to_df`: the rows of every source, none removed, all stamped with
   * the query's time step (`DfMembers` and `DfLayout` say which rows and in what order).
   */
  function ConvertQueryToDf(sources: seq<int>, targets: seq<int>, query: seq<seq<Neighbor>>, ts: int): (df: seq<LinkRow>)
    requires QueryIn(sources, targets, query)
    ensures forall k :: 0 <= k < |df| ==> df[k].timeStep == ts
  {
    DfTimes(sources, targets, query, ts, ZipLength(sources, query));
    DfUpTo(sources, targets, query, ts, ZipLength(sources, query))
  }

  // ---------------------------------------------------------------------------
  // The array form: per source, four columns, masked when the two id sets are one.

  function TargetColumn(targets: seq<int>, nbs: seq<Neighbor>): (col: seq<int>)
    requires IndicesIn(nbs, |targets|)
    ensures |col| == |nbs|
  {
    seq(|nbs|, j requires 0 <= j < |nbs| => targets[nbs[j].idx])
  }

  function DistanceColumn(nbs: seq<Neighbor>): (col: seq<real>)
    ensures |col| == |nbs|
  {
    seq(|nbs|, j requires 0 <= j < |nbs| => nbs[j].dist)
  }

  function Repeat<T>(x: T, n: nat): (col: seq<T>)
    ensures |col| == n
  {
    seq(n, _ => x)
  }

  /** The mask `target_id_arr != node_arr`. */
  function NotSelfMask(nodes: seq<int>, targets: seq<int>): (keep: seq<bool>)
    requires |nodes| == |targets|
    ensures |keep| == |targets|
  {
    seq(|targets|, j requires 0 <= j < |targets| => targets[j] != nodes[j])
  }

  /** The columns one source contributes. */
  function SourceArrays(ts: int, source: int, targets: seq<int>, nbs: seq<Neighbor>, sameType: bool): (a: LinkDataArrays)
    requires IndicesIn(nbs, |targets|)
    ensures Aligned(a)
  {
    var targetArr := TargetColumn(targets, nbs);
    var distArr := DistanceColumn(nbs);
    var timeArr := Repeat(ts, |targetArr|);
    var nodeArr := Repeat(source, |targetArr|);
    if sameType then
      var keep := NotSelfMask(nodeArr, targetArr);
      var kept := Mask(targetArr, keep);
      LinkDataArrays(|kept|, Mask(timeArr, keep), Mask(nodeArr, keep), kept, Mask(distArr, keep))
    else
      LinkDataArrays(|targetArr|, timeArr, nodeArr, targetArr, distArr)
  }

  /** The columns of the first `n` sources. */
  function ArraysUpTo(sources: seq<int>, targets: seq<int>, query: seq<seq<Neighbor>>, ts: int, sameType: bool, n: nat): (a: LinkDataArrays)
    requires QueryIn(sources, targets, query) && n <= ZipLength(sources, query)
    ensures Aligned(a)
    decreases n
  {
    if n == 0 then Reset()
    else Append(ArraysUpTo(sources, targets, query, ts, sameType, n - 1),
                SourceArrays(ts, sources[n - 1], targets, query[n - 1], sameType))
  }

  /** `convert_query_to_arrays`. */
  function ConvertQueryToArrays(sources: seq<int>, targets: seq<int>, query: seq<seq<Neighbor>>, ts: int, sameType: bool): (a: LinkDataArrays)
    requires QueryIn(sources, targets, query)
    ensures Aligned(a)
  {
    ArraysUpTo(sources, targets, query, ts, sameType, ZipLength(sources, query))
  }

  // ---------------------------------------------------------------------------
  // The two forms agree: the arrays hold the data-frame rows, less the self links
  // when the mask is applied.

  /** Masking every column by `target != node` keeps exactly the rows that are not self links. */
  lemma {:induction false} MaskedRows(a: LinkDataArrays, keep: seq<bool>)
    requires SameLength(a) && |keep| == |a.timeStep|
    requires forall k :: 0 <= k < |keep| ==> keep[k] == (a.targetId[k] != a.nodeId[k])
    ensures var m := LinkDataArrays(0, Mask(a.timeStep, keep), Mask(a.nodeId, keep), Mask(a.targetId, keep), Mask(a.distance, keep));
      SameLength(m) && Rows(m) == Filter(Rows(a), NotSelf)
    decreases |keep|
  {
    if |keep| > 0 {
      var n := |keep| - 1;
      var pre := PrefixColumns(a, n);
      MaskedRows(pre, keep[..n]);
      PrefixColumnsRows(a, n);
      FilterSnoc(Rows(pre), Rows(a)[n], NotSelf);
      MaskedSnoc(a, keep);
    }
  }

  /** The first `n` rows of every column. */
  function PrefixColumns(a: LinkDataArrays, n: nat): (pre: LinkDataArrays)
    requires SameLength(a) && n <= |a.timeStep|
    ensures SameLength(pre) && |pre.timeStep| == n
  {
    LinkDataArrays(0, a.timeStep[..n], a.nodeId[..n], a.targetId[..n], a.distance[..n])
  }

  /** The rows of all columns are the rows of all but the last, then the last. */
  lemma PrefixColumnsRows(a: LinkDataArrays, n: nat)
    requires SameLength(a) && n + 1 == |a.timeStep|
    ensures Rows(a) == Rows(PrefixColumns(a, n)) + [Rows(a)[n]]
  {
  }

  /** Masking the columns with one more flag appends the last row exactly when the flag is set. */
  lemma MaskedSnoc(a: LinkDataArrays, keep: seq<bool>)
    requires SameLength(a) && |keep| == |a.timeStep| > 0
    ensures var n := |keep| - 1;
      var pre := PrefixColumns(a, n);
      var m := LinkDataArrays(0, Mask(a.timeStep, keep), Mask(a.nodeId, keep), Mask(a.targetId, keep), Mask(a.distance, keep));
      var mpre := LinkDataArrays(0, Mask(pre.timeStep, keep[..n]), Mask(pre.nodeId, keep[..n]), Mask(pre.targetId, keep[..n]), Mask(pre.distance, keep[..n]));
      SameLength(m) && SameLength(mpre) && Rows(m) == Rows(mpre) + if keep[n] then [Rows(a)[n]] else []
  {
    var n := |keep| - 1;
    var pre := PrefixColumns(a, n);
    var m := LinkDataArrays(0, Mask(a.timeStep, keep), Mask(a.nodeId, keep), Mask(a.targetId, keep), Mask(a.distance, keep));
    var mpre := LinkDataArrays(0, Mask(pre.timeStep, keep[..n]), Mask(pre.nodeId, keep[..n]), Mask(pre.targetId, keep[..n]), Mask(pre.distance, keep[..n]));
    if keep[n] {
      assert m == AppendColumns(mpre, LinkDataArrays(0, [a.timeStep[n]], [a.nodeId[n]], [a.targetId[n]], [a.distance[n]]));
    } else {
      assert m == mpre;
    }
  }

  /** The rows the mask keeps: all of them, or those that are not self links when `sameType` is set. */
  function Kept(rows: seq<LinkRow>, sameType: bool): seq<LinkRow>
  {
    if sameType then Filter(rows, NotSelf) else rows
  }

  /** One source's columns hold its data-frame rows, less the self links when masked. */
  lemma SourceArraysRows(ts: int, source: int, targets: seq<int>, nbs: seq<Neighbor>, sameType: bool)
    requires IndicesIn(nbs, |targets|)
    ensures Rows(SourceArrays(ts, source, targets, nbs, sameType))
      == Kept(SourceRows(ts, source, targets, nbs), sameType)
  {
    var targetArr := TargetColumn(targets, nbs);
    var whole := LinkDataArrays(0, Repeat(ts, |nbs|), Repeat(source, |nbs|), targetArr, DistanceColumn(nbs));
    assert Rows(whole) == SourceRows(ts, source, targets, nbs);
    if sameType {
      MaskedRows(whole, NotSelfMask(Repeat(source, |nbs|), targetArr));
    }
  }

  /**
   * The array form holds exactly the data-frame rows in the same order, less the
   * rows whose target is their source when `sameType` is set.
   */
  lemma {:induction false} ArraysMatchDf(sources: seq<int>, targets: seq<int>, query: seq<seq<Neighbor>>, ts: int, sameType: bool, n: nat)
    requires QueryIn(sources, targets, query) && n <= ZipLength(sources, query)
    ensures Rows(ArraysUpTo(sources, targets, query, ts, sameType, n))
      == Kept(DfUpTo(sources, targets, query, ts, n), sameType)
    decreases n
  {
    if n > 0 {
      var prev := ArraysUpTo(sources, targets, query, ts, sameType, n - 1);
      var src := SourceArrays(ts, sources[n - 1], targets, query[n - 1], sameType);
      UpToStep(sources, targets, query, ts, sameType, n);
      ArraysMatchDf(sources, targets, query, ts, sameType, n - 1);
      SourceArraysRows(ts, sources[n - 1], targets, query[n - 1], sameType);
      KeptConcat(Rows(prev), Rows(src), DfUpTo(sources, targets, query, ts, n - 1),
                 SourceRows(ts, sources[n - 1], targets, query[n - 1]), sameType);
    }
  }

  /** Both forms grow by one source's block at a time. */
  lemma UpToStep(sources: seq<int>, targets: seq<int>, query: seq<seq<Neighbor>>, ts: int, sameType: bool, n: nat)
    requires QueryIn(sources, targets, query) && 0 < n <= ZipLength(sources, query)
    ensures Rows(ArraysUpTo(sources, targets, query, ts, sameType, n))
      == Rows(ArraysUpTo(sources, targets, query, ts, sameType, n - 1)) + Rows(SourceArrays(ts, sources[n - 1], targets, query[n - 1], sameType))
    ensures DfUpTo(sources, targets, query, ts, n) == DfUpTo(sources, targets, query, ts, n - 1) + SourceRows(ts, sources[n - 1], targets, query[n - 1])
  {
  }

  /** Keeping rows block by block keeps them from the whole. */
  lemma KeptConcat(kept: seq<LinkRow>, kept': seq<LinkRow>, rows: seq<LinkRow>, rows': seq<LinkRow>, sameType: bool)
    requires kept == Kept(rows, sameType) && kept' == Kept(rows', sameType)
    ensures kept + kept' == Kept(rows + rows', sameType)
  {
    if sameType {
      FilterConcat(rows, rows', NotSelf);
    }
  }

  /** The whole conversion, in the two forms. */
  lemma ConvertFormsAgree(sources: seq<int>, targets: seq<int>, query: seq<seq<Neighbor>>, ts: int, sameType: bool)
    requires QueryIn(sources, targets, query)
    ensures var df := ConvertQueryToDf(sources, targets, query, ts);
      Rows(ConvertQueryToArrays(sources, targets, query, ts, sameType)) == if sameType then Filter(df, NotSelf) else df
  {
    ArraysMatchDf(sources, targets, query, ts, sameType, ZipLength(sources, query));
  }

  /**
   * With the mask, a row is kept exactly when the data frame has it and it does not
   * link a node to itself; without it, the rows are the data frame's.
   */
  lemma SameTypeDropsSelfLinks(sources: seq<int>, targets: seq<int>, query: seq<seq<Neighbor>>, ts: int, r: LinkRow)
    requires QueryIn(sources, targets, query)
    ensures r in Rows(ConvertQueryToArrays(sources, targets, query, ts, true))
      <==> r in ConvertQueryToDf(sources, targets, query, ts) && r.nodeId != r.targetId
    ensures Rows(ConvertQueryToArrays(sources, targets, query, ts, false)) == ConvertQueryToDf(sources, targets, query, ts)
  {
    ConvertFormsAgree(sources, targets, query, ts, true);
    ConvertFormsAgree(sources, targets, query, ts, false);
    FilterMember(ConvertQueryToDf(sources, targets, query, ts), NotSelf, r);
  }

  // ---------------------------------------------------------------------------
  // Where each row sits: source by source, answers in answer order.

  lemma {:induction false} DfPrefix(sources: seq<int>, targets: seq<int>, query: seq<seq<Neighbor>>, ts: int, i: nat, n: nat)
    requires QueryIn(sources, targets, query) && i <= n <= ZipLength(sources, query)
    ensures var pre := DfUpTo(sources, targets, query, ts, i);
      |pre| <= |DfUpTo(sources, targets, query, ts, n)| && DfUpTo(sources, targets, query, ts, n)[..|pre|] == pre
    decreases n
  {
    if i < n {
      DfPrefix(sources, targets, query, ts, i, n - 1);
      var all := DfUpTo(sources, targets, query, ts, n);
      var pre := DfUpTo(sources, targets, query, ts, n - 1);
      assert all[..|pre|] == pre;
    }
  }

  /**
   * Answer `j` of source `i` is the row at offset `j` past the rows of the sources
   * before `i`, and that offset grows by the answer count of each source.
   */
  lemma DfLayout(sources: seq<int>, targets: seq<int>, query: seq<seq<Neighbor>>, ts: int, i: nat, j: nat)
    requires QueryIn(sources, targets, query) && i < ZipLength(sources, query) && j < |query[i]|
    ensures var off := |DfUpTo(sources, targets, query, ts, i)|;
      var df := ConvertQueryToDf(sources, targets, query, ts);
      && |DfUpTo(sources, targets, query, ts, i + 1)| == off + |query[i]|
      && off + j < |df|
      && df[off + j] == LinkRow(ts, sources[i], targets[query[i][j].idx], query[i][j].dist)
  {
    var upto := DfUpTo(sources, targets, query, ts, i + 1);
    DfPrefix(sources, targets, query, ts, i + 1, ZipLength(sources, query));
    var off := |DfUpTo(sources, targets, query, ts, i)|;
    assert upto[off + j] == SourceRows(ts, sources[i], targets, query[i])[j];
  }

  /** A row of the data frame is the row of some answer of some source, and every such row is one. */
  lemma {:induction false} DfMembers(sources: seq<int>, targets: seq<int>, query: seq<seq<Neighbor>>, ts: int, n: nat, r: LinkRow)
    requires QueryIn(sources, targets, query) && n <= ZipLength(sources, query)
    ensures r in DfUpTo(sources, targets, query, ts, n) <==>
      exists i, j :: 0 <= i < n && 0 <= j < |query[i]| && r == LinkRow(ts, sources[i], targets[query[i][j].idx], query[i][j].dist)
    decreases n
  {
    if n > 0 {
      DfMembers(sources, targets, query, ts, n - 1, r);
      var block := SourceRows(ts, sources[n - 1], targets, query[n - 1]);
      if r in block {
        var j :| 0 <= j < |block| && block[j] == r;
        assert 0 <= n - 1 < n && 0 <= j < |query[n - 1]| && r == LinkRow(ts, sources[n - 1], targets[query[n - 1][j].idx], query[n - 1][j].dist);
      }
      if exists i, j :: 0 <= i < n && 0 <= j < |query[i]| && r == LinkRow(ts, sources[i], targets[query[i][j].idx], query[i][j].dist) {
        var i, j :| 0 <= i < n && 0 <= j < |query[i]| && r == LinkRow(ts, sources[i], targets[query[i][j].idx], query[i][j].dist);
        if i == n - 1 {
          assert block[j] == r;
        }
      }
    }
  }

  /** With distinct source ids, the rows of source `i` are its own block. */
  lemma {:induction false} RowsOfSource(sources: seq<int>, targets: seq<int>, query: seq<seq<Neighbor>>, ts: int, n: nat, i: nat)
    requires QueryIn(sources, targets, query) && n <= ZipLength(sources, query) && DistinctIds(sources)
    requires i < ZipLength(sources, query)
    ensures Filter(DfUpTo(sources, targets, query, ts, n), FromNode(sources[i]))
      == if i < n then SourceRows(ts, sources[i], targets, query[i]) else []
    decreases n
  {
    if n > 0 {
      RowsOfSource(sources, targets, query, ts, n - 1, i);
      var m := n - 1;
      var block := SourceRows(ts, sources[m], targets, query[m]);
      FilterConcat(DfUpTo(sources, targets, query, ts, m), block, FromNode(sources[i]));
      if m == i {
        FilterAllPass(block, FromNode(sources[i]));
      } else {
        assert sources[m] != sources[i] by {
          if m < i { assert sources[m] != sources[i]; } else { assert sources[i] != sources[m]; }
        }
        FilterNonePass(block, FromNode(sources[i]));
      }
    }
  }
}

=== FILE: ordered_dict.dfy ===
/**
 * A Python dict with integer keys, as the position reader uses it: the entries in
 * insertion order. Setting a key that is present replaces its value in place;
 * setting a new key appends it. `dict(pairs)` and `d.update(pairs)` set the pairs
 * one by one, front to back, so that the last pair of a key wins.
 */
module OrderedDict {
  import opened Wrappers

  datatype Entry<V> = Entry(key: int, value: V)

  predicate DistinctKeys<V>(d: seq<Entry<V>>)
  {
    forall i, j :: 0 <= i < j < |d| ==> d[i].key != d[j].key
  }

  /** The keys, in insertion order (`d.keys()`). */
  function Keys<V>(d: seq<Entry<V>>): (ks: seq<int>)
    ensures |ks| == |d| && forall i :: 0 <= i < |d| ==> ks[i] == d[i].key
  {
    seq(|d|, i requires 0 <= i < |d| => d[i].key)
  }

  /** The values, in the order of their keys. */
  function Values<V>(d: seq<Entry<V>>): (vs: seq<V>)
    ensures |vs| == |d| && forall i :: 0 <= i < |d| ==> vs[i] == d[i].value
  {
    seq(|d|, i requires 0 <= i < |d| => d[i].value)
  }

  /** The position of the first occurrence of `k` in `ks`, or -1. */
  function IndexOf(ks: seq<int>, k: int): (i: int)
    ensures -1 <= i < |ks|
    ensures i >= 0 ==> ks[i] == k && forall j :: 0 <= j < i ==> ks[j] != k
    ensures i == -1 <==> forall j :: 0 <= j < |ks| ==> ks[j] != k
    decreases |ks|
  {
    if |ks| == 0 then -1
    else if ks[0] == k then 0
    else
      var i := IndexOf(ks[1..], k);
      assert forall j :: 1 <= j < |ks| ==> ks[1..][j - 1] == ks[j];
      if i == -1 then -1 else i + 1
  }

  /** `d.get(k)`: the value of key `k`, if present. */
  function Lookup<V>(d: seq<Entry<V>>, k: int): (r: Option<V>)
    ensures r.Some? <==> exists i :: 0 <= i < |d| && d[i].key == k
    ensures DistinctKeys(d) ==> forall i :: 0 <= i < |d| && d[i].key == k ==> r == Some(d[i].value)
  {
    var i := IndexOf(Keys(d), k);
    if i == -1 then None else Some(d[i].value)
  }

  /** `d[k] = v`. */
  function Put<V>(d: seq<Entry<V>>, k: int, v: V): (r: seq<Entry<V>>)
    ensures DistinctKeys(d) ==> DistinctKeys(r)
    ensures IndexOf(Keys(d), k) >= 0 ==> Keys(r) == Keys(d)
    ensures IndexOf(Keys(d), k) == -1 ==> Keys(r) == Keys(d) + [k]
  {
    var i := IndexOf(Keys(d), k);
    if i >= 0 then d[i := Entry(k, v)] else d + [Entry(k, v)]
  }

  /** After `d[k] = v`, key `k` holds `v` and every other key its old value. */
  lemma PutLookup<V>(d: seq<Entry<V>>, k: int, v: V, k': int)
    ensures Lookup(Put(d, k, v), k') == if k' == k then Some(v) else Lookup(d, k')
  {
    var r := Put(d, k, v);
    var i := IndexOf(Keys(d), k);
    if i >= 0 {
      assert Keys(r) == Keys(d);
    } else {
      assert Keys(r) == Keys(d) + [k];
      IndexOfAppend(Keys(d), k, k');
    }
  }

  /** Appending a key does not move an earlier first occurrence. */
  lemma {:induction false} IndexOfAppend(ks: seq<int>, k: int, k': int)
    ensures IndexOf(ks + [k], k') == if IndexOf(ks, k') >= 0 then IndexOf(ks, k') else if k == k' then |ks| else -1
    decreases |ks|
  {
    if |ks| > 0 && ks[0] != k' {
      assert (ks + [k])[1..] == ks[1..] + [k];
      IndexOfAppend(ks[1..], k, k');
    }
  }

  /** Set the pairs one by one, front to back (`d.update(pairs)`). */
  function Update<V>(d: seq<Entry<V>>, pairs: seq<Entry<V>>): (r: seq<Entry<V>>)
    ensures DistinctKeys(d) ==> DistinctKeys(r)
    ensures |r| >= |d| && forall i :: 0 <= i < |d| ==> r[i].key == d[i].key
    decreases |pairs|
  {
    if |pairs| == 0 then d
    else
      var last := pairs[|pairs| - 1];
      var prev := Update(d, pairs[..|pairs| - 1]);
      Put(prev, last.key, last.value)
  }

  /** `dict(pairs)`. */
  function FromPairs<V>(pairs: seq<Entry<V>>): (d: seq<Entry<V>>)
    ensures DistinctKeys(d)
  {
    Update([], pairs)
  }

  /** The value of the last pair with key `k`, if any: a reference for what updating leaves. */
  function LastValue<V>(pairs: seq<Entry<V>>, k: int): Option<V>
    decreases |pairs|
  {
    if |pairs| == 0 then None
    else if pairs[|pairs| - 1].key == k then Some(pairs[|pairs| - 1].value)
    else LastValue(pairs[..|pairs| - 1], k)
  }

  /** After an update, a key holds the value of its last pair, or its old value if no pair names it. */
  lemma {:induction false} UpdateLookup<V>(d: seq<Entry<V>>, pairs: seq<Entry<V>>, k: int)
    ensures Lookup(Update(d, pairs), k) == if LastValue(pairs, k).Some? then LastValue(pairs, k) else Lookup(d, k)
    decreases |pairs|
  {
    if |pairs| > 0 {
      var last := pairs[|pairs| - 1];
      UpdateLookup(d, pairs[..|pairs| - 1], k);
      PutLookup(Update(d, pairs[..|pairs| - 1]), last.key, last.value, k);
    }
  }

  /** A dict built from pairs holds the last value given to each key. */
  lemma FromPairsLookup<V>(pairs: seq<Entry<V>>, k: int)
    ensures Lookup(FromPairs(pairs), k) == LastValue(pairs, k)
  {
    UpdateLookup([], pairs, k);
  }

  /** For a dict, the last pair of a key is its only one. */
  lemma {:induction false} LastValueOfDict<V>(d: seq<Entry<V>>, k: int)
    requires DistinctKeys(d)
    ensures LastValue(d, k) == Lookup(d, k)
    decreases |d|
  {
    if |d| > 0 {
      var pre := d[..|d| - 1];
      LastValueOfDict(pre, k);
      assert forall i :: 0 <= i < |pre| ==> pre[i] == d[i];
    }
  }

  /**
   * Updating one dict with another: a key present in the second takes its value
   * from there, any other key keeps its value from the first.
   */
  lemma Merge<V>(a: seq<Entry<V>>, b: seq<Entry<V>>, k: int)
    requires DistinctKeys(b)
    ensures Lookup(Update(a, b), k) == if Lookup(b, k).Some? then Lookup(b, k) else Lookup(a, k)
  {
    UpdateLookup(a, b, k);
    LastValueOfDict(b, k);
  }

  /** Setting a key to the value it already holds changes nothing. */
  lemma PutExisting<V>(d: seq<Entry<V>>, i: nat)
    requires DistinctKeys(d) && i < |d|
    ensures Put(d, d[i].key, d[i].value) == d
  {
    assert IndexOf(Keys(d), d[i].key) == i;
  }

  /** Updating a dict with itself changes nothing, whatever prefix of it is used. */
  lemma {:induction false} UpdateWithOwnPrefix<V>(d: seq<Entry<V>>, n: nat)
    requires DistinctKeys(d) && n <= |d|
    ensures Update(d, d[..n]) == d
    decreases n
  {
    if n > 0 {
      assert d[..n][..n - 1] == d[..n - 1];
      UpdateWithOwnPrefix(d, n - 1);
      PutExisting(d, n - 1);
    }
  }

  lemma UpdateSelf<V>(d: seq<Entry<V>>)
    requires DistinctKeys(d)
    ensures Update(d, d) == d
  {
    UpdateWithOwnPrefix(d, |d|);
    assert d[..|d|] == d;
  }

  /** The last value of a key is the value of its last pair; there is none iff no pair has the key. */
  lemma {:induction false} LastValueAt<V>(pairs: seq<Entry<V>>, k: int)
    ensures LastValue(pairs, k).None? <==> forall j :: 0 <= j < |pairs| ==> pairs[j].key != k
    ensures forall i :: 0 <= i < |pairs| && pairs[i].key == k && (forall j :: i < j < |pairs| ==> pairs[j].key != k) ==>
              LastValue(pairs, k) == Some(pairs[i].value)
    decreases |pairs|
  {
    if |pairs| > 0 {
      var pre := pairs[..|pairs| - 1];
      LastValueAt(pre, k);
      assert forall j :: 0 <= j < |pre| ==> pre[j] == pairs[j];
    }
  }

  /** Every value a key takes comes from one of the pairs given for it. */
  lemma {:induction false} LastValueFrom<V>(pairs: seq<Entry<V>>, k: int)
    ensures LastValue(pairs, k).Some? ==> exists i :: 0 <= i < |pairs| && pairs[i] == Entry(k, LastValue(pairs, k).value)
    decreases |pairs|
  {
    if |pairs| > 0 && pairs[|pairs| - 1].key != k {
      var pre := pairs[..|pairs| - 1];
      LastValueFrom(pre, k);
      if LastValue(pre, k).Some? {
        var i :| 0 <= i < |pre| && pre[i] == Entry(k, LastValue(pre, k).value);
        assert pairs[i] == pre[i];
      }
    }
  }

  /** Updating with pairs whose keys are all new appends them, in order. */
  lemma {:induction false} UpdateFresh<V>(d: seq<Entry<V>>, pairs: seq<Entry<V>>)
    requires DistinctKeys(d + pairs)
    ensures Update(d, pairs) == d + pairs
    decreases |pairs|
  {
    if |pairs| > 0 {
      var pre := pairs[..|pairs| - 1];
      var last := pairs[|pairs| - 1];
      assert d + pre == (d + pairs)[..|d| + |pre|];
      UpdateFresh(d, pre);
      assert (d + pairs)[|d| + |pre|] == last;
      assert forall j :: 0 <= j < |d + pre| ==> (d + pre)[j] == (d + pairs)[j];
      assert IndexOf(Keys(d + pre), last.key) == -1;
      assert d + pairs == (d + pre) + [last];
    }
  }

  /** `dict(pairs)` of pairs with distinct keys is those pairs. */
  lemma FromDistinctPairs<V>(pairs: seq<Entry<V>>)
    requires DistinctKeys(pairs)
    ensures FromPairs(pairs) == pairs
  {
    assert [] + pairs == pairs;
    UpdateFresh([], pairs);
  }
}

=== FILE: pavenet_sumo.dfy ===
/**
 * The pavenet SUMO converter: every observation becomes a position row whose
 * coordinates are shifted by the network offset and whose lane string is parsed
 * into integer road, sub-road and lane ids; rows are written in batches of 1000.
 * The tracker output is one row per vehicle with all its intervals.
 */
module PavenetSumo {
  import opened Wrappers
  import opened Seqs
  import opened Batching
  import opened Activation
  import opened LaneParser
  import opened Strings
  import opened Ingestion

  /** The size at which the position buffer is written. */
  const FlushSize: nat := 1000

  datatype PositionRow = PositionRow(
    timeStep: int, nodeId: int, x: real, y: real, velocity: real,
    roadId: int, subRoadId: int, laneId: int, vehType: string)

  /** One position row: shifted coordinates and the parsed lane string, or the parser's error. */
  function ReadVehicleData(offsetX: real, offsetY: real, s: Stamped): Result<PositionRow, RoadError>
  {
    RowOf(offsetX, offsetY, s, ParseRoad(s.obs.lane))
  }

  /** The row for an observation whose lane string parsed to `parsed`. */
  function RowOf(offsetX: real, offsetY: real, s: Stamped, parsed: Result<Road, RoadError>): Result<PositionRow, RoadError>
  {
    match parsed
    case Failure(e) => Failure(e)
    case Success(road) =>
      Success(PositionRow(s.time, s.obs.id, s.obs.x - offsetX, s.obs.y - offsetY, s.obs.speed,
                          road.road, road.subRoad, road.lane, s.obs.vehType))
  }

  /**
   * An observation on lane `R#S_L` of a numbered edge gives a row with road R,
   * sub-road S and lane L, at coordinates shifted by the offset.
   */
  lemma NumberedLaneRow(offsetX: real, offsetY: real, s: Stamped, road: int, sub: int, lane: int)
    requires s.obs.lane == NumberedLane(FormatInt(road), FormatInt(sub), FormatInt(lane))
    ensures ReadVehicleData(offsetX, offsetY, s)
      == Success(PositionRow(s.time, s.obs.id, s.obs.x - offsetX, s.obs.y - offsetY, s.obs.speed, road, sub, lane, s.obs.vehType))
  {
    NumberedLaneRoundTrip(road, sub, lane);
    ParsedRow(offsetX, offsetY, s, Road(road, sub, lane));
    RowOfRoad(offsetX, offsetY, s, road, sub, lane);
  }

  /** The row of a parsed road carries its three numbers. */
  lemma RowOfRoad(offsetX: real, offsetY: real, s: Stamped, road: int, sub: int, lane: int)
    ensures RowOf(offsetX, offsetY, s, Success(Road(road, sub, lane)))
      == Success(PositionRow(s.time, s.obs.id, s.obs.x - offsetX, s.obs.y - offsetY, s.obs.speed, road, sub, lane, s.obs.vehType))
  {
  }

  /** A lane string that parses gives the row of the parsed road. */
  lemma ParsedRow(offsetX: real, offsetY: real, s: Stamped, road: Road)
    requires ParseRoad(s.obs.lane) == Success(road)
    ensures ReadVehicleData(offsetX, offsetY, s) == RowOf(offsetX, offsetY, s, Success(road))
  {
  }

  /** An observation on lane `R_L` of an edge without `#` gives no row: the parser's tuple assignment fails. */
  lemma EdgeWithoutSubRoadRow(offsetX: real, offsetY: real, s: Stamped, road: string, lane: string)
    requires Plain(road) && Plain(lane)
    requires s.obs.lane == Join([road, lane], '_')
    ensures ReadVehicleData(offsetX, offsetY, s) == Failure(ImmutableField)
  {
    PlainEdgeWithLaneFails(road, lane);
  }

  /** The row builder of the conversion loop. */
  function RowReader(offsetX: real, offsetY: real): Stamped -> Result<PositionRow, RoadError>
  {
    s => ReadVehicleData(offsetX, offsetY, s)
  }

  datatype Conversion = Conversion(writes: seq<seq<PositionRow>>, activations: seq<VehicleRow>, uniqueVehicleCount: nat)

  /**
   * The row of one vehicle element of the file: `int()` of its id comes first and
   * raises `ValueError` on text that is not an integer; then its lane string is parsed.
   */
  function SightingRow(offsetX: real, offsetY: real, s: Sighting): Result<PositionRow, RoadError>
  {
    if IdReadable(s.vehicle) then ReadVehicleData(offsetX, offsetY, Observe(s)) else Failure(NotANumber)
  }

  function SightingReader(offsetX: real, offsetY: real): Sighting -> Result<PositionRow, RoadError>
  {
    s => SightingRow(offsetX, offsetY, s)
  }

  /** Some vehicle element has an id that is not an integer or a lane string that does not parse. */
  predicate SomeVehicleUnreadable(ss: seq<Sighting>)
  {
    exists m :: 0 <= m < |ss| && (!IdReadable(ss[m].vehicle) || ParseRoad(ss[m].vehicle.lane).Failure?)
  }

  /**
   * The whole conversion of an FCD file. It fails exactly when some vehicle element
   * has an id that is not an integer or a lane string that does not parse, with the
   * error of the first such element in document order. Otherwise every id reads, the
   * batches hold one row per observation, in document order, each batch but the last
   * holds 1000 rows, the activation output has one row per distinct vehicle, and the
   * vehicle count is the number of distinct ids.
   */
  method ConvertFcdToParquet(ts: seq<Timestep>, offsetX: real, offsetY: real) returns (r: Result<Conversion, RoadError>)
    ensures r.Failure? <==> SomeVehicleUnreadable(Sightings(ts))
    ensures r.Failure? ==>
      (exists k: nat :: FirstFailure(Sightings(ts), SightingReader(offsetX, offsetY), k)
        && r.error == SightingRow(offsetX, offsetY, Sightings(ts)[k]).error)
    ensures r.Success? ==> IdsReadable(ts)
    ensures r.Success? ==>
      var blocks := ReadTimesteps(ts).value;
      var rows := Flatten(r.value.writes);
      var xs := Observations(blocks);
      && |rows| == |xs| == ObservationCount(blocks) == |Sightings(ts)|
      && forall k :: 0 <= k < |xs| ==>
           ReadVehicleData(offsetX, offsetY, xs[k]).Success? && rows[k] == ReadVehicleData(offsetX, offsetY, xs[k]).value
    ensures r.Success? ==> forall k :: 0 <= k < |r.value.writes| - 1 ==> |r.value.writes[k]| == FlushSize
    ensures r.Success? ==> r.value.activations == PavenetActivationRows(Run(Steps(ReadTimesteps(ts).value)))
    ensures r.Success? ==> r.value.uniqueVehicleCount == |SeenIds(Steps(ReadTimesteps(ts).value))|
    ensures r.Success? ==> |r.value.activations| == r.value.uniqueVehicleCount
  {
    var ss := Sightings(ts);
    SightingRowsFailIff(ss, offsetX, offsetY);
    match ReadTimesteps(ts)
    case Failure(_) =>
      var m :| 0 <= m < |ss| && !IdReadable(ss[m].vehicle);
      assert SomeVehicleUnreadable(ss);
      r := Failure(MapRows(ss, SightingReader(offsetX, offsetY)).error);
    case Success(blocks) =>
      var out := ConvertFcd(blocks, FlushSize, RowReader(offsetX, offsetY));
      SameRows(ts, offsetX, offsetY);
      match out
      case Failure(e) =>
        r := Failure(e);
      case Success(o) =>
        ObservationsLength(blocks);
        ReadObservations(ts);
        RunTracksSeenIds(Steps(blocks));
        r := Success(Conversion(o.writes, PavenetActivationRows(o.tracker), o.uniqueVehicleCount));
  }

  lemma SightingRowsFailIff(ss: seq<Sighting>, offsetX: real, offsetY: real)
    ensures MapRows(ss, SightingReader(offsetX, offsetY)).Failure? <==> SomeVehicleUnreadable(ss)
  {
    var mk := SightingReader(offsetX, offsetY);
    if MapRows(ss, mk).Failure? {
      var k: nat :| FirstFailure(ss, mk, k);
      assert !IdReadable(ss[k].vehicle) || ParseRoad(ss[k].vehicle.lane).Failure?;
    }
  }

  /** Once every id reads, the rows of the file's vehicle elements are the rows of its read blocks. */
  lemma SameRows(ts: seq<Timestep>, offsetX: real, offsetY: real)
    requires IdsReadable(ts)
    ensures MapRows(Sightings(ts), SightingReader(offsetX, offsetY))
      == MapRows(Observations(ReadTimesteps(ts).value), RowReader(offsetX, offsetY))
  {
    ReadObservations(ts);
    MapRowsPointwise(Sightings(ts), SightingReader(offsetX, offsetY),
                     Observations(ReadTimesteps(ts).value), RowReader(offsetX, offsetY));
  }

  /** Some observation carries a lane string that does not parse. */
  predicate SomeLaneUnreadable(xs: seq<Stamped>)
  {
    exists k :: 0 <= k < |xs| && ParseRoad(xs[k].obs.lane).Failure?
  }

  /** Once the ids are read, building the rows fails exactly when some lane string does not parse. */
  lemma RowsFailIff(xs: seq<Stamped>, offsetX: real, offsetY: real)
    ensures MapRows(xs, RowReader(offsetX, offsetY)).Failure? <==> SomeLaneUnreadable(xs)
  {
    var mk := RowReader(offsetX, offsetY);
    if MapRows(xs, mk).Failure? {
      var k: nat :| FirstFailure(xs, mk, k);
      assert ParseRoad(xs[k].obs.lane).Failure?;
    }
  }

  /** Read rows are the rows of the observations, one each, in order. */
  lemma RowsRead(xs: seq<Stamped>, offsetX: real, offsetY: real)
    requires MapRows(xs, RowReader(offsetX, offsetY)).Success?
    ensures var rows := MapRows(xs, RowReader(offsetX, offsetY)).value;
      |rows| == |xs| && forall k :: 0 <= k < |xs| ==> rows[k] == ReadVehicleData(offsetX, offsetY, xs[k]).value
  {
  }
}

=== FILE: reader.dfy ===
/**
 * The position stream reader. A position file is a sequence of row groups (chunks),
 * each sorted by time. The reader holds one chunk at a time, indexed by time step
 * and then by vehicle id, and moves forward one chunk whenever it is asked for the
 * last time step of the chunk it holds, merging that time step's entries from both
 * chunks, since a time step can straddle two chunks.
 */
module Reader {
  import opened Wrappers
  import opened Seqs
  import opened Spatial
  import opened OrderedDict

  /** The columns of a position row the reader uses. */
  datatype PosRow = PosRow(timeStep: int, nodeId: int, x: real, y: real)

  /** The ways reading a row group fails: past the last group, or a group without rows. */
  datatype ReadError = NoSuchRowGroup | EmptyRowGroup

  /** The time step of the last row of a chunk. */
  function LastTime(rows: seq<PosRow>): int
    requires |rows| > 0
  {
    rows[|rows| - 1].timeStep
  }

  // ---------------------------------------------------------------------------
  // The cache of one chunk: time step -> {id: (x, y)}.

  /** The (id, position) pairs of the rows at time `t`, in row order. */
  function PairsAt(rows: seq<PosRow>, t: int): seq<Entry<Point>>
    decreases |rows|
  {
    if |rows| == 0 then []
    else
      var last := rows[|rows| - 1];
      PairsAt(rows[..|rows| - 1], t) + if last.timeStep == t then [Entry(last.nodeId, Point(last.x, last.y))] else []
  }

  function Times(rows: seq<PosRow>): set<int>
  {
    set r | r in rows :: r.timeStep
  }

  /** The cache built from a chunk: for each of its time steps, `dict(zip(ids, zip(xs, ys)))`. */
  function ChunkCache(rows: seq<PosRow>): (c: map<int, seq<Entry<Point>>>)
    ensures c.Keys == Times(rows)
    ensures forall t :: t in c ==> DistinctKeys(c[t])
  {
    map t | t in Times(rows) :: FromPairs(PairsAt(rows, t))
  }

  /** `cache.get(t, {})`. */
  function EntriesAt(cache: map<int, seq<Entry<Point>>>, t: int): seq<Entry<Point>>
  {
    if t in cache then cache[t] else []
  }

  /** Reference: the position of the last row of `rows` for vehicle `v` at time `t`. */
  function LastPos(rows: seq<PosRow>, t: int, v: int): (p: Option<Point>)
    ensures p.Some? <==> exists k :: 0 <= k < |rows| && rows[k].timeStep == t && rows[k].nodeId == v
    decreases |rows|
  {
    if |rows| == 0 then None
    else
      var last := rows[|rows| - 1];
      var pre := rows[..|rows| - 1];
      assert forall k :: 0 <= k < |pre| ==> pre[k] == rows[k];
      if last.timeStep == t && last.nodeId == v then Some(Point(last.x, last.y))
      else LastPos(pre, t, v)
  }

  lemma {:induction false} PairsAtLastPos(rows: seq<PosRow>, t: int, v: int)
    ensures LastValue(PairsAt(rows, t), v) == LastPos(rows, t, v)
    decreases |rows|
  {
    if |rows| > 0 {
      var last := rows[|rows| - 1];
      var pre := rows[..|rows| - 1];
      PairsAtLastPos(pre, t, v);
      if last.timeStep == t {
        var ps := PairsAt(rows, t);
        assert ps[..|ps| - 1] == PairsAt(pre, t);
      } else {
        assert PairsAt(rows, t) == PairsAt(pre, t);
      }
    }
  }

  /**
   * The cache of a chunk holds, for every time step and vehicle, the position of the
   * chunk's last row for that vehicle at that step; a time step is cached exactly
   * when some row has it.
   */
  lemma CacheHoldsLastRow(rows: seq<PosRow>, t: int, v: int)
    ensures t in ChunkCache(rows) <==> exists k :: 0 <= k < |rows| && rows[k].timeStep == t
    ensures Lookup(EntriesAt(ChunkCache(rows), t), v) == LastPos(rows, t, v)
  {
    if t in ChunkCache(rows) {
      FromPairsLookup(PairsAt(rows, t), v);
      PairsAtLastPos(rows, t, v);
    } else {
      assert forall k :: 0 <= k < |rows| ==> rows[k].timeStep in Times(rows);
    }
  }

  // ---------------------------------------------------------------------------
  // The reader.

  /**
   * The reader's state: the next row group to read, the last time step of the held
   * chunk, the chunk itself and its cache.
   */
  datatype State = State(rowGroupId: nat, maxTs: int, chunk: seq<PosRow>, cache: map<int, seq<Entry<Point>>>)

  /** A reader before its first read. */
  function Init(): (r: State)
    ensures Coherent(r)
  {
    State(0, 0, [], map[])
  }

  /** The cache is the one built from the held chunk. */
  predicate Coherent(r: State)
  {
    r.cache == ChunkCache(r.chunk)
  }

  /**
   * Read the row group at `rowGroupId`: it becomes the held chunk, its last time step
   * becomes `maxTs`, and the group id moves on by one unless it is already the last.
   */
  function UpdateDataCache(file: seq<seq<PosRow>>, r: State): (res: Result<State, ReadError>)
    ensures res.Success? <==> r.rowGroupId < |file| && |file[r.rowGroupId]| > 0
    ensures res.Failure? ==> res.error == if r.rowGroupId < |file| then EmptyRowGroup else NoSuchRowGroup
    ensures res.Success? ==> Coherent(res.value) && res.value.chunk == file[r.rowGroupId]
    ensures res.Success? ==>
      && res.value.rowGroupId < |file|
      && (res.value.rowGroupId == r.rowGroupId + 1 || res.value.rowGroupId == r.rowGroupId == |file| - 1)
  {
    if r.rowGroupId >= |file| then Failure(NoSuchRowGroup)
    else
      var rows := file[r.rowGroupId];
      if |rows| == 0 then Failure(EmptyRowGroup)
      else
        var next := if r.rowGroupId < |file| - 1 then r.rowGroupId + 1 else r.rowGroupId;
        Success(State(next, LastTime(rows), rows, ChunkCache(rows)))
  }

  /** The first read: group 0. */
  function InitializeForReading(file: seq<seq<PosRow>>): (res: Result<State, ReadError>)
    ensures res.Success? <==> |file| > 0 && |file[0]| > 0
    ensures res.Success? ==> Coherent(res.value) && res.value.chunk == file[0]
  {
    UpdateDataCache(file, Init())
  }

  /** In a chunk sorted by time, `maxTs` is the largest time step it holds. */
  lemma MaxTsIsLargest(file: seq<seq<PosRow>>, r: State, k: nat)
    requires UpdateDataCache(file, r).Success?
    requires var rows := file[r.rowGroupId]; forall i, j :: 0 <= i < j < |rows| ==> rows[i].timeStep <= rows[j].timeStep
    ensures var next := UpdateDataCache(file, r).value;
      next.maxTs in next.cache && (k < |next.chunk| ==> next.chunk[k].timeStep <= next.maxTs)
  {
    var next := UpdateDataCache(file, r).value;
    assert next.chunk[|next.chunk| - 1] in next.chunk;
    if k < |next.chunk| && k != |next.chunk| - 1 {
      assert next.chunk[k].timeStep <= next.chunk[|next.chunk| - 1].timeStep;
    }
  }

  /** What the reader answers: the ids, in dict order, and the position of each. */
  datatype Answer = Answer(reader: State, ids: seq<int>, positions: seq<Point>)

  /**
   * The positions at time step `ts`. Below `maxTs`, an uncached step has no vehicles.
   * At `maxTs`, the reader reads the next chunk and the step's entries from it are
   * set over those of the held chunk. Above `maxTs`, nothing is read and the held
   * chunk's (normally empty) entries are answered.
   */
  function GetPositionsAt(file: seq<seq<PosRow>>, r: State, ts: int): (res: Result<Answer, ReadError>)
    ensures res.Failure? ==> ts == r.maxTs && UpdateDataCache(file, r).Failure?
    ensures ts != r.maxTs ==> res.Success? && res.value.reader == r
    ensures res.Success? ==> |res.value.ids| == |res.value.positions|
    ensures ts < r.maxTs && ts !in r.cache ==> res.Success? && res.value.ids == [] && res.value.positions == []
  {
    if ts < r.maxTs && ts !in r.cache then Success(Answer(r, [], []))
    else
      var here := EntriesAt(r.cache, ts);
      if ts == r.maxTs then
        match UpdateDataCache(file, r)
        case Failure(e) => Failure(e)
        case Success(next) =>
          var merged := Update(here, EntriesAt(next.cache, ts));
          Success(Answer(next, Keys(merged), Values(merged)))
      else Success(Answer(r, Keys(here), Values(here)))
  }

  /** The ids of a dict are the keys it finds, each with its own value beside it. */
  lemma KeysAndValues(d: seq<Entry<Point>>, v: int)
    requires DistinctKeys(d)
    ensures v in Keys(d) <==> Lookup(d, v).Some?
    ensures forall i :: 0 <= i < |d| && Keys(d)[i] == v ==> Lookup(d, v) == Some(Values(d)[i])
  {
  }

  /**
   * Away from `maxTs`, the answer holds exactly the vehicles the held chunk has at
   * `ts`, each once, at the position of its last row.
   */
  lemma PositionsWithinChunk(file: seq<seq<PosRow>>, r: State, ts: int, v: int)
    requires Coherent(r) && ts != r.maxTs
    ensures var a := GetPositionsAt(file, r, ts).value;
      && DistinctIds(a.ids)
      && (v in a.ids <==> LastPos(r.chunk, ts, v).Some?)
      && forall i :: 0 <= i < |a.ids| && a.ids[i] == v ==> LastPos(r.chunk, ts, v) == Some(a.positions[i])
  {
    var here := EntriesAt(r.cache, ts);
    CacheHoldsLastRow(r.chunk, ts, v);
    KeysAndValues(here, v);
  }

  /**
   * At `maxTs`, the reader moves to the next chunk, and the answer holds the vehicles
   * either chunk has at `ts`: the held chunk's first, in their order, and each at
   * the position of its last row in the new chunk if it has one there, and in the
   * held chunk otherwise.
   */
  lemma PositionsAtBoundary(file: seq<seq<PosRow>>, r: State, ts: int, v: int)
    requires Coherent(r) && ts == r.maxTs && GetPositionsAt(file, r, ts).Success?
    ensures var a := GetPositionsAt(file, r, ts).value;
      var older := LastPos(r.chunk, ts, v);
      var newer := LastPos(a.reader.chunk, ts, v);
      && a.reader == UpdateDataCache(file, r).value
      && DistinctIds(a.ids)
      && Keys(EntriesAt(r.cache, ts)) <= a.ids
      && (v in a.ids <==> older.Some? || newer.Some?)
      && forall i :: 0 <= i < |a.ids| && a.ids[i] == v ==> Some(a.positions[i]) == if newer.Some? then newer else older
  {
    var next := UpdateDataCache(file, r).value;
    var here := EntriesAt(r.cache, ts);
    var there := EntriesAt(next.cache, ts);
    var merged := Update(here, there);
    CacheHoldsLastRow(r.chunk, ts, v);
    CacheHoldsLastRow(next.chunk, ts, v);
    Merge(here, there, v);
    KeysAndValues(merged, v);
  }

  /**
   * At the last row group the refill reads the same group again, so the boundary
   * step is answered from that chunk alone, with nothing counted twice.
   */
  lemma LastGroupRereads(file: seq<seq<PosRow>>, r: State, ts: int)
    requires Coherent(r) && ts == r.maxTs && r.rowGroupId == |file| - 1 && r.chunk == file[r.rowGroupId] != []
    ensures var a := GetPositionsAt(file, r, ts).value;
      && a.reader.rowGroupId == r.rowGroupId && a.reader.chunk == r.chunk
      && a.ids == Keys(EntriesAt(r.cache, ts))
  {
    var here := EntriesAt(r.cache, ts);
    UpdateSelf(here);
  }

  // ---------------------------------------------------------------------------
  // The row group of each start time.

  /** Reference: the first group from `g` on whose last time step is at least `t`. */
  function GroupFor(file: seq<seq<PosRow>>, g: nat, t: int): (r: Result<nat, ReadError>)
    ensures r.Success? ==> g <= r.value < |file| && |file[r.value]| > 0 && t <= LastTime(file[r.value])
    ensures r.Success? ==> forall h :: g <= h < r.value ==> |file[h]| > 0 && LastTime(file[h]) < t
    decreases |file| - g
  {
    if g >= |file| then Failure(NoSuchRowGroup)
    else if |file[g]| == 0 then Failure(EmptyRowGroup)
    else if t <= LastTime(file[g]) then Success(g)
    else GroupFor(file, g + 1, t)
  }

  /** The group of each start time in turn, each search starting at the previous group. */
  function GroupsFrom(file: seq<seq<PosRow>>, g: nat, starts: seq<int>): (r: Result<seq<nat>, ReadError>)
    ensures r.Success? ==> |r.value| == |starts|
    decreases |starts|
  {
    if |starts| == 0 then Success([])
    else
      match GroupFor(file, g, starts[0])
      case Failure(e) => Failure(e)
      case Success(h) =>
        match GroupsFrom(file, h, starts[1..])
        case Failure(e) => Failure(e)
        case Success(rest) => Success([h] + rest)
  }

  /** Group 0 is read first, and an empty list of start times gets `[0]`. */
  function RowGroupIds(file: seq<seq<PosRow>>, starts: seq<int>): Result<seq<nat>, ReadError>
  {
    if |file| == 0 then Failure(NoSuchRowGroup)
    else if |file[0]| == 0 then Failure(EmptyRowGroup)
    else if |starts| == 0 then Success([0])
    else GroupsFrom(file, 0, starts)
  }

  function Prepend(ids: seq<nat>, r: Result<seq<nat>, ReadError>): Result<seq<nat>, ReadError>
  {
    if r.Success? then Success(ids + r.value) else r
  }

  /** The loop over the start times, moving to the next group while a start time lies beyond the current one. */
  method GetRowGroupIds(file: seq<seq<PosRow>>, startTimes: seq<int>) returns (r: Result<seq<nat>, ReadError>)
    ensures r == RowGroupIds(file, startTimes)
    ensures r.Success? ==> |r.value| == if |startTimes| == 0 then 1 else |startTimes|
  {
    if |file| == 0 {
      return Failure(NoSuchRowGroup);
    }
    if |file[0]| == 0 {
      return Failure(EmptyRowGroup);
    }
    var rowGroupId: nat := 0;
    var maxTime := LastTime(file[0]);
    var ids: seq<nat> := [];
    var i := 0;
    assert startTimes[0..] == startTimes;
    PrependNothing(GroupsFrom(file, 0, startTimes));
    while i < |startTimes|
      invariant 0 <= i <= |startTimes| && |ids| == i
      invariant rowGroupId < |file| && |file[rowGroupId]| > 0 && maxTime == LastTime(file[rowGroupId])
      invariant |startTimes| == 0 ==> rowGroupId == 0
      invariant GroupsFrom(file, 0, startTimes) == Prepend(ids, GroupsFrom(file, rowGroupId, startTimes[i..]))
      decreases |startTimes| - i, |file| - rowGroupId
    {
      if startTimes[i] <= maxTime {
        TakeGroup(file, rowGroupId, startTimes[i..]);
        assert startTimes[i..][1..] == startTimes[i + 1..];
        PrependTwice(ids, [rowGroupId], GroupsFrom(file, rowGroupId, startTimes[i + 1..]));
        ids := ids + [rowGroupId];
        i := i + 1;
      } else {
        SkipGroup(file, rowGroupId, startTimes[i..]);
        if rowGroupId + 1 >= |file| {
          return Failure(NoSuchRowGroup);
        }
        if |file[rowGroupId + 1]| == 0 {
          return Failure(EmptyRowGroup);
        }
        rowGroupId := rowGroupId + 1;
        maxTime := LastTime(file[rowGroupId]);
      }
    }
    assert startTimes[i..] == [];
    assert ids + [] == ids;
    if |ids| == 0 {
      ids := [rowGroupId];
    }
    r := Success(ids);
  }

  lemma TakeGroup(file: seq<seq<PosRow>>, g: nat, starts: seq<int>)
    requires g < |file| && |file[g]| > 0 && |starts| > 0 && starts[0] <= LastTime(file[g])
    ensures GroupsFrom(file, g, starts) == Prepend([g], GroupsFrom(file, g, starts[1..]))
  {
  }

  lemma SkipGroup(file: seq<seq<PosRow>>, g: nat, starts: seq<int>)
    requires g < |file| && |file[g]| > 0 && |starts| > 0 && starts[0] > LastTime(file[g])
    ensures GroupsFrom(file, g, starts) == GroupsFrom(file, g + 1, starts)
    ensures g + 1 >= |file| ==> GroupsFrom(file, g, starts) == Failure(NoSuchRowGroup)
    ensures g + 1 < |file| && |file[g + 1]| == 0 ==> GroupsFrom(file, g, starts) == Failure(EmptyRowGroup)
  {
  }

  lemma PrependNothing(r: Result<seq<nat>, ReadError>)
    ensures Prepend([], r) == r
  {
    if r.Success? {
      assert [] + r.value == r.value;
    }
  }

  lemma PrependTwice(a: seq<nat>, b: seq<nat>, r: Result<seq<nat>, ReadError>)
    ensures Prepend(a, Prepend(b, r)) == Prepend(a + b, r)
  {
    if r.Success? {
      assert a + (b + r.value) == (a + b) + r.value;
    }
  }

  /** The group ids never go backwards. */
  lemma {:induction false} GroupsFromOrdered(file: seq<seq<PosRow>>, g: nat, starts: seq<int>)
    requires GroupsFrom(file, g, starts).Success?
    ensures var ids := GroupsFrom(file, g, starts).value;
      && (forall a :: 0 <= a < |ids| ==> g <= ids[a])
      && (forall a, b :: 0 <= a < b < |ids| ==> ids[a] <= ids[b])
    decreases |starts|
  {
    if |starts| > 0 {
      var h := GroupFor(file, g, starts[0]).value;
      GroupsFromOrdered(file, h, starts[1..]);
      var rest := GroupsFrom(file, h, starts[1..]).value;
      var ids := GroupsFrom(file, g, starts).value;
      assert ids == [h] + rest;
      assert forall a :: 1 <= a < |ids| ==> ids[a] == rest[a - 1];
    }
  }

  /**
   * For start times in increasing order, each gets the first group of the file whose
   * last time step is at least the start time.
   */
  lemma {:induction false} GroupsFromFirstFit(file: seq<seq<PosRow>>, g: nat, starts: seq<int>, k: nat)
    requires GroupsFrom(file, g, starts).Success? && k < |starts|
    requires forall a, b :: 0 <= a < b < |starts| ==> starts[a] <= starts[b]
    requires forall h :: 0 <= h < g ==> |file[h]| > 0 && LastTime(file[h]) < starts[0]
    requires g <= |file|
    ensures var id := GroupsFrom(file, g, starts).value[k];
      && id < |file| && |file[id]| > 0 && starts[k] <= LastTime(file[id])
      && forall h :: 0 <= h < id ==> |file[h]| > 0 && LastTime(file[h]) < starts[k]
    decreases |starts|
  {
    var h := GroupFor(file, g, starts[0]).value;
    if k > 0 {
      var rest := starts[1..];
      assert forall x :: 0 <= x < h ==> |file[x]| > 0 && LastTime(file[x]) < rest[0] by {
        assert starts[0] <= starts[1];
      }
      GroupsFromFirstFit(file, h, rest, k - 1);
    }
  }

  /**
   * The row group ids are non-decreasing, and with start times in increasing order
   * each is the first group whose last time step is at least its start time.
   */
  lemma RowGroupIdsFirstFit(file: seq<seq<PosRow>>, starts: seq<int>, k: nat)
    requires RowGroupIds(file, starts).Success? && 0 < |starts| && k < |starts|
    requires forall a, b :: 0 <= a < b < |starts| ==> starts[a] <= starts[b]
    ensures var ids := RowGroupIds(file, starts).value;
      && (forall a, b :: 0 <= a < b < |ids| ==> ids[a] <= ids[b])
      && ids[k] < |file| && |file[ids[k]]| > 0 && starts[k] <= LastTime(file[ids[k]])
      && forall h :: 0 <= h < ids[k] ==> |file[h]| > 0 && LastTime(file[h]) < starts[k]
  {
    GroupsFromOrdered(file, 0, starts);
    GroupsFromFirstFit(file, 0, starts, k);
  }
}

=== FILE: seqs.dfy ===
/** Small facts about sequences shared by the modules of this project. */
module Seqs {

  /** The rows of a sequence of batches, in write order. */
  function Flatten<T>(batches: seq<seq<T>>): (r: seq<T>)
    decreases |batches|
  {
    if |batches| == 0 then [] else Flatten(batches[..|batches| - 1]) + batches[|batches| - 1]
  }

  lemma FlattenAppend<T>(batches: seq<seq<T>>, b: seq<T>)
    ensures Flatten(batches + [b]) == Flatten(batches) + b
  {
    assert (batches + [b])[..|batches|] == batches;
  }

  lemma FlattenSingle<T>(batches: seq<seq<T>>)
    requires |batches| == 1
    ensures batches == [Flatten(batches)]
  {
    assert batches[..0] == [] && batches == [batches[0]];
    assert Flatten(batches) == Flatten(batches[..0]) + batches[0] == [] + batches[0];
    assert Flatten(batches) == batches[0];
  }

  lemma {:induction false} FlattenConcat<T>(a: seq<seq<T>>, b: seq<seq<T>>)
    ensures Flatten(a + b) == Flatten(a) + Flatten(b)
    decreases |b|
  {
    if |b| == 0 {
      assert a + b == a;
    } else {
      var b' := b[..|b| - 1];
      assert a + b == (a + b') + [b[|b| - 1]];
      FlattenAppend(a + b', b[|b| - 1]);
      FlattenConcat(a, b');
      FlattenAppend(b', b[|b| - 1]);
      assert b == b' + [b[|b| - 1]];
    }
  }

  lemma {:induction false} FlattenLength<T>(batches: seq<seq<T>>, n: nat)
    requires forall k :: 0 <= k < |batches| ==> |batches[k]| == n
    ensures |Flatten(batches)| == n * |batches|
    decreases |batches|
  {
    if |batches| > 0 {
      FlattenLength(batches[..|batches| - 1], n);
    }
  }

  /** The elements of a sequence. */
  function Elems<T>(s: seq<T>): set<T>
  {
    set x | x in s
  }

  lemma ElemsSnoc<T>(s: seq<T>, x: T)
    ensures Elems(s + [x]) == Elems(s) + {x}
  {
  }

  lemma ElemsLast<T>(s: seq<T>)
    requires |s| > 0
    ensures Elems(s) == Elems(s[..|s| - 1]) + {s[|s| - 1]}
  {
    assert s == s[..|s| - 1] + [s[|s| - 1]];
    ElemsSnoc(s[..|s| - 1], s[|s| - 1]);
  }

  /** `xs` is non-decreasing. */
  predicate NonDecreasing(xs: seq<int>)
  {
    forall i, j :: 0 <= i < j < |xs| ==> xs[i] <= xs[j]
  }
  /** The elements of `xs` that satisfy `p`, in order (a boolean-mask selection). */
  function Filter<T>(xs: seq<T>, p: T -> bool): (r: seq<T>)
    ensures |r| <= |xs|
    decreases |xs|
  {
    if |xs| == 0 then []
    else Filter(xs[..|xs| - 1], p) + (if p(xs[|xs| - 1]) then [xs[|xs| - 1]] else [])
  }

  lemma FilterSnoc<T>(xs: seq<T>, x: T, p: T -> bool)
    ensures Filter(xs + [x], p) == Filter(xs, p) + (if p(x) then [x] else [])
  {
    assert (xs + [x])[..|xs|] == xs;
  }

  lemma {:induction false} FilterConcat<T>(a: seq<T>, b: seq<T>, p: T -> bool)
    ensures Filter(a + b, p) == Filter(a, p) + Filter(b, p)
    decreases |b|
  {
    if |b| == 0 {
      assert a + b == a;
    } else {
      var b' := b[..|b| - 1];
      var x := b[|b| - 1];
      assert a + b == (a + b') + [x];
      assert b == b' + [x];
      FilterSnoc(a + b', x, p);
      FilterSnoc(b', x, p);
      FilterConcat(a, b', p);
    }
  }

  /** An element survives the filter exactly when it is in `xs` and satisfies `p`. */
  lemma {:induction false} FilterMember<T>(xs: seq<T>, p: T -> bool, x: T)
    ensures x in Filter(xs, p) <==> x in xs && p(x)
    decreases |xs|
  {
    if |xs| > 0 {
      var n := |xs| - 1;
      FilterMember(xs[..n], p, x);
      assert xs == xs[..n] + [xs[n]];
      assert x in xs <==> x in xs[..n] || x == xs[n];
    }
  }

  /** Nothing is dropped when every element satisfies `p`. */
  lemma {:induction false} FilterAllPass<T>(xs: seq<T>, p: T -> bool)
    requires forall k :: 0 <= k < |xs| ==> p(xs[k])
    ensures Filter(xs, p) == xs
    decreases |xs|
  {
    if |xs| > 0 {
      var n := |xs| - 1;
      FilterAllPass(xs[..n], p);
      assert xs == xs[..n] + [xs[n]];
    }
  }

  /** Everything is dropped when no element satisfies `p`. */
  lemma {:induction false} FilterNonePass<T>(xs: seq<T>, p: T -> bool)
    requires forall k :: 0 <= k < |xs| ==> !p(xs[k])
    ensures Filter(xs, p) == []
    decreases |xs|
  {
    if |xs| > 0 {
      FilterNonePass(xs[..|xs| - 1], p);
    }
  }

  /** Exactly one element fails `p`: the filter is one shorter and leaves out just that element. */
  lemma FilterOneFails<T>(xs: seq<T>, p: T -> bool, m: nat)
    requires m < |xs| && !p(xs[m])
    requires forall k :: 0 <= k < |xs| && k != m ==> p(xs[k])
    ensures Filter(xs, p) == xs[..m] + xs[m + 1..]
    ensures |Filter(xs, p)| == |xs| - 1
  {
    assert xs == xs[..m] + ([xs[m]] + xs[m + 1..]);
    FilterConcat(xs[..m], [xs[m]] + xs[m + 1..], p);
    FilterConcat([xs[m]], xs[m + 1..], p);
    FilterAllPass(xs[..m], p);
    FilterAllPass(xs[m + 1..], p);
    assert [xs[m]] == [] + [xs[m]];
    FilterSnoc([], xs[m], p);
  }

  /** Two filters can be applied in either order. */
  lemma {:induction false} FilterCommute<T>(xs: seq<T>, p: T -> bool, q: T -> bool)
    ensures Filter(Filter(xs, p), q) == Filter(Filter(xs, q), p)
    decreases |xs|
  {
    if |xs| > 0 {
      var n := |xs| - 1;
      var x := xs[n];
      FilterCommute(xs[..n], p, q);
      FilterConcat(Filter(xs[..n], p), if p(x) then [x] else [], q);
      FilterConcat(Filter(xs[..n], q), if q(x) then [x] else [], p);
      if p(x) { FilterSnoc([], x, q); assert [x] == [] + [x]; }
      if q(x) { FilterSnoc([], x, p); assert [x] == [] + [x]; }
    }
  }

  /** No id occurs twice. */
  predicate DistinctIds(ids: seq<int>)
  {
    forall a, b :: 0 <= a < b < |ids| ==> ids[a] != ids[b]
  }
}

=== FILE: spatial.dfy ===
/**
 * The neighbour queries of the link computation. The KD-tree library is not
 * modelled: a tree is the point set it was built on together with its two queries,
 * the `k` nearest points and the points within a radius. Each query answers, for one
 * query point, a list of (index into the tree's points, distance) pairs. What a
 * correct answer is, is stated here over squared Euclidean distances, so that no
 * square root is needed.
 */
module Spatial {
  import opened Wrappers

  datatype Point = Point(x: real, y: real)

  /**
   * Real multiplication, named so that every product in this module is one term the
   * solver sees the same way wherever it occurs.
   */
  function Mul(a: real, b: real): real
  {
    a * b
  }

  lemma MulPositive(a: real, b: real)
    requires a > 0.0 && b > 0.0
    ensures Mul(a, b) > 0.0
  {
  }

  lemma MulNegate(a: real, b: real)
    ensures Mul(-a, -b) == Mul(a, b)
  {
  }

  /** A square is positive away from 0, and 0 at 0. */
  lemma Square(r: real)
    ensures Mul(r, r) >= 0.0
    ensures r != 0.0 <==> Mul(r, r) > 0.0
  {
    if r > 0.0 {
      MulPositive(r, r);
    } else if r < 0.0 {
      MulPositive(-r, -r);
      MulNegate(r, r);
    } else {
      assert Mul(r, r) == Mul(0.0, 0.0);
    }
  }

  /** The square of the Euclidean distance. */
  function SqDist(a: Point, b: Point): real
  {
    Mul(a.x - b.x, a.x - b.x) + Mul(a.y - b.y, a.y - b.y)
  }

  /** The squared distance is 0 between equal points and positive between distinct ones. */
  lemma SqDistSign(a: Point, b: Point)
    ensures SqDist(a, b) >= 0.0
    ensures SqDist(a, b) == 0.0 <==> a == b
  {
    Square(a.x - b.x);
    Square(a.y - b.y);
  }

  /** `d` is the distance whose square is `sq`. */
  predicate IsDistance(d: real, sq: real)
  {
    d >= 0.0 && Mul(d, d) == sq
  }

  /** The only distance whose square is 0 is 0. */
  lemma ZeroDistance(d: real)
    requires IsDistance(d, 0.0)
    ensures d == 0.0
  {
    Square(d);
  }

  /** One answer of a query: a point of the tree, by index, and its distance. */
  datatype Neighbor = Neighbor(idx: nat, dist: real)

  /**
   * A built tree: the points, in the order of the ids that go with them, and the
   * answers of its `k`-nearest and radius queries for any query point.
   */
  datatype KdTree = KdTree(
    data: seq<Point>,
    nearest: (Point, nat) -> seq<Neighbor>,
    within: (Point, real) -> seq<Neighbor>)

  /** Every answer names a point of the tree. */
  ghost predicate InRange(t: KdTree)
  {
    && (forall q, k, j :: 0 <= j < |t.nearest(q, k)| ==> t.nearest(q, k)[j].idx < |t.data|)
    && (forall q, r, j :: 0 <= j < |t.within(q, r)| ==> t.within(q, r)[j].idx < |t.data|)
  }

  datatype QueryError = TooFewPoints  // more neighbours asked for than the tree holds

  /**
   * The `k`-nearest query for every query point, in order. The library refuses a `k`
   * above the number of points in the tree.
   */
  function Query(t: KdTree, queries: seq<Point>, k: nat): (r: Result<seq<seq<Neighbor>>, QueryError>)
    ensures r.Success? <==> k <= |t.data|
    ensures r.Success? ==> |r.value| == |queries| && forall i :: 0 <= i < |queries| ==> r.value[i] == t.nearest(queries[i], k)
  {
    if k > |t.data| then Failure(TooFewPoints)
    else Success(seq(|queries|, i requires 0 <= i < |queries| => t.nearest(queries[i], k)))
  }

  /** The radius query for every query point, in order. */
  function QueryRadius(t: KdTree, queries: seq<Point>, radius: real): (r: seq<seq<Neighbor>>)
    ensures |r| == |queries| && forall i :: 0 <= i < |queries| ==> r[i] == t.within(queries[i], radius)
  {
    seq(|queries|, i requires 0 <= i < |queries| => t.within(queries[i], radius))
  }

  /** Point `p` of the tree is among the answers. */
  predicate Found(res: seq<Neighbor>, p: nat)
  {
    exists j :: 0 <= j < |res| && res[j].idx == p
  }

  /** The answers name distinct points of `data`, each with its true distance from `q`. */
  predicate Measured(data: seq<Point>, q: Point, res: seq<Neighbor>)
  {
    && (forall j :: 0 <= j < |res| ==> res[j].idx < |data| && IsDistance(res[j].dist, SqDist(q, data[res[j].idx])))
    && (forall a, b :: 0 <= a < b < |res| ==> res[a].idx != res[b].idx)
  }

  /**
   * A correct `k`-nearest answer: `k` measured points, nearest first, and no point
   * left out is nearer than one that was taken.
   */
  predicate NearestSound(data: seq<Point>, q: Point, k: nat, res: seq<Neighbor>)
  {
    && |res| == k
    && Measured(data, q, res)
    && (forall a, b :: 0 <= a < b < |res| ==> res[a].dist <= res[b].dist)
    && (forall p, j :: 0 <= p < |data| && 0 <= j < |res| && !Found(res, p) ==>
          SqDist(q, data[res[j].idx]) <= SqDist(q, data[p]))
  }

  /** A correct radius answer: exactly the points at distance at most `radius`, measured. */
  predicate WithinSound(data: seq<Point>, q: Point, radius: real, res: seq<Neighbor>)
  {
    && Measured(data, q, res)
    && (forall p :: 0 <= p < |data| ==> (Found(res, p) <==> radius >= 0.0 && SqDist(q, data[p]) <= Mul(radius, radius)))
  }

  /** No two points of the set coincide. */
  predicate DistinctPoints(data: seq<Point>)
  {
    forall a, b :: 0 <= a < b < |data| ==> data[a] != data[b]
  }

  /**
   * Asked about one of its own points, a correct nearest query with `k >= 1` over
   * distinct points returns that point itself, at distance 0.
   */
  lemma SelfIsNearest(data: seq<Point>, i: nat, k: nat, res: seq<Neighbor>) returns (j: nat)
    requires i < |data| && DistinctPoints(data) && 1 <= k
    requires NearestSound(data, data[i], k, res)
    ensures j < |res| && res[j].idx == i && res[j].dist == 0.0
  {
    var p := res[0].idx;
    if p != i {
      assert data[p] != data[i] by {
        if p < i { assert data[p] != data[i]; } else { assert data[i] != data[p]; }
      }
      SqDistSign(data[i], data[p]);
      SqDistSign(data[i], data[i]);
    }
    assert Found(res, i);
    j :| 0 <= j < |res| && res[j].idx == i;
    SqDistSign(data[i], data[i]);
    ZeroDistance(res[j].dist);
  }
}

=== FILE: strings.dfy ===
/**
 * Python's `str.split(sep)` with a one-character separator, its inverse `sep.join`,
 * and `int()` on decimal text.
 */
module Strings {
  import opened Wrappers

  /** The position of the first `c` in `s`. */
  function IndexOf(s: string, c: char): (i: nat)
    requires c in s
    ensures i < |s| && s[i] == c && c !in s[..i]
  {
    if s[0] == c then 0 else 1 + IndexOf(s[1..], c)
  }

  lemma {:induction false} IndexOfJoined(a: string, c: char, b: string)
    requires c !in a
    ensures c in a + [c] + b && IndexOf(a + [c] + b, c) == |a|
    decreases |a|
  {
    var s := a + [c] + b;
    assert s[|a|] == c;
    if |a| > 0 {
      assert s[1..] == a[1..] + [c] + b;
      IndexOfJoined(a[1..], c, b);
    }
  }

  /**
   * `s.split(c)`: the pieces between occurrences of `c`, empty ones included; a string
   * without `c` splits into itself alone.
   */
  function Split(s: string, c: char): (r: seq<string>)
    ensures |r| >= 1
    ensures forall k :: 0 <= k < |r| ==> c !in r[k]
    ensures c !in s ==> r == [s]
    decreases |s|
  {
    if c !in s then [s]
    else
      var i := IndexOf(s, c);
      [s[..i]] + Split(s[i + 1..], c)
  }

  /** `c.join(parts)`. */
  function Join(parts: seq<string>, c: char): (s: string)
    requires |parts| >= 1
    decreases |parts|
  {
    if |parts| == 1 then parts[0] else parts[0] + [c] + Join(parts[1..], c)
  }

  /** A character that occurs neither in the parts nor as the separator does not occur in the join. */
  lemma {:induction false} JoinExcludes(parts: seq<string>, c: char, d: char)
    requires |parts| >= 1 && d != c
    requires forall k :: 0 <= k < |parts| ==> d !in parts[k]
    ensures d !in Join(parts, c)
    decreases |parts|
  {
    if |parts| > 1 {
      JoinExcludes(parts[1..], c, d);
    }
  }

  /** Joining the pieces of a split gives back the string. */
  lemma {:induction false} JoinSplit(s: string, c: char)
    ensures Join(Split(s, c), c) == s
    decreases |s|
  {
    if c in s {
      var i := IndexOf(s, c);
      JoinSplit(s[i + 1..], c);
      assert s == s[..i] + [c] + s[i + 1..];
    }
  }

  /** Splitting a join of separator-free pieces gives back the pieces. */
  lemma {:induction false} SplitJoin(parts: seq<string>, c: char)
    requires |parts| >= 1
    requires forall k :: 0 <= k < |parts| ==> c !in parts[k]
    ensures Split(Join(parts, c), c) == parts
    decreases |parts|
  {
    if |parts| > 1 {
      SplitAtFirst(parts[0], c, Join(parts[1..], c));
      SplitJoin(parts[1..], c);
      assert parts == [parts[0]] + parts[1..];
    }
  }

  /** A string cut at its first separator splits into the piece before it and the split of the rest. */
  lemma SplitAtFirst(a: string, c: char, b: string)
    requires c !in a
    ensures Split(a + [c] + b, c) == [a] + Split(b, c)
  {
    var s := a + [c] + b;
    IndexOfJoined(a, c, b);
    assert s[..|a|] == a;
    assert s[|a| + 1..] == b;
  }

  // ---------------------------------------------------------------------------
  // Integers.

  predicate IsDigit(ch: char)
  {
    '0' <= ch <= '9'
  }

  function DigitValue(ch: char): (d: nat)
    requires IsDigit(ch)
    ensures d < 10
  {
    (ch - '0') as nat
  }

  function DigitChar(d: nat): (ch: char)
    requires d < 10
    ensures IsDigit(ch) && DigitValue(ch) == d
  {
    (d as char + '0')
  }

  predicate AllDigits(s: string)
  {
    forall k :: 0 <= k < |s| ==> IsDigit(s[k])
  }

  /** Decimal digits and `_` separators. */
  predicate DigitText(s: string)
  {
    forall k :: 0 <= k < |s| ==> IsDigit(s[k]) || s[k] == '_'
  }

  /** The value of a string of decimal digits, most significant first; a `_` separator carries no digit. */
  function DigitsValue(s: string): (n: nat)
    requires DigitText(s)
    decreases |s|
  {
    if |s| == 0 then 0
    else if s[|s| - 1] == '_' then DigitsValue(s[..|s| - 1])
    else 10 * DigitsValue(s[..|s| - 1]) + DigitValue(s[|s| - 1])
  }

  /** The characters `int()` strips from both ends of its argument. */
  predicate IsSpace(ch: char)
  {
    ch == ' ' || '\t' <= ch <= '\r' || ch == '\U{0085}' || ch == '\U{00A0}' || ch == '\U{1680}'
    || '\U{2000}' <= ch <= '\U{200A}' || ch == '\U{2028}' || ch == '\U{2029}' || ch == '\U{202F}'
    || ch == '\U{205F}' || ch == '\U{3000}'
  }

  /** `s` without its leading white space. */
  function TrimStart(s: string): (t: string)
    ensures |t| <= |s|
    ensures |t| > 0 ==> !IsSpace(t[0])
    ensures (forall k :: 0 <= k < |s| ==> IsSpace(s[k])) ==> t == []
    decreases |s|
  {
    if |s| > 0 && IsSpace(s[0]) then TrimStart(s[1..]) else s
  }

  /** `s` without its trailing white space. */
  function TrimEnd(s: string): (t: string)
    ensures |t| <= |s|
    ensures |t| > 0 ==> !IsSpace(t[|t| - 1])
    decreases |s|
  {
    if |s| > 0 && IsSpace(s[|s| - 1]) then TrimEnd(s[..|s| - 1]) else s
  }

  function Trim(s: string): string
  {
    TrimEnd(TrimStart(s))
  }

  /** Decimal digits, with single `_` allowed between two digits, as in `1_000`. */
  predicate Numeral(s: string)
  {
    && |s| > 0 && IsDigit(s[0]) && IsDigit(s[|s| - 1]) && DigitText(s)
    && (forall i, j :: 0 <= i < |s| && 0 <= j < |s| && j == i + 1 ==> s[i] != '_' || s[j] != '_')
  }

  /** An optional sign and a numeral, with nothing around them. */
  function SignedNumeral(t: string): (r: Option<int>)
    ensures r.Some? ==> |t| > 0
    ensures r.Some? && t[0] == '-' ==> r.value <= 0
    ensures r.Some? && t[0] != '-' ==> r.value >= 0
  {
    if |t| > 0 && (t[0] == '-' || t[0] == '+') then
      if Numeral(t[1..]) then Some(if t[0] == '-' then 0 - DigitsValue(t[1..]) else DigitsValue(t[1..]))
      else None
    else if Numeral(t) then Some(DigitsValue(t))
    else None
  }

  /**
   * `int(s)` for a string: white space at either end is ignored, then comes an
   * optional sign and a numeral. Any other text is rejected.
   */
  function ParseInt(s: string): (r: Option<int>)
    ensures (forall k :: 0 <= k < |s| ==> IsSpace(s[k])) ==> r == None
    ensures r.Some? ==> |Trim(s)| > 0
    ensures r.Some? && Trim(s)[0] == '-' ==> r.value <= 0
    ensures r.Some? && Trim(s)[0] != '-' ==> r.value >= 0
  {
    SignedNumeral(Trim(s))
  }

  /** The decimal text of a natural number, without leading zeros. */
  function FormatNat(n: nat): (s: string)
    ensures |s| >= 1 && AllDigits(s)
    decreases n
  {
    if n < 10 then [DigitChar(n)] else FormatNat(n / 10) + [DigitChar(n % 10)]
  }

  /** `str(n)`. */
  function FormatInt(n: int): (s: string)
  {
    if n < 0 then "-" + FormatNat(-n) else FormatNat(n)
  }

  lemma {:induction false} FormatNatValue(n: nat)
    ensures DigitsValue(FormatNat(n)) == n
    decreases n
  {
    if n >= 10 {
      var s := FormatNat(n);
      FormatNatValue(n / 10);
      assert s[..|s| - 1] == FormatNat(n / 10);
    }
  }

  /** `int(str(n)) == n`. */
  lemma ParseFormatInt(n: int)
    ensures ParseInt(FormatInt(n)) == Some(n)
  {
    FormatIntTrimmed(n);
    if n < 0 {
      FormatNatValue(-n);
      SignedDigits('-', FormatNat(-n));
    } else {
      FormatNatValue(n);
      UnsignedDigits(FormatNat(n));
    }
  }

  lemma SignedDigits(sign: char, ds: string)
    requires sign == '-' || sign == '+'
    requires |ds| > 0 && AllDigits(ds)
    ensures SignedNumeral([sign] + ds) == Some(if sign == '-' then 0 - DigitsValue(ds) as int else DigitsValue(ds))
  {
    var t := [sign] + ds;
    assert t[0] == sign && t[1..] == ds;
    assert Numeral(ds);
  }

  lemma UnsignedDigits(ds: string)
    requires |ds| > 0 && AllDigits(ds)
    ensures SignedNumeral(ds) == Some(DigitsValue(ds))
  {
    assert Numeral(ds);
    assert ds[0] != '-' && ds[0] != '+';
  }

  /** The text of an integer starts with `-` or a digit and ends with a digit, so `strip` keeps it. */
  lemma FormatIntTrimmed(n: int)
    ensures var s := FormatInt(n); |s| > 0 && IsDigit(s[|s| - 1]) && (s[0] == '-' || IsDigit(s[0]))
    ensures Trim(FormatInt(n)) == FormatInt(n)
  {
    var s := FormatInt(n);
    if n < 0 {
      assert s[|s| - 1] == FormatNat(-n)[|FormatNat(-n)| - 1];
    }
    assert TrimStart(s) == s;
  }

  /** White space around an integer's text does not change what `int()` reads. */
  lemma ParseIntPadded(n: int, before: string, after: string)
    requires forall k :: 0 <= k < |before| ==> IsSpace(before[k])
    requires forall k :: 0 <= k < |after| ==> IsSpace(after[k])
    ensures ParseInt(before + FormatInt(n) + after) == Some(n)
  {
    var f := FormatInt(n);
    FormatIntTrimmed(n);
    ParseFormatInt(n);
    assert before + f + after == before + (f + after);
    TrimStartSpaces(before, f + after);
    assert TrimStart(f + after) == f + after by {
      assert (f + after)[0] == f[0];
    }
    TrimEndSpaces(f, after);
    assert Trim(before + f + after) == Trim(f);
  }

  /** A `_` between digits groups them and carries no value. */
  lemma ParseIntGrouped()
    ensures ParseInt("1_000") == Some(1000)
  {
    var s := "1_000";
    assert TrimStart(s) == s && TrimEnd(s) == s;
    assert Numeral(s);
    assert "1_"[..1] == "1" && DigitsValue("1_") == 1;
    assert "1_0"[..2] == "1_" && DigitsValue("1_0") == 10;
    assert "1_00"[..3] == "1_0" && DigitsValue("1_00") == 100;
    assert s[..4] == "1_00";
  }

  /** Two separators in a row, a leading separator, and a space after the sign are refused. */
  lemma ParseIntRejects()
    ensures ParseInt("1__0") == None
    ensures ParseInt("_1") == None
    ensures ParseInt("- 7") == None
  {
    assert TrimStart("1__0") == "1__0" && TrimEnd("1__0") == "1__0";
    assert "1__0"[1] == '_' && "1__0"[2] == '_';
    assert TrimStart("_1") == "_1" && TrimEnd("_1") == "_1";
    assert TrimStart("- 7") == "- 7" && TrimEnd("- 7") == "- 7";
    assert "- 7"[1..] == " 7";
  }

  lemma {:induction false} TrimStartSpaces(pad: string, s: string)
    requires forall k :: 0 <= k < |pad| ==> IsSpace(pad[k])
    ensures TrimStart(pad + s) == TrimStart(s)
    decreases |pad|
  {
    if |pad| > 0 {
      assert (pad + s)[0] == pad[0] && IsSpace(pad[0]);
      assert (pad + s)[1..] == pad[1..] + s;
      TrimStartSpaces(pad[1..], s);
      assert TrimStart(pad + s) == TrimStart(pad[1..] + s);
    } else {
      assert pad + s == s;
    }
  }

  lemma {:induction false} TrimEndSpaces(s: string, pad: string)
    requires forall k :: 0 <= k < |pad| ==> IsSpace(pad[k])
    ensures TrimEnd(s + pad) == TrimEnd(s)
    decreases |pad|
  {
    if |pad| > 0 {
      var shorter := pad[..|pad| - 1];
      assert (s + pad)[|s + pad| - 1] == pad[|pad| - 1] && IsSpace(pad[|pad| - 1]);
      assert (s + pad)[..|s + pad| - 1] == s + shorter;
      TrimEndSpaces(s, shorter);
      assert TrimEnd(s + pad) == TrimEnd(s + shorter);
    } else {
      assert s + pad == s;
    }
  }

  /** A formatted integer contains no separator character of a lane string. */
  lemma FormatIntPlain(n: int)
    ensures forall ch :: ch in FormatInt(n) ==> ch == '-' || IsDigit(ch)
  {
  }
}

=== FILE: transitions.dfy ===
/**
 * V2R transitions (`scripts/v2r_transitions.py` in both packages, `links/ns3_links.py`).
 * From a link table, keep per (time step, node) the row of least distance, the first
 * such row on ties (`groupby(...).distance.idxmin()`). Order the survivors by (node,
 * time step). Then keep a row only when it is its node's first row or its target
 * differs from that of the node's previous row. The disolv copy calls the node column
 * `agent_id`; the rows are the same.
 */
module Transitions {
  import opened Wrappers
  import opened Seqs
  import opened OrderedDict
  import opened LinkArrays

  /** The row is in the group of (node `v`, time step `t`). */
  predicate HasKey(r: LinkRow, v: int, t: int)
  {
    r.nodeId == v && r.timeStep == t
  }

  /** `a` sorts strictly before `b` by (node, time step). */
  predicate Before(a: LinkRow, b: LinkRow)
  {
    a.nodeId < b.nodeId || (a.nodeId == b.nodeId && a.timeStep < b.timeStep)
  }

  /** Ordered by (node, time step), one row per (node, time step). */
  predicate StrictlySorted(s: seq<LinkRow>)
  {
    forall i, j :: 0 <= i < j < |s| ==> Before(s[i], s[j])
  }

  /**
   * Row `i` is what `idxmin` picks for its group: no row of the group is nearer, and
   * every earlier row of the group is strictly farther.
   */
  predicate IsIdxMin(rows: seq<LinkRow>, i: nat)
    requires i < |rows|
  {
    forall j :: 0 <= j < |rows| && HasKey(rows[j], rows[i].nodeId, rows[i].timeStep) ==>
      rows[i].distance <= rows[j].distance && (j < i ==> rows[i].distance < rows[j].distance)
  }

  /** The first row of `s` in the group (node `v`, time step `t`). */
  function Find(s: seq<LinkRow>, v: int, t: int): (r: Option<LinkRow>)
    ensures r.None? <==> forall j :: 0 <= j < |s| ==> !HasKey(s[j], v, t)
    ensures r.Some? ==> r.value in s && HasKey(r.value, v, t)
    decreases |s|
  {
    if |s| == 0 then None
    else if HasKey(s[0], v, t) then Some(s[0])
    else
      assert forall j :: 1 <= j < |s| ==> s[1..][j - 1] == s[j];
      Find(s[1..], v, t)
  }

  /** In a strictly sorted sequence a row is the only one of its group. */
  lemma FindMember(s: seq<LinkRow>, x: LinkRow)
    requires StrictlySorted(s) && x in s
    ensures Find(s, x.nodeId, x.timeStep) == Some(x)
  {
    var y := Find(s, x.nodeId, x.timeStep).value;
    var a :| 0 <= a < |s| && s[a] == x;
    var b :| 0 <= b < |s| && s[b] == y;
    SortedKeysDiffer(s, a, b);
  }

  /** Two positions of a strictly sorted sequence with the same group are one position. */
  lemma SortedKeysDiffer(s: seq<LinkRow>, a: nat, b: nat)
    requires StrictlySorted(s) && a < |s| && b < |s| && HasKey(s[b], s[a].nodeId, s[a].timeStep)
    ensures a == b
  {
  }

  /**
   * Offer row `c` to a strictly sorted table of group winners: it takes the place of
   * its group's row if strictly nearer, joins in order if its group is new, and is
   * dropped otherwise.
   */
  function Offer(s: seq<LinkRow>, c: LinkRow): (r: seq<LinkRow>)
    requires StrictlySorted(s)
    ensures StrictlySorted(r)
    ensures forall x :: x in r ==> x in s || x == c
    decreases |s|
  {
    if |s| == 0 then [c]
    else if HasKey(s[0], c.nodeId, c.timeStep) then
      if c.distance < s[0].distance then
        assert forall j :: 1 <= j < |s| ==> Before(s[0], s[j]);
        [c] + s[1..]
      else s
    else if Before(c, s[0]) then [c] + s
    else
      var rest := Offer(s[1..], c);
      assert forall x :: x in s[1..] ==> Before(s[0], x);
      [s[0]] + rest
  }

  /** What offering `c` does to each group's winner. */
  lemma {:induction false} OfferFind(s: seq<LinkRow>, c: LinkRow, v: int, t: int)
    requires StrictlySorted(s)
    ensures Find(Offer(s, c), v, t) ==
      if !HasKey(c, v, t) then Find(s, v, t)
      else if Find(s, v, t).Some? && Find(s, v, t).value.distance <= c.distance then Find(s, v, t)
      else Some(c)
    decreases |s|
  {
    if |s| > 0 && !HasKey(s[0], c.nodeId, c.timeStep) && !Before(c, s[0]) {
      OfferFind(s[1..], c, v, t);
    } else if |s| > 0 && HasKey(s[0], c.nodeId, c.timeStep) && c.distance < s[0].distance {
      assert ([c] + s[1..])[1..] == s[1..];
      if HasKey(c, v, t) {
        assert forall j :: 1 <= j < |s| ==> Before(s[0], s[j]);
      }
    } else if |s| > 0 && !HasKey(s[0], c.nodeId, c.timeStep) && HasKey(c, v, t) {
      assert forall j :: 0 <= j < |s| ==> Before(c, s[j]);
    }
  }

  /** The nearest row of each (time step, node) group, ordered by (node, time step). */
  function Nearest(rows: seq<LinkRow>): (r: seq<LinkRow>)
    ensures StrictlySorted(r)
    ensures forall x :: x in r ==> x in rows
    decreases |rows|
  {
    if |rows| == 0 then []
    else
      var pre := rows[..|rows| - 1];
      var r := Offer(Nearest(pre), rows[|rows| - 1]);
      assert forall x :: x in pre ==> x in rows;
      r
  }

  /** Each group's row in `Nearest` is its `idxmin` row, and a group is present iff some row is in it. */
  lemma {:induction false} NearestFind(rows: seq<LinkRow>, v: int, t: int)
    ensures Find(Nearest(rows), v, t).None? <==> forall j :: 0 <= j < |rows| ==> !HasKey(rows[j], v, t)
    ensures Find(Nearest(rows), v, t).Some? ==>
      exists i :: 0 <= i < |rows| && HasKey(rows[i], v, t) && IsIdxMin(rows, i) && Find(Nearest(rows), v, t) == Some(rows[i])
    decreases |rows|
  {
    if |rows| > 0 {
      var n := |rows| - 1;
      var pre := rows[..n];
      var c := rows[n];
      NearestFind(pre, v, t);
      OfferFind(Nearest(pre), c, v, t);
      assert forall j :: 0 <= j < n ==> pre[j] == rows[j];
      var old_ := Find(Nearest(pre), v, t);
      if old_.Some? {
        var i :| 0 <= i < n && HasKey(pre[i], v, t) && IsIdxMin(pre, i) && old_ == Some(pre[i]);
        if HasKey(c, v, t) && c.distance < pre[i].distance {
          IdxMinSnocNew(rows);
        } else {
          IdxMinSnocOld(rows, i);
        }
      } else if HasKey(c, v, t) {
        IdxMinSnocNew(rows);
      }
    }
  }

  /** A last row nearer than every earlier row of its group is that group's `idxmin` row. */
  lemma IdxMinSnocNew(rows: seq<LinkRow>)
    requires |rows| > 0
    requires var c := rows[|rows| - 1];
      forall j :: 0 <= j < |rows| - 1 && HasKey(rows[j], c.nodeId, c.timeStep) ==> c.distance < rows[j].distance
    ensures IsIdxMin(rows, |rows| - 1)
  {
  }

  /** An `idxmin` row stays one when a row no nearer is appended. */
  lemma IdxMinSnocOld(rows: seq<LinkRow>, i: nat)
    requires i < |rows| - 1 && IsIdxMin(rows[..|rows| - 1], i)
    requires var c := rows[|rows| - 1]; HasKey(c, rows[i].nodeId, rows[i].timeStep) ==> rows[i].distance <= c.distance
    ensures IsIdxMin(rows, i)
  {
    assert forall j :: 0 <= j < |rows| - 1 ==> rows[..|rows| - 1][j] == rows[j];
  }

  /** A group has one `idxmin` row. */
  lemma IdxMinUnique(rows: seq<LinkRow>, i: nat, j: nat)
    requires i < |rows| && j < |rows| && IsIdxMin(rows, i) && IsIdxMin(rows, j)
    requires HasKey(rows[j], rows[i].nodeId, rows[i].timeStep)
    ensures i == j
  {
  }

  /** Every `idxmin` row survives the argmin step. */
  lemma NearestKeepsIdxMin(rows: seq<LinkRow>, i: nat)
    requires i < |rows| && IsIdxMin(rows, i)
    ensures rows[i] in Nearest(rows)
  {
    NearestFind(rows, rows[i].nodeId, rows[i].timeStep);
    var j :| 0 <= j < |rows| && HasKey(rows[j], rows[i].nodeId, rows[i].timeStep) && IsIdxMin(rows, j)
             && Find(Nearest(rows), rows[i].nodeId, rows[i].timeStep) == Some(rows[j]);
    IdxMinUnique(rows, i, j);
  }

  /** Only `idxmin` rows survive the argmin step. */
  lemma NearestOnlyIdxMin(rows: seq<LinkRow>, x: LinkRow)
    requires x in Nearest(rows)
    ensures exists i :: 0 <= i < |rows| && rows[i] == x && IsIdxMin(rows, i)
  {
    FindMember(Nearest(rows), x);
    NearestFind(rows, x.nodeId, x.timeStep);
  }

  /** Every group that has a row keeps exactly one. */
  lemma NearestCoversGroups(rows: seq<LinkRow>, j: nat)
    requires j < |rows|
    ensures exists y :: y in Nearest(rows) && HasKey(y, rows[j].nodeId, rows[j].timeStep)
  {
    NearestFind(rows, rows[j].nodeId, rows[j].timeStep);
  }

  /** The target of the last row of node `v` in `s`, if `s` has one. */
  function LastTarget(s: seq<LinkRow>, v: int): (r: Option<int>)
    ensures r.None? <==> forall j :: 0 <= j < |s| ==> s[j].nodeId != v
    decreases |s|
  {
    if |s| == 0 then None
    else if s[|s| - 1].nodeId == v then Some(s[|s| - 1].targetId)
    else LastTarget(s[..|s| - 1], v)
  }

  /**
   * `groupby(node).target_id.diff() != 0 | groupby(node).cumcount() == 0` at row `i`:
   * the row is its node's first, or its target differs from the node's previous row.
   */
  predicate Changed(s: seq<LinkRow>, i: nat)
    requires i < |s|
  {
    LastTarget(s[..i], s[i].nodeId) != Some(s[i].targetId)
  }

  function ChangeMask(s: seq<LinkRow>): (keep: seq<bool>)
    ensures |keep| == |s| && forall i :: 0 <= i < |s| ==> keep[i] == Changed(s, i)
  {
    seq(|s|, i requires 0 <= i < |s| => Changed(s, i))
  }

  /** `links_df[final_mask]`: the rows where the node's target changes. */
  function KeepChanges(s: seq<LinkRow>): (r: seq<LinkRow>)
  {
    Mask(s, ChangeMask(s))
  }

  /** Appending a row leaves the decisions about earlier rows as they were. */
  lemma KeepChangesSnoc(s: seq<LinkRow>, x: LinkRow)
    ensures KeepChanges(s + [x]) == KeepChanges(s) + (if LastTarget(s, x.nodeId) != Some(x.targetId) then [x] else [])
  {
    var t := s + [x];
    assert t[..|s|] == s;
    assert forall i :: 0 <= i < |s| ==> t[..i] == s[..i];
    assert ChangeMask(t)[..|s|] == ChangeMask(s);
  }

  /** The filter keeps every node's last target: it drops only rows that repeat it. */
  lemma {:induction false} KeepChangesLastTarget(s: seq<LinkRow>, v: int)
    ensures LastTarget(KeepChanges(s), v) == LastTarget(s, v)
    decreases |s|
  {
    if |s| > 0 {
      var pre := s[..|s| - 1];
      var x := s[|s| - 1];
      assert s == pre + [x];
      KeepChangesSnoc(pre, x);
      KeepChangesLastTarget(pre, v);
      KeepChangesLastTarget(pre, x.nodeId);
      var k := KeepChanges(pre);
      if LastTarget(pre, x.nodeId) != Some(x.targetId) {
        assert KeepChanges(s) == k + [x];
        assert (k + [x])[..|k|] == k;
      } else {
        assert KeepChanges(s) == k;
      }
    }
  }

  /** Every kept row is a change even among the kept rows. */
  lemma {:induction false} KeptRowsChange(s: seq<LinkRow>)
    ensures forall i :: 0 <= i < |KeepChanges(s)| ==> Changed(KeepChanges(s), i)
    decreases |s|
  {
    if |s| > 0 {
      var pre := s[..|s| - 1];
      var x := s[|s| - 1];
      assert s == pre + [x];
      KeepChangesSnoc(pre, x);
      KeptRowsChange(pre);
      var k := KeepChanges(pre);
      var o := KeepChanges(s);
      if LastTarget(pre, x.nodeId) != Some(x.targetId) {
        assert o == k + [x];
        forall i | 0 <= i < |o|
          ensures Changed(o, i)
        {
          if i < |k| {
            assert o[..i] == k[..i] && o[i] == k[i];
            assert Changed(k, i);
          } else {
            assert o[..i] == k;
            KeepChangesLastTarget(pre, x.nodeId);
          }
        }
      } else {
        assert o == k;
      }
    }
  }

  /** A sequence in which every row is a change passes the filter unchanged. */
  lemma {:induction false} AllChangedKept(o: seq<LinkRow>)
    requires forall i :: 0 <= i < |o| ==> Changed(o, i)
    ensures KeepChanges(o) == o
    decreases |o|
  {
    if |o| > 0 {
      var pre := o[..|o| - 1];
      var x := o[|o| - 1];
      forall i | 0 <= i < |pre|
        ensures Changed(pre, i)
      {
        assert pre[..i] == o[..i] && pre[i] == o[i];
        assert Changed(o, i);
      }
      AllChangedKept(pre);
      assert o == pre + [x];
      KeepChangesSnoc(pre, x);
      assert Changed(o, |pre|);
    }
  }

  /** Filtering twice is filtering once. */
  lemma KeepChangesIdempotent(s: seq<LinkRow>)
    ensures KeepChanges(KeepChanges(s)) == KeepChanges(s)
  {
    KeptRowsChange(s);
    AllChangedKept(KeepChanges(s));
  }

  /** Adjacent kept rows of one node lead to different targets. */
  lemma AdjacentTargetsDiffer(s: seq<LinkRow>, i: nat)
    requires 0 < i < |KeepChanges(s)|
    requires KeepChanges(s)[i - 1].nodeId == KeepChanges(s)[i].nodeId
    ensures KeepChanges(s)[i - 1].targetId != KeepChanges(s)[i].targetId
  {
    var o := KeepChanges(s);
    KeptRowsChange(s);
    assert Changed(o, i);
    assert o[..i][i - 1] == o[i - 1];
  }

  /** Row `i` is kept iff it is a change, and then it is in the output. */
  lemma {:induction false} KeptIffChanged(s: seq<LinkRow>, i: nat)
    requires i < |s|
    ensures Changed(s, i) ==> s[i] in KeepChanges(s)
    ensures (forall j :: 0 <= j < i ==> s[j].nodeId != s[i].nodeId) ==> s[i] in KeepChanges(s)
    decreases |s|
  {
    var pre := s[..|s| - 1];
    var x := s[|s| - 1];
    assert s == pre + [x];
    KeepChangesSnoc(pre, x);
    if i < |pre| {
      assert pre[..i] == s[..i] && pre[i] == s[i];
      KeptIffChanged(pre, i);
    } else {
      assert s[..i] == pre;
    }
  }

  /** Every node that has a row has a row in the output. */
  lemma EveryNodeKept(s: seq<LinkRow>, v: int)
    ensures (exists j :: 0 <= j < |s| && s[j].nodeId == v) <==> exists j :: 0 <= j < |KeepChanges(s)| && KeepChanges(s)[j].nodeId == v
  {
    KeepChangesLastTarget(s, v);
  }

  /** The transitions of a link table, before any id mapping. */
  function Transitions(links: seq<LinkRow>): (r: seq<LinkRow>)
  {
    KeepChanges(Nearest(links))
  }

  /** The output is ordered by (node, time step), with at most one row per group, each an input row. */
  lemma TransitionsOrdered(links: seq<LinkRow>)
    ensures StrictlySorted(Transitions(links))
    ensures forall x :: x in Transitions(links) ==> x in links
  {
    var s := Nearest(links);
    MaskSubsequence(s, ChangeMask(s));
  }

  /** A masked selection keeps order: it is strictly sorted if the source is, and takes only source rows. */
  lemma {:induction false} MaskSubsequence(s: seq<LinkRow>, keep: seq<bool>)
    requires |s| == |keep|
    ensures forall x :: x in Mask(s, keep) ==> x in s
    ensures StrictlySorted(s) ==> StrictlySorted(Mask(s, keep))
    decreases |s|
  {
    if |s| > 0 {
      var pre := s[..|s| - 1];
      var m := Mask(pre, keep[..|keep| - 1]);
      MaskSubsequence(pre, keep[..|keep| - 1]);
      assert forall x :: x in pre ==> x in s;
      if StrictlySorted(s) && keep[|keep| - 1] {
        var last := s[|s| - 1];
        assert forall x :: x in pre ==> Before(x, last);
        assert forall i :: 0 <= i < |m| ==> Before(m[i], last);
        assert Mask(s, keep) == m + [last];
      }
    }
  }

  /** `Series.replace(mapping)`: a target the mapping holds is replaced, any other is kept. */
  function ReplaceTargets(rows: seq<LinkRow>, m: seq<Entry<int>>): (r: seq<LinkRow>)
    ensures |r| == |rows|
    ensures forall i :: 0 <= i < |rows| ==>
              r[i].(targetId := rows[i].targetId) == rows[i]
              && (Lookup(m, rows[i].targetId).None? ==> r[i] == rows[i])
    ensures DistinctKeys(m) ==> forall i, j :: 0 <= i < |rows| && 0 <= j < |m| && m[j].key == rows[i].targetId ==> r[i].targetId == m[j].value
  {
    seq(|rows|, i requires 0 <= i < |rows| =>
      rows[i].(targetId := match Lookup(m, rows[i].targetId) case Some(n) => n case None => rows[i].targetId))
  }

  /** A roadside unit of the deployment table: its node id and its ns-3 id. */
  datatype RsuRow = RsuRow(nodeId: int, ns3Id: int)

  datatype MappingError = EmptyRsuTable  // `iloc[0]` of an empty table

  datatype NodeMapping = NodeMapping(withOffset: seq<Entry<int>>, withoutOffset: seq<Entry<int>>)

  /**
   * `V2RTransitions._read_node_mapping` (pavenet): node id to ns-3 id, and node id to
   * ns-3 id minus the ns-3 id of the first row.
   */
  function ReadNodeMapping(rsus: seq<RsuRow>): (r: Result<NodeMapping, MappingError>)
    ensures r.Failure? <==> |rsus| == 0
  {
    if |rsus| == 0 then Failure(EmptyRsuTable)
    else
      var offset := rsus[0].ns3Id;
      Success(NodeMapping(
        FromPairs(seq(|rsus|, i requires 0 <= i < |rsus| => Entry(rsus[i].nodeId, rsus[i].ns3Id))),
        FromPairs(seq(|rsus|, i requires 0 <= i < |rsus| => Entry(rsus[i].nodeId, rsus[i].ns3Id - offset)))))
  }

  /**
   * The two pavenet mappings hold the same nodes and differ by the first row's ns-3
   * id; when no later row repeats the first node, that node maps to 0 without offset.
   */
  lemma NodeMappingOffset(rsus: seq<RsuRow>, k: int)
    requires |rsus| > 0
    ensures var m := ReadNodeMapping(rsus).value;
      && (Lookup(m.withOffset, k).Some? <==> Lookup(m.withoutOffset, k).Some?)
      && (Lookup(m.withOffset, k).Some? ==> Lookup(m.withoutOffset, k).value == Lookup(m.withOffset, k).value - rsus[0].ns3Id)
      && (Lookup(m.withOffset, k).Some? <==> exists i :: 0 <= i < |rsus| && rsus[i].nodeId == k)
    ensures (forall j :: 0 < j < |rsus| ==> rsus[j].nodeId != rsus[0].nodeId) ==>
      Lookup(ReadNodeMapping(rsus).value.withoutOffset, rsus[0].nodeId) == Some(0)
  {
    var offset := rsus[0].ns3Id;
    var a := seq(|rsus|, i requires 0 <= i < |rsus| => Entry(rsus[i].nodeId, rsus[i].ns3Id));
    var b := seq(|rsus|, i requires 0 <= i < |rsus| => Entry(rsus[i].nodeId, rsus[i].ns3Id - offset));
    FromPairsLookup(a, k);
    FromPairsLookup(b, k);
    LastValueAt(a, k);
    LastValueAt(b, k);
    ShiftedLastValue(a, b, offset, k);
    if exists i :: 0 <= i < |rsus| && rsus[i].nodeId == k {
      var i :| 0 <= i < |rsus| && rsus[i].nodeId == k;
      assert a[i].key == k;
    }
    FromPairsLookup(b, rsus[0].nodeId);
    LastValueAt(b, rsus[0].nodeId);
    assert b[0] == Entry(rsus[0].nodeId, 0);
  }

  /** Pairs with the same keys and values shifted by `offset` give last values shifted by `offset`. */
  lemma {:induction false} ShiftedLastValue(a: seq<Entry<int>>, b: seq<Entry<int>>, offset: int, k: int)
    requires |a| == |b| && forall i :: 0 <= i < |a| ==> b[i] == Entry(a[i].key, a[i].value - offset)
    ensures LastValue(b, k).Some? <==> LastValue(a, k).Some?
    ensures LastValue(a, k).Some? ==> LastValue(b, k).value == LastValue(a, k).value - offset
    decreases |a|
  {
    if |a| > 0 {
      ShiftedLastValue(a[..|a| - 1], b[..|b| - 1], offset, k);
    }
  }

  /** The pavenet script's two outputs: ns-3 targets and Mosaic targets. */
  function PavenetTransitions(links: seq<LinkRow>, rsus: seq<RsuRow>): (r: Result<(seq<LinkRow>, seq<LinkRow>), MappingError>)
    ensures r.Failure? <==> |rsus| == 0
    ensures r.Success? ==> |r.value.0| == |r.value.1| == |Transitions(links)|
  {
    match ReadNodeMapping(rsus)
    case Failure(e) => Failure(e)
    case Success(m) =>
      var filtered := Transitions(links);
      Success((ReplaceTargets(filtered, m.withOffset), ReplaceTargets(filtered, m.withoutOffset)))
  }

  /** The pavenet outputs are the transitions with only their targets renamed. */
  lemma PavenetOnlyTargetsChange(links: seq<LinkRow>, rsus: seq<RsuRow>)
    requires |rsus| > 0
    ensures var out := PavenetTransitions(links, rsus).value;
      && |out.0| == |Transitions(links)| && |out.1| == |Transitions(links)|
      && forall i :: 0 <= i < |Transitions(links)| ==>
           out.0[i].(targetId := Transitions(links)[i].targetId) == Transitions(links)[i]
           && out.1[i].(targetId := Transitions(links)[i].targetId) == Transitions(links)[i]
  {
  }

  /**
   * `V2RTransitions._read_node_mapping` (disolv): agent id to itself, and shifted
   * agent id to itself, the shift being the first row's agent id.
   */
  function ReadIdentityMapping(agents: seq<int>): (r: Result<NodeMapping, MappingError>)
    ensures r.Failure? <==> |agents| == 0
  {
    if |agents| == 0 then Failure(EmptyRsuTable)
    else
      var offset := agents[0];
      Success(NodeMapping(
        FromPairs(seq(|agents|, i requires 0 <= i < |agents| => Entry(agents[i], agents[i]))),
        FromPairs(seq(|agents|, i requires 0 <= i < |agents| => Entry(agents[i] - offset, agents[i] - offset)))))
  }

  /** Pairs that map each key to itself give a lookup that is the identity where defined. */
  lemma {:induction false} IdentityLastValue(a: seq<Entry<int>>, k: int)
    requires forall i :: 0 <= i < |a| ==> a[i].value == a[i].key
    ensures LastValue(a, k).Some? ==> LastValue(a, k).value == k
    decreases |a|
  {
    if |a| > 0 {
      IdentityLastValue(a[..|a| - 1], k);
    }
  }

  /**
   * The disolv mappings are identities: the first on the agent ids, the second on
   * the agent ids shifted down by the first one; so replacing targets with them
   * changes nothing.
   */
  lemma IdentityMappingLookup(agents: seq<int>, k: int)
    requires |agents| > 0
    ensures var m := ReadIdentityMapping(agents).value;
      && (Lookup(m.withOffset, k).Some? <==> k in agents)
      && (Lookup(m.withOffset, k).Some? ==> Lookup(m.withOffset, k) == Some(k))
      && (Lookup(m.withoutOffset, k).Some? <==> k + agents[0] in agents)
      && (Lookup(m.withoutOffset, k).Some? ==> Lookup(m.withoutOffset, k) == Some(k))
  {
    var offset := agents[0];
    var a := seq(|agents|, i requires 0 <= i < |agents| => Entry(agents[i], agents[i]));
    var b := seq(|agents|, i requires 0 <= i < |agents| => Entry(agents[i] - offset, agents[i] - offset));
    FromPairsLookup(a, k);
    FromPairsLookup(b, k);
    LastValueAt(a, k);
    LastValueAt(b, k);
    IdentityLastValue(a, k);
    IdentityLastValue(b, k);
    if k in agents {
      var i :| 0 <= i < |agents| && agents[i] == k;
      assert a[i].key == k;
    }
    if k + offset in agents {
      var i :| 0 <= i < |agents| && agents[i] == k + offset;
      assert b[i].key == k;
    }
  }

  /** Replacing targets through an identity mapping leaves every row as it was. */
  lemma ReplaceIdentity(rows: seq<LinkRow>, agents: seq<int>)
    requires |agents| > 0
    ensures ReplaceTargets(rows, ReadIdentityMapping(agents).value.withOffset) == rows
  {
    var r := ReplaceTargets(rows, ReadIdentityMapping(agents).value.withOffset);
    forall i | 0 <= i < |rows|
      ensures r[i] == rows[i]
    {
      IdentityMappingLookup(agents, rows[i].targetId);
    }
  }

  /**
   * The disolv script: reading the RSU table fails when it is empty, before anything
   * is written; otherwise it writes the transitions themselves, targets not remapped.
   */
  function DisolvTransitions(links: seq<LinkRow>, agents: seq<int>): (r: Result<seq<LinkRow>, MappingError>)
    ensures r.Failure? <==> |agents| == 0
    ensures r.Success? ==> StrictlySorted(r.value)
    ensures r.Success? ==> forall x :: x in r.value ==> x in links
    ensures r.Success? ==> KeepChanges(r.value) == r.value
  {
    match ReadIdentityMapping(agents)
    case Failure(e) => Failure(e)
    case Success(_) =>
      TransitionsOrdered(links);
      KeepChangesIdempotent(Nearest(links));
      Success(Transitions(links))
  }
}

=== FILE: wrappers.dfy ===
/** Failure-carrying values used wherever the modelled code raises or returns "nothing". */
module Wrappers {

  datatype Option<+T> = None | Some(value: T)

  /** A computation that either produced a value or stopped with an error, as a raised exception does. */
  datatype Result<+T, +E> = Success(value: T) | Failure(error: E)
}
